=== FILE: README.md ===
# XPT2046 touch calibrator — a Dafny model

This project models the core of the XPT2046 resistive-touch toolkit in Dafny. The toolkit has four programs:

- `xpt2046_calibrator` (the *sampler*) reads the controller over SPI, maps the reading to screen coordinates and filters it. It prints one report line per poll and detects taps and drags.
- `xpt2046_uinputd` (the *daemon*) runs the same mapping and filter with a two-sample debounce. It reports the contact to the kernel as a single-slot multi-touch device and reloads its configuration while idle. As written, it never reports a release (see Findings). The model keeps that loop as written and also gives a corrected one. The debounce, filter and poll-period lemmas are stated about the corrected loop; `Daemon.AsWrittenSharesCore` and `Daemon.RunAsWrittenSharesCore` show that the loop as written goes through the same states apart from what the device has been told, so they hold for it too.
- `basic_gui` and `advanced_gui` are SDL test tools. They read the sampler's report lines, scale them with their own copy of the calibrated ranges and move a cursor, buttons and a slider, or draw the output pointer, the deadzone outline and the last gesture.

Every component is a pure function over immutable datatypes, one module per component:

| module | file | what it holds |
|---|---|---|
| `Common` | common.dfy | clamp, C truncating division, `llround`, the `(int)` cast, 32-bit wrap |
| `SpiSample` | spi_sample.dfy | the 3-byte SPI reply and its 12-bit decoding |
| `ConfigText` | config_text.dfy | blank trimming, `strtol`/`atoi` and `strtof` on decimal text |
| `ConfigFile` | config_file.dfy | the `key=value` file as the sampler and the daemon read it; the `spi_device=` rewrite |
| `Params` | params.dfy | the advanced parameters, their defaults and the sanitiser |
| `Mapper` | mapper.dfy | swap, invert, range clamp, range scaling (four variants), fine adjustment, deadzone clip |
| `Median` | median.dfy | the sliding window and `median_of` |
| `NoiseFilter` | noise_filter.dfy | jump limit, median and IIR smoothing |
| `Sampler` | sampler.dfy | the sampler's loop iteration: hysteresis, tap and drag detection, filter, output clamp |
| `Daemon` | daemon.dfy | the daemon's loop iteration, the event stream it writes, the idle reload |
| `GuiCommon` | gui_common.dfy | what both GUIs share: report-line fields, config lines, env overrides, window clamp |
| `BasicGui` | basic_gui.dfy | ranges, idle-cursor mode, scaling and UI state of the basic tool |
| `AdvancedGui` | advanced_gui.dfy | configuration, fallback mapping, view updates, deadzone outline, gesture text of the advanced tool |

Floating-point arithmetic is modelled on exact reals:

- `llround` rounds half away from zero.
- A `(int)` cast truncates toward zero.
- C integer division truncates; Dafny's Euclidean `/` is not used for it.

The meaning of the gesture-text filter is carried by three inductions: `AdvancedGui.KeepDrawableSubsequence` (the filter only deletes), `AdvancedGui.KeepCount` (it deletes exactly the undrawable characters) and `AdvancedGui.GestureTextSubsequence` (which lifts both to the drawn, 30-character text). `AdvancedGui.GestureOutlivesReports` is only a frame property of the view update.

Time, the SPI device, environment variables and file contents enter as parameters. The daemon's kernel event stream is the sequence of events each iteration returns.

## Model

| member | source | states |
|---|---|---|
| Common.Clamp | src/xpt2046_calibrator.cpp:119-122 | `clamp_val` lands inside `[lo, hi]` whenever that interval is non-empty, keeps in-range values and sends out-of-range ones to the nearest bound |
| Common.ClampReal | src/xpt2046_uinputd.cpp:117-119 | the same clamp on the float parameters: inside a non-empty interval, in-range values kept |
| Common.TruncDiv | src/xpt2046_uinputd.cpp:511-512 | C division in the daemon's scaling truncates: the remainder is smaller than the divisor and has the sign of the dividend |
| Common.RoundHalfAway | src/xpt2046_calibrator.cpp:609-610 | `llround` lies within one half of its argument, halfway cases going away from zero |
| Common.RoundBetween | src/xpt2046_calibrator.cpp:603-610 | rounding a value between two integers stays between them |
| Common.TruncReal | src/advanced_gui.cpp:125-126 | the `(int)` cast of a double truncates toward zero: within one unit of the value, on the side of zero |
| Common.ToInt32 | src/xpt2046_calibrator.cpp:107 | the `(int)` cast of a `long` stays in 32-bit range, agrees with its argument modulo 2^32 and keeps in-range values |
| SpiSample.Decode | src/xpt2046_calibrator.cpp:275 | `((rx1<<5) \| (rx2>>3)) & 0xFFF` is the 12-bit value made of the low 7 bits of the first data byte and the top 5 bits of the second |
| SpiSample.DecodeValue | src/xpt2046_calibrator.cpp:275 | the shift, OR and mask, defined bit by bit, equal that arithmetic form |
| SpiSample.DecodeEncode | src/xpt2046_calibrator.cpp:259-277 | every 12-bit sample survives the controller's byte layout: decoding the reply that carries it gives it back |
| SpiSample.DecodeIgnoresLowBits | src/xpt2046_calibrator.cpp:275 | the three low bits of the last byte carry no information |
| SpiSample.ReadValue | src/xpt2046_uinputd.cpp:238-252 | `read_xpt2046` returns -1 exactly when the transfer fails, else the decoded sample in `[0, 4095]` |
| SpiSample.Pressure | src/xpt2046_calibrator.cpp:586 | the pressure is the Z1 reading, a failed read counting as 0 |
| ConfigText.TrimLeft | src/xpt2046_calibrator.cpp:223 | `ltrim` removes exactly the leading spaces and tabs: what is dropped is blank and what remains starts with a non-blank |
| ConfigText.TrimRight | src/xpt2046_calibrator.cpp:224 | `rtrim` removes exactly the trailing spaces and tabs |
| ConfigText.TrimPadding | src/xpt2046_calibrator.cpp:223-225 | trimming a word with blank padding on both sides gives back the word, whatever the padding |
| ConfigText.ParseInt | src/xpt2046_calibrator.cpp:103-109 | `parse_int` only ever delivers 32-bit values, the `long` passing through the `(int)` cast |
| ConfigText.ParseShow | src/xpt2046_calibrator.cpp:103-109 | `parse_int` reads back the decimal rendering of every 32-bit value: decimal text and the parser are inverses |
| ConfigText.ParseRejectsNonNumbers | src/xpt2046_calibrator.cpp:106 | text without a digit fails to parse (`end == s`), so the field keeps its value |
| ConfigText.HexReadsLeadingZero | src/xpt2046_calibrator.cpp:111-117 | hexadecimal text such as `0x10` reads as its leading `0` (where `strtof` would give 16) |
| ConfigText.ParseFloatRejectsNonNumbers | src/xpt2046_calibrator.cpp:111-117 | `parse_float` likewise fails on text without a digit |
| ConfigText.Atoi | src/basic_gui.cpp:65 | `atoi` agrees with `parse_int` where that succeeds and is 0 where it fails |
| ConfigText.DigitsOfShowNat | src/xpt2046_calibrator.cpp:103-109 | the digits of a rendered natural number have that number as their value |
| ConfigText.FractionValue | src/xpt2046_calibrator.cpp:111-117 | the digits after a decimal point weigh between 0 and 1 |
| ConfigText.ParseFloatDigits | src/xpt2046_calibrator.cpp:111-117 | `parse_float` (`strtof`) reads an integer written as optional minus and digits as exactly that integer |
| ConfigText.UnsignedDigits | src/xpt2046_calibrator.cpp:113 | a plain digit run is an unsigned number with nothing left over |
| ConfigFile.KeyOf | src/xpt2046_calibrator.cpp:228-254 | the `key == "..."` chain recognises a string exactly when it names a key the program knows, and then that key |
| ConfigFile.KeyOfName | src/xpt2046_uinputd.cpp:164-187 | every key a program knows is recognised by its own name |
| ConfigFile.NameInjective | src/xpt2046_calibrator.cpp:228-254 | no two keys share a name, so at most one arm of the chain applies |
| ConfigFile.FieldFacts | src/xpt2046_calibrator.cpp:228-254 | each arm writes its own field: the value reads back, every other field is unchanged, and a second write replaces the first |
| ConfigFile.Parsed | src/xpt2046_calibrator.cpp:228-254 | an accepted value has the kind its field stores; `spi_device` accepts any text |
| ConfigFile.AssignFrame | src/xpt2046_calibrator.cpp:228-254 | assigning one key leaves every other field as it was |
| ConfigFile.AssignOverrides | src/xpt2046_calibrator.cpp:214-255 | a later parsable assignment of a key overrides an earlier one |
| ConfigFile.FirstEq | src/xpt2046_calibrator.cpp:218 | `find('=')` is the position of the first `=`, or the end of the line when there is none |
| ConfigFile.SplitLine | src/xpt2046_calibrator.cpp:214-221 | a line is skipped exactly when it is empty, starts with `#`, or has no `=` |
| ConfigFile.SplitJoin | src/xpt2046_calibrator.cpp:218-225 | splitting `k=v` at the first `=` recovers `k` and `v`, even when `v` contains `=` |
| ConfigFile.SkippedLine | src/xpt2046_uinputd.cpp:156-158 | comment, empty and `=`-less lines change nothing |
| ConfigFile.SamplerTrims | src/xpt2046_calibrator.cpp:220-254 | the sampler ignores blanks around keys and values: a padded line assigns like the bare one |
| ConfigFile.SamplerReadsAssignment | src/xpt2046_calibrator.cpp:218-254 | the sampler reads `name=value` as an assignment of the trimmed value to that key |
| ConfigFile.DaemonDoesNotTrim | src/xpt2046_uinputd.cpp:159-164 | the daemon does not trim, so a blank before `=` hides the key |
| ConfigFile.DaemonIgnoresGestureKeys | src/xpt2046_uinputd.cpp:164-187 | the daemon has no tap or drag parameters and ignores those lines |
| ConfigFile.NonNumberKeeps | src/xpt2046_calibrator.cpp:228-254 | a numeric key given a value that does not parse leaves the whole configuration unchanged |
| ConfigFile.LoadLinesAppend | src/xpt2046_calibrator.cpp:214-255 | reading a file in two parts is reading it whole: the loader is a left fold over lines |
| ConfigFile.ApplyLineFrame | src/xpt2046_calibrator.cpp:214-255 | a line that does not set a key leaves that key's field alone; a line naming the key with a value that does not parse counts as not setting it |
| ConfigFile.LoadLinesUntouched | src/xpt2046_calibrator.cpp:214-255 | lines none of which sets a key (each either names another key or gives this one an unparsable value) leave its field alone |
| ConfigFile.LastAssignmentWins | src/xpt2046_calibrator.cpp:214-255 | the last line assigning a key a parsable value decides that field; later lines naming the key with an unparsable value change nothing |
| ConfigFile.LastAssignmentAt | src/xpt2046_calibrator.cpp:214-255 | the deciding assignment may sit anywhere in the file as long as no later line gives the key a parsable value |
| ConfigFile.ReplaceSpiLines | src/xpt2046_calibrator.cpp:74-81 | each line starting with `spi_device=` is replaced by the new device line, every other line kept in place |
| ConfigFile.UpdateConfigSpi | src/xpt2046_calibrator.cpp:67-91 | `update_config_spi`: an empty device changes nothing; otherwise device lines are rewritten, one is appended when none existed, and afterwards every device line names the device |
| ConfigFile.UpdateConfigSpiIdempotent | src/xpt2046_calibrator.cpp:67-91 | persisting the same device twice writes the same file as once |
| ConfigFile.UpdateConfigSpiThenLoad | src/xpt2046_calibrator.cpp:67-91 | the sampler's loader reads back the persisted device (trimmed), provided every line assigning the device is a plain `spi_device=` line |
| Params.Sanitize | src/xpt2046_uinputd.cpp:113-122 | `sanitize_adv` yields sanitised parameters, keeps every in-range field, sends out-of-range ones to the nearest bound, falls back to window 3, caps the release threshold at the press threshold and touches nothing else |
| Params.SanitizeIdempotent | src/xpt2046_calibrator.cpp:320-327 | the sanitiser is idempotent and leaves exactly the sanitised parameter sets unchanged |
| Params.DefaultsSanitized | src/xpt2046_calibrator.cpp:124-150 | the built-in defaults already satisfy the sanitiser |
| Mapper.Invert | src/xpt2046_calibrator.cpp:591-592 | inversion keeps a 12-bit value in range |
| Mapper.Orient | src/xpt2046_calibrator.cpp:587-592 | swap then invert keeps a 12-bit reading in range |
| Mapper.UnorientOrient | src/xpt2046_calibrator.cpp:587-592 | orientation loses nothing: undoing the inversions and then the swap recovers the raw reading |
| Mapper.OrientSwap | src/xpt2046_uinputd.cpp:505-507 | swap happens before invert: swapping is the same as feeding the swapped reading |
| Mapper.RangeClamp | src/xpt2046_calibrator.cpp:593-601 | the sampler clamps into the raw range only when it is well formed, and leaves the value alone otherwise |
| Mapper.SamplerScale | src/xpt2046_calibrator.cpp:603-604 | the sampler's range scaling puts the low end on 0 and the high end on the screen size, and everything between inside |
| Mapper.DaemonScale | src/xpt2046_uinputd.cpp:511-512 | the daemon's integer scaling maps the range into `[0, w-1]`, the low end onto 0 and the high end onto `w-1`, for any range, an empty one included |
| Mapper.DaemonScaleMonotone | src/xpt2046_uinputd.cpp:511-512 | the daemon's scaling preserves order along the raw axis |
| Mapper.GuiScale | src/advanced_gui.cpp:125-126 | the GUIs' truncating scaling maps the range into `[0, w]`, ends onto ends |
| Mapper.OffsetScale | src/xpt2046_uinputd.cpp:516-517 | the fine adjustment is within one half of `s*scale + offset`, and exact for unit scale |
| Mapper.DeadzoneBounds | src/xpt2046_uinputd.cpp:519-524 | the deadzone-trimmed interval is never empty, lies on the screen, is exactly what the deadzones leave when they fit, and is the whole screen without deadzones |
| Mapper.ClipDeadzone | src/xpt2046_uinputd.cpp:519-526 | the clipped position lies inside the trimmed interval and an inside position is kept |
| Mapper.MapSampler | src/xpt2046_calibrator.cpp:587-620 | the sampler's mapped sample always lies inside the deadzone-trimmed screen |
| Mapper.MapDaemon | src/xpt2046_uinputd.cpp:503-526 | the daemon's mapped sample always lies inside the deadzone-trimmed screen |
| Mapper.DaemonMapsRangeOntoScreen | src/xpt2046_uinputd.cpp:503-526 | with neutral fine-tuning the calibrated range spans the screen: the low end and below map to pixel 0, the high end and above to the last pixel |
| Mapper.SamplerMapsRangeOntoScreen | src/xpt2046_calibrator.cpp:593-606 | with neutral fine-tuning the sampler maps the low end to pixel 0, the high end to the last pixel, and a reading between by its range scaling |
| Median.Insert | src/xpt2046_calibrator.cpp:570 | inserting into a sorted sequence keeps it sorted and adds exactly the value (as a multiset) |
| Median.Sort | src/xpt2046_calibrator.cpp:570 | `std::sort` yields a sorted permutation of the window |
| Median.CountSort | src/xpt2046_calibrator.cpp:570 | sorting keeps how many entries lie on either side of any value |
| Median.MedianOf | src/xpt2046_calibrator.cpp:568-572 | `median_of` is 0 on an empty window, else a member of the window with more than half of it at or below and at least half at or above |
| Median.MedianBetween | src/xpt2046_uinputd.cpp:415-419 | the median lies between the window's minimum and maximum |
| Median.MedianConstant | src/xpt2046_uinputd.cpp:415-419 | a window of equal samples has that sample as median |
| Median.Push | src/xpt2046_calibrator.cpp:690-693 | `push_back` then `pop_front` while too long keeps the newest samples in order, at most `mw` of them, the new one last |
| Median.PushAll | src/xpt2046_uinputd.cpp:630-633 | after any run of pushes the window is exactly the last `mw` samples of everything seen |
| NoiseFilter.Reset | src/xpt2046_calibrator.cpp:643-646 | a release empties both histories and forgets the filtered position |
| NoiseFilter.DeltaClamp | src/xpt2046_calibrator.cpp:679-686 | the `max_delta_px` step pulls a sample back to distance `d` of the filtered position and keeps closer ones |
| NoiseFilter.DeltaClampIsClamp | src/xpt2046_uinputd.cpp:618-625 | the jump limit is the shared clamp into `[filt-d, filt+d]` |
| NoiseFilter.DeltaClampBetween | src/xpt2046_uinputd.cpp:618-625 | the limited sample lies between the sample and the filtered position |
| NoiseFilter.Blend | src/xpt2046_calibrator.cpp:703-704 | IIR smoothing lies between the new and the filtered value, is the new value at alpha 1 and the old at alpha 0, and fixes equal inputs |
| NoiseFilter.AxisStep | src/xpt2046_calibrator.cpp:688-711 | one axis pass grows the history up to the window, or leaves it when the median is off |
| NoiseFilter.Step | src/xpt2046_uinputd.cpp:614-655 | a filter pass leaves a filtered position and bounds the histories by the window |
| NoiseFilter.StepInv | src/xpt2046_calibrator.cpp:688-711 | a filter pass keeps the two histories equally long and no longer than the median window, and leaves a filtered position; the sampler and the daemon both rely on it |
| NoiseFilter.StepTransparent | src/xpt2046_calibrator.cpp:677-711 | with every stage switched off the filter passes samples through |
| NoiseFilter.StepAfterReset | src/xpt2046_calibrator.cpp:677-711 | the first sample after a reset comes out unchanged, whatever the parameters |
| NoiseFilter.StepSeeded | src/xpt2046_uinputd.cpp:614-655 | a filter seeded with the sample itself reports it unchanged |
| NoiseFilter.StepDeltaBound | src/xpt2046_calibrator.cpp:679-711 | without the median, the reported position moves by at most `max_delta_px` per sample |
| NoiseFilter.AxisStepWithin | src/xpt2046_calibrator.cpp:677-711 | the filter only interpolates: samples inside an interval keep history and output inside it |
| NoiseFilter.StepWithinBox | src/xpt2046_uinputd.cpp:614-655 | fed samples inside a box, the filter state stays inside the box |
| Sampler.Dist2 | src/xpt2046_calibrator.cpp:573-577 | the squared distance is non-negative and zero exactly for equal points |
| Sampler.TouchUpdate | src/xpt2046_calibrator.cpp:622-664 | pressure hysteresis, or the presence heuristic without a press threshold; a contact begins with its start recorded and ends with the filter reset; the only gesture is a tap, exactly when its conditions hold |
| Sampler.DragUpdate | src/xpt2046_calibrator.cpp:666-672 | a drag start is reported, from the contact's start point, exactly when a non-dragging contact has moved `drag_start_px` |
| Sampler.FilterUpdate | src/xpt2046_calibrator.cpp:677-717 | the filter runs only while down; while up only the filtered position may be primed |
| Sampler.Tick | src/xpt2046_calibrator.cpp:581-720 | the reported position always lies on the screen |
| Sampler.Advance | src/xpt2046_calibrator.cpp:622-720 | one iteration after mapping (touch state, drag detection, filter); its output stays on the screen, and the invariant, tap and drag lemmas below are stated about it |
| Sampler.StartInv | src/xpt2046_calibrator.cpp:554-562 | the loop invariant holds before the first iteration |
| Sampler.AdvanceInv | src/xpt2046_calibrator.cpp:622-717 | every iteration keeps the loop invariant: drags only within a contact, a reset filter between contacts, equal histories bounded by the window |
| Sampler.TickInv | src/xpt2046_calibrator.cpp:581-720 | the invariant holds from one full iteration to the next |
| Sampler.Hysteresis | src/xpt2046_calibrator.cpp:623-647 | up to down exactly at the press threshold, down to up exactly at the release threshold; a press records the start, a release resets the filter |
| Sampler.HeuristicMode | src/xpt2046_calibrator.cpp:649-663 | without a press threshold the contact follows the presence heuristic and no tap is reported |
| Sampler.TapExactly | src/xpt2046_calibrator.cpp:633-640 | a tap is reported exactly on a threshold release of a non-dragging, short contact that stayed close, with the release position and the duration |
| Sampler.NoTapAfterDrag | src/xpt2046_calibrator.cpp:638 | a contact that has dragged ends without a tap |
| Sampler.DragStartOnce | src/xpt2046_calibrator.cpp:666-672 | within a contact a drag start is reported only if it was not dragging yet, and leaves it dragging |
| Sampler.OneDragPerContact | src/xpt2046_calibrator.cpp:666-672 | over any run within one contact, at most one drag start is reported |
| Sampler.FirstReportIsFinger | src/xpt2046_calibrator.cpp:677-701 | the first filtered position of a contact is the mapped finger position itself |
| Daemon.Idle | src/xpt2046_uinputd.cpp:492-501 | idle with no pressure clears the streaks, the candidate and the filter, and nothing else |
| Daemon.Snap | src/xpt2046_uinputd.cpp:540-548 | a press resets the filter and snaps the filtered position to the candidate |
| Daemon.Debounce | src/xpt2046_uinputd.cpp:533-606 | a state change needs the second consecutive sample asking for it; a press snaps the filter, a release resets it |
| Daemon.Update | src/xpt2046_uinputd.cpp:485-655 | a failed read changes nothing; the device's view and the tracking id are left to the report |
| Daemon.Emit | src/xpt2046_uinputd.cpp:657-687 | a new contact gets the next tracking id and the touch keys, every report carries the position, a release is announced exactly on the down-to-up change, and an idle device is sent nothing |
| Daemon.FastPollWhileDown | src/xpt2046_uinputd.cpp:473-484 | an iteration that ends with the finger down, or whose pressure suggests a touch before the debounce, polls at the 5 ms active period; one that waits the configured `poll_us` (when that differs) leaves the finger up |
| Daemon.Advance | src/xpt2046_uinputd.cpp:483-689 | corrected loop (Findings row 1): a failed read changes nothing; a position is reported exactly while down; the poll period follows the pressure; afterwards the device's view equals the daemon's state |
| Daemon.Tick | src/xpt2046_uinputd.cpp:478-488 | an iteration with a failed X or Y read changes nothing and reports nothing |
| Daemon.StartInv | src/xpt2046_uinputd.cpp:402-413 | the loop invariant holds before the first iteration |
| Daemon.UpdateInv | src/xpt2046_uinputd.cpp:485-655 | the state update keeps the invariant |
| Daemon.AdvanceInv | src/xpt2046_uinputd.cpp:483-689 | every iteration keeps the invariant: up means a reset filter, down means a filtered position, bounded histories and streaks |
| Daemon.PressNeedsTwoSamples | src/xpt2046_uinputd.cpp:534-589 | a press is accepted exactly on the second consecutive sample with touch pressure, and a sample without it restarts the count |
| Daemon.ReleaseNeedsTwoSamples | src/xpt2046_uinputd.cpp:554-605 | a release is accepted exactly on the second consecutive releasing sample, and a sample above the release threshold restarts the count |
| Daemon.PressSnapsToFinger | src/xpt2046_uinputd.cpp:538-548 | the first position reported for a contact is the sample that completed the press, unfiltered |
| Daemon.IdleResets | src/xpt2046_uinputd.cpp:492-501 | idle with no pressure reports nothing and resets the streaks and the filter |
| Daemon.AdvanceWithinBox | src/xpt2046_uinputd.cpp:614-655 | fed samples inside a box, every reported position stays in it |
| Daemon.TickWithinScreen | src/xpt2046_uinputd.cpp:503-655 | with sanitised parameters, every reported position lies inside the deadzone-trimmed screen, and so does the filter |
| Daemon.EmitContacts | src/xpt2046_uinputd.cpp:657-687 | the report block announces exactly the change of the debounced state |
| Daemon.AdvanceContacts | src/xpt2046_uinputd.cpp:657-687 | corrected loop (Findings row 1): each iteration tells the device the debounced state, so the two never drift apart |
| Daemon.RunReportsContact | src/xpt2046_uinputd.cpp:657-687 | corrected loop (Findings row 1): over any run, presses and releases alternate and leave the device in the daemon's state |
| Daemon.AsWrittenSharesCore | src/xpt2046_uinputd.cpp:483-689 | from states that differ only in what the device has been told, one iteration of the loop as written and one of the corrected loop report the same position, wait the same time and again end in such states |
| Daemon.RunAsWrittenSharesCore | src/xpt2046_uinputd.cpp:483-689 | over any run, the loop as written passes through the corrected loop's states apart from the device's view, so the debounce, filter and poll-period lemmas hold for it as well |
| Daemon.TickAsWritten | src/xpt2046_uinputd.cpp:608-612 | as written, no iteration ever sends a release |
| Daemon.ReleaseIsSilentAsWritten | src/xpt2046_uinputd.cpp:608-612 | as written, the release goes unreported and the device keeps believing the finger is down, although the corrected loop reports it |
| Daemon.NextContactUnannouncedAsWritten | src/xpt2046_uinputd.cpp:657-687 | as written, once the device believes a finger is down no new contact is announced |
| Daemon.AsWrittenNeverLifts | src/xpt2046_uinputd.cpp:608-687 | as written, over any run no release is sent, and after the first contact no other is announced |
| Daemon.Configure | src/xpt2046_uinputd.cpp:432-448 | a (re)load is the file over the defaults with the parameters sanitised: it differs from the plain load only there, and not at all when those are already sanitised |
| Daemon.ConfigureEmpty | src/xpt2046_uinputd.cpp:146-151 | an empty or missing file gives the built-in defaults |
| Daemon.Reload | src/xpt2046_uinputd.cpp:425-470 | a reload happens only when due, while up and on a changed file; it restarts the debounce and the filter and leaves the contact state alone |
| Daemon.ReloadInv | src/xpt2046_uinputd.cpp:425-470 | a reload never happens mid-contact, so the invariant carries over to the new configuration |
| GuiCommon.GuiAssignment | src/advanced_gui.cpp:62-74 | a GUI config line yields a key and a 32-bit `atoi` value, or nothing |
| GuiCommon.GuiAssignmentOf | src/advanced_gui.cpp:62-74 | a padded `key=value` line assigns `atoi(value)` to that key |
| GuiCommon.ClampToWindow | src/basic_gui.cpp:368-369 | the window clamp keeps a position on a non-empty window and leaves an inside one alone |
| GuiCommon.ClampToWindowIsClamp | src/advanced_gui.cpp:127-130 | the two window tests are the shared clamp |
| BasicGui.SetRange | src/basic_gui.cpp:66-69 | setting one range field reads back and leaves the other three alone |
| BasicGui.Widen | src/basic_gui.cpp:71-72 | widening makes both ranges non-empty, changing only the upper end of an empty one |
| BasicGui.WidenFixes | src/basic_gui.cpp:71-72 | widening is idempotent and changes exactly the ranges that need it |
| BasicGui.LoadRanges | src/basic_gui.cpp:49-73 | `load_ranges` always yields non-empty ranges |
| BasicGui.LoadRangesEmpty | src/basic_gui.cpp:51-52 | a missing file gives the full 12-bit ranges |
| BasicGui.RangeLineSets | src/basic_gui.cpp:57-69 | a range line sets its field to `atoi` of its trimmed value |
| BasicGui.AsWrittenAgreesIffWide | src/basic_gui.cpp:299-302 | the overrides as written and the corrected ones give the same ranges exactly when the overrides leave both ranges wide |
| BasicGui.EnvCollapsesRangeAsWritten | src/basic_gui.cpp:299-302 | as written, overriding both ends of the X range with 100 leaves an empty range |
| BasicGui.ApplyEnv | src/basic_gui.cpp:299-302 | the overrides followed by the widening of lines 71-72 always give non-empty ranges, and agree with the as-written overrides whenever those are non-empty |
| BasicGui.ApplyEnvNone | src/basic_gui.cpp:299-302 | without overrides the loaded ranges are used unchanged |
| BasicGui.ParseIdleCursorMode | src/basic_gui.cpp:105-111 | `show`/`raw` mean show, `hide`/`off` mean hide, anything else freezes |
| BasicGui.ParseDefaultsToFreeze | src/basic_gui.cpp:105-111 | unset, empty or unknown settings freeze the cursor |
| BasicGui.ParseModeName | src/basic_gui.cpp:113-120 | the name of every mode parses back to that mode |
| BasicGui.Cycle | src/basic_gui.cpp:383-386 | the `i` key always changes the mode |
| BasicGui.CycleThree | src/basic_gui.cpp:383-386 | three presses come back, visiting all three modes |
| BasicGui.ScaleToScreen | src/basic_gui.cpp:365-371 | `scale_to_screen` always lands in the window, and inside the range agrees with the truncating range scaling capped at the last pixel |
| BasicGui.TouchPresent | src/basic_gui.cpp:410-415 | an explicit `DOWN` of 0 or 1 decides presence; failing that a non-negative `Z` decides it; failing both, the raw axes must lie away from the rails |
| BasicGui.PresenceFallsBackToSampler | src/basic_gui.cpp:411-414 | whenever `DOWN` is neither 0 nor 1 and `Z` is absent or negative, the GUI decides presence exactly as the sampler's threshold-free heuristic does |
| BasicGui.ReportedCursor | src/basic_gui.cpp:417-427 | the cursor is in the window; it is the reported screen position when that is in the window, and the scaled position when none is reported |
| BasicGui.SliderRel | src/basic_gui.cpp:441 | the slider offset is clamped into the track |
| BasicGui.InitialInWindow | src/basic_gui.cpp:89-97 | the tool starts with the cursor at the middle of its window, nothing toggled or touched, and the slider at one half |
| BasicGui.OnReport | src/basic_gui.cpp:397-449 | a report sets presence; moves the cursor only while touching or in show mode; records the last touch only while touching; presses buttons and the slider only while touching |
| BasicGui.OnReportInWindow | src/basic_gui.cpp:397-449 | every report keeps both cursors in the window and the slider value in `[0, 1]` |
| BasicGui.SliderFollowsFinger | src/basic_gui.cpp:434-449 | on the track the slider follows the finger exactly, and touching the exit button never moves the slider |
| AdvancedGui.SetGui | src/advanced_gui.cpp:76-85 | setting one configuration key reads back |
| AdvancedGui.SetGuiFrame | src/advanced_gui.cpp:76-85 | setting one key leaves the other nine alone |
| AdvancedGui.SanitizeGui | src/advanced_gui.cpp:88-91 | sanitising widens empty ranges and grows an empty screen, keeping every valid field |
| AdvancedGui.SanitizeGuiFixes | src/advanced_gui.cpp:261-264 | sanitising is idempotent and changes exactly an invalid configuration |
| AdvancedGui.LoadGuiConfig | src/advanced_gui.cpp:56-92 | `load_config` always yields a valid configuration |
| AdvancedGui.LoadGuiConfigEmpty | src/advanced_gui.cpp:50-57 | a missing file gives the built-in defaults |
| AdvancedGui.ApplyEnv | src/advanced_gui.cpp:250-264 | the overrides plus the second sanitisation always give a valid configuration |
| AdvancedGui.ApplyEnvNone | src/advanced_gui.cpp:250-264 | without overrides a valid configuration is used unchanged |
| AdvancedGui.ApplyEnvOverrides | src/advanced_gui.cpp:250-259 | a set variable wins over the file for every key the sanitiser cannot change |
| AdvancedGui.AxesFromEnvFlags | src/advanced_gui.cpp:242-247 | without `XPT_SWAP_XY`, `XPT_INVERT_X` and `XPT_INVERT_Y` nothing is swapped or inverted; a number sets its flag exactly when it is non-zero; text without digits reads as 0 and leaves the flag off |
| AdvancedGui.ScaleRawToScreen | src/advanced_gui.cpp:112-132 | `scale_raw_to_screen` always lands on the screen |
| AdvancedGui.ScaleSwap | src/advanced_gui.cpp:115-121 | swap happens before invert |
| AdvancedGui.ScaleSpansScreen | src/advanced_gui.cpp:122-130 | a reading at or below the low end maps to the first pixel, at or above the high end to the last |
| AdvancedGui.AgreesWithBasicGui | src/advanced_gui.cpp:125-130 | on the basic tool's window both tools put an unoriented in-range reading on the same pixel |
| AdvancedGui.InitialViewCentred | src/advanced_gui.cpp:349-353 | the pointer starts in the middle of the screen, with no finger down, zero pressure and no gesture text |
| AdvancedGui.OnSpiReport | src/advanced_gui.cpp:373-397 | the output pointer stays on the screen; it is the reported position when that is on screen, and the fallback mapping when none is reported |
| AdvancedGui.DownFlagRule | src/advanced_gui.cpp:381-382 | the finger state changes only on an explicit `DOWN: 0` or `DOWN: 1`, and then follows it |
| AdvancedGui.GestureOutlivesReports | src/advanced_gui.cpp:373-399 | after a gesture line its text stays shown through any number of `[SPI]` reports, and the gesture line itself moves neither the pointer nor the finger state |
| AdvancedGui.DeadzoneRect | src/advanced_gui.cpp:408-414 | the deadzone outline starts at the left and top deadzones, is never thinner than one pixel, and spans what the deadzones leave when they fit |
| AdvancedGui.DeadzoneRectMatchesClip | src/advanced_gui.cpp:408-414 | with deadzones that fit, the outline covers exactly the pixels the mapping's deadzone clip lets through |
| AdvancedGui.KeepDrawable | src/advanced_gui.cpp:446-449 | the filtered text has only drawable characters and is no longer than the input |
| AdvancedGui.KeepDrawableSubsequence | src/advanced_gui.cpp:446-449 | the filtered text is the input with some characters deleted, in their original order |
| AdvancedGui.KeepCount | src/advanced_gui.cpp:446-449 | counted per character, every occurrence of a drawable character is kept and every other character is dropped |
| AdvancedGui.KeepDrawableAppend | src/advanced_gui.cpp:446-449 | the filter decides each character on its own, so filtering a concatenation is concatenating the filtered parts |
| AdvancedGui.GestureText | src/advanced_gui.cpp:446-450 | the drawn text is the first min(30, n) characters of the filtered text, n being its length: drawable characters only, at most 30 |
| AdvancedGui.GestureTextSubsequence | src/advanced_gui.cpp:446-450 | the drawn text is the gesture line with characters deleted, and when the line holds at most 30 drawable characters each of them is drawn as often as it occurs and nothing else is |
| AdvancedGui.GestureTextKeeps | src/advanced_gui.cpp:446-450 | a text of at most 30 drawable characters is drawn as it is, and an undrawable character anywhere in a line, mixed or not, does not change what is drawn |

## Left out

- Floating-point rounding: `float` and `double` are idealised to exact reals, and `strtof` is exact.
- ConfigText.ParseFloat: `strtof`'s `inf`, `nan` and hexadecimal forms are not modelled. The digitless `inf` and `nan` give None (`ConfigText.ParseFloatRejectsNonNumbers`). Hexadecimal text reads as its leading `0` (`ConfigText.HexReadsLeadingZero`), so `scale_x=0x10` sets 0 where `strtof` gives 16.
- Mapper.SamplerScale: with an empty range (`max == min`) the source multiplies 0 by infinity and rounds NaN, which C leaves unspecified. The model returns 0 there, which is what the x86-64 and AArch64 conversions give after the `(int)` cast.
- 32-bit overflow of intermediate products, for example in `dist2` and the daemon's `(x-min)*(w-1)`, is not modelled. Only the `long`-to-`int` cast of `parse_int` wraps.
- Mapper.OffsetScale: the `(int)` cast of the `llround` result (`src/xpt2046_uinputd.cpp` lines 516-517) is not wrapped to 32 bits; the result is the exact rounded value.
- SPI device probing, opening and `ioctl` (`--probe`, the candidate and fallback lists): the transfer's outcome is an input to `SpiSample.ReadValue`.
- The Z2 conversion: it is read but only printed.
- uinput device creation and `ioctl` calls: the daemon's output is the list of events it writes.
- SDL drawing, the pressure bar, the edge buttons and the 5x7 font bitmaps. Of the drawing, only the deadzone outline and the gesture-text filter are modelled.
- The regex that splits a report line: its captured fields are the input datatype `SpiReport`, each through `atoi`.
- Starting the sampler with fork/exec and the non-blocking pipe reads.
- Config-path discovery (`find_config_path`, `get_exe_dir`): a file is its sequence of lines, and a missing file is the empty sequence.
- The daemon's modification-time check is a `changed` boolean, and the 500 ms check period a `due` boolean.
- The sampler's command-line arguments and the sampler's and daemon's environment overrides are not modelled. The parameters reach the loops already set. The GUIs' overrides are modelled.
- Monotonic time is an input (`nowMs`); `usleep` is the returned poll period.
- The sampler's diagnostic counters (saturation and static-reading warnings) and all console output besides the gestures.
- Daemon.Configure: does not apply the daemon's environment overrides (`apply_env_overrides`, lines 191-235), for the reason above.

## Findings

| source | as written | input that shows it | evidently intended | confidence | as-written member | corrected member |
|---|---|---|---|---|---|---|
| src/xpt2046_uinputd.cpp:608-612 | when the debounce releases the finger, the loop `continue`s before the report block, so the release events of lines 679-685 are never sent. `last_down` also stays true, so later contacts get neither a tracking id nor `BTN_TOUCH` | a contact followed by two samples at or below the release threshold | report the release (tracking id -1, `BTN_TOUCH 0`) and update `last_down` on every successful read | high, not executed | Daemon.TickAsWritten, Daemon.ReleaseIsSilentAsWritten, Daemon.NextContactUnannouncedAsWritten, Daemon.AsWrittenNeverLifts | Daemon.Advance, Daemon.RunReportsContact |
| src/basic_gui.cpp:299-302 | the `XPT_MIN_X`…`XPT_MAX_Y` overrides are applied after `load_ranges` has widened the ranges and are not widened again, so `scale_to_screen` (lines 365-371) can divide by `max - min == 0` | `XPT_MIN_X=100`, `XPT_MAX_X=100` | widen after the overrides, as `advanced_gui.cpp` does at lines 261-262 | medium, not executed | BasicGui.ApplyEnvAsWritten, BasicGui.EnvCollapsesRangeAsWritten | BasicGui.ApplyEnv |

=== FILE: advanced_gui.dfy ===
/** The advanced GUI test tool: its own configuration record (ranges, screen
    size, deadzones), the fallback raw-to-screen mapping, how each report and
    gesture line updates what it shows, the deadzone outline, and the filter
    that keeps a gesture text drawable. Drawing is left out. */
module AdvancedGui {
  import opened Common
  import opened ConfigText
  import opened ConfigFile
  import opened Mapper
  import opened GuiCommon
  import BasicGui

  // ---------------------------------------------------------- configuration

  datatype GuiConfig = GuiConfig(
    minX: int,
    maxX: int,
    minY: int,
    maxY: int,
    screenW: int,
    screenH: int,
    deadzoneLeft: int,
    deadzoneRight: int,
    deadzoneTop: int,
    deadzoneBottom: int)

  const DefaultGuiConfig := GuiConfig(0, RawMax, 0, RawMax, 800, 480, 0, 0, 0, 0)

  /** The ten keys the tool reads. */
  predicate IsGuiKey(k: Key) {
    || k == MinX || k == MaxX || k == MinY || k == MaxY || k == ScreenW || k == ScreenH
    || k == DeadzoneLeft || k == DeadzoneRight || k == DeadzoneTop || k == DeadzoneBottom
  }

  function GetGui(c: GuiConfig, k: Key): int
    requires IsGuiKey(k)
  {
    match k
    case MinX => c.minX
    case MaxX => c.maxX
    case MinY => c.minY
    case MaxY => c.maxY
    case ScreenW => c.screenW
    case ScreenH => c.screenH
    case DeadzoneLeft => c.deadzoneLeft
    case DeadzoneRight => c.deadzoneRight
    case DeadzoneTop => c.deadzoneTop
    case DeadzoneBottom => c.deadzoneBottom
  }

  function SetGui(c: GuiConfig, k: Key, v: int): (c': GuiConfig)
    requires IsGuiKey(k)
    ensures GetGui(c', k) == v
  {
    match k
    case MinX => c.(minX := v)
    case MaxX => c.(maxX := v)
    case MinY => c.(minY := v)
    case MaxY => c.(maxY := v)
    case ScreenW => c.(screenW := v)
    case ScreenH => c.(screenH := v)
    case DeadzoneLeft => c.(deadzoneLeft := v)
    case DeadzoneRight => c.(deadzoneRight := v)
    case DeadzoneTop => c.(deadzoneTop := v)
    case DeadzoneBottom => c.(deadzoneBottom := v)
  }

  /** Setting one key leaves the other nine alone. */
  lemma SetGuiFrame(c: GuiConfig, k: Key, v: int, k': Key)
    requires IsGuiKey(k) && IsGuiKey(k') && k != k'
    ensures GetGui(SetGui(c, k, v), k') == GetGui(c, k')
  {
  }

  /** One iteration of the `load_config` loop. */
  function GuiLine(c: GuiConfig, line: string): GuiConfig {
    match GuiAssignment(line)
    case None => c
    case Some(kv) => if IsGuiKey(kv.0) then SetGui(c, kv.0, kv.1) else c
  }

  function ReadGui(c: GuiConfig, lines: seq<string>): GuiConfig
    decreases |lines|
  {
    if lines == [] then c else ReadGui(GuiLine(c, lines[0]), lines[1..])
  }

  /** Non-empty raw ranges and a screen of at least one pixel each way. */
  predicate Valid(c: GuiConfig) {
    c.minX < c.maxX && c.minY < c.maxY && 1 <= c.screenW && 1 <= c.screenH
  }

  /** Lines 88-91 and 261-264: widen an empty range, grow an empty screen. */
  function SanitizeGui(c: GuiConfig): (r: GuiConfig)
    ensures Valid(r)
    ensures r.minX == c.minX && r.minY == c.minY
    ensures r.deadzoneLeft == c.deadzoneLeft && r.deadzoneRight == c.deadzoneRight
    ensures r.deadzoneTop == c.deadzoneTop && r.deadzoneBottom == c.deadzoneBottom
    ensures c.minX < c.maxX ==> r.maxX == c.maxX
    ensures c.minY < c.maxY ==> r.maxY == c.maxY
    ensures 1 <= c.screenW ==> r.screenW == c.screenW
    ensures 1 <= c.screenH ==> r.screenH == c.screenH
  {
    c.(maxX := if c.maxX <= c.minX then c.minX + 1 else c.maxX,
       maxY := if c.maxY <= c.minY then c.minY + 1 else c.maxY,
       screenW := if c.screenW < 1 then 1 else c.screenW,
       screenH := if c.screenH < 1 then 1 else c.screenH)
  }

  /** Sanitising changes exactly what is invalid. */
  lemma SanitizeGuiFixes(c: GuiConfig)
    ensures SanitizeGui(c) == c <==> Valid(c)
    ensures SanitizeGui(SanitizeGui(c)) == SanitizeGui(c)
  {
  }

  /** `load_config`: the file's lines over the defaults, then sanitised. */
  function LoadGuiConfig(lines: seq<string>): (c: GuiConfig)
    ensures Valid(c)
  {
    SanitizeGui(ReadGui(DefaultGuiConfig, lines))
  }

  lemma LoadGuiConfigEmpty()
    ensures LoadGuiConfig([]) == DefaultGuiConfig
  {
  }

  /** The `XPT_*` overrides of lines 250-259, then the second sanitisation. */
  function ApplyEnv(c: GuiConfig, env: Env): (r: GuiConfig)
    ensures Valid(r)
  {
    var o := GuiConfig(
      Override(c.minX, env, MinX), Override(c.maxX, env, MaxX),
      Override(c.minY, env, MinY), Override(c.maxY, env, MaxY),
      Override(c.screenW, env, ScreenW), Override(c.screenH, env, ScreenH),
      Override(c.deadzoneLeft, env, DeadzoneLeft), Override(c.deadzoneRight, env, DeadzoneRight),
      Override(c.deadzoneTop, env, DeadzoneTop), Override(c.deadzoneBottom, env, DeadzoneBottom));
    SanitizeGui(o)
  }

  /** Without overrides a valid configuration is used as it is. */
  lemma ApplyEnvNone(c: GuiConfig)
    requires Valid(c)
    ensures ApplyEnv(c, map[]) == c
  {
  }

  /** A set variable wins over the file whenever the result is valid. */
  lemma ApplyEnvOverrides(c: GuiConfig, env: Env, k: Key)
    requires IsGuiKey(k) && k in env && env[k] != []
    requires k != MaxX && k != MaxY && k != ScreenW && k != ScreenH
    ensures GetGui(ApplyEnv(c, env), k) == Atoi(env[k])
  {
  }

  /** The swap and invert flags come only from the environment. */
  function AxesFromEnv(env: Env): Axes {
    Axes(Override(0, env, SwapXY) != 0, Override(0, env, InvertX) != 0, Override(0, env, InvertY) != 0)
  }

  /** Without the variables no axis is swapped or inverted; a number turns
      its flag on exactly when it is non-zero; text without digits reads as
      0 and leaves the flag off. */
  lemma AxesFromEnvFlags(env: Env, n: int, w: string)
    requires InInt32(n)
    requires forall i :: 0 <= i < |w| ==> !IsDigit(w[i])
    ensures AxesFromEnv(map[]) == Axes(false, false, false)
    ensures AxesFromEnv(map[SwapXY := Show(n), InvertX := Show(n), InvertY := Show(n)]) == Axes(n != 0, n != 0, n != 0)
    ensures !AxesFromEnv(env[SwapXY := w]).swap && !AxesFromEnv(env[InvertX := w]).invertX
      && !AxesFromEnv(env[InvertY := w]).invertY
  {
    ParseShow(n);
    ParseRejectsNonNumbers(w);
    assert Atoi(Show(n)) == n && Atoi(w) == 0;
    var m := map[SwapXY := Show(n), InvertX := Show(n), InvertY := Show(n)];
    assert Show(n) != [];
    assert m[SwapXY] == Show(n) && m[InvertX] == Show(n) && m[InvertY] == Show(n);
  }

  // ---------------------------------------------------------------- mapping

  /** `scale_raw_to_screen`: orient, clamp into the range, scale with
      truncation, keep inside the screen. */
  function ScaleRawToScreen(rx: int, ry: int, c: GuiConfig, a: Axes): (p: (int, int))
    requires Valid(c)
    ensures 0 <= p.0 <= c.screenW - 1 && 0 <= p.1 <= c.screenH - 1
  {
    var (x, y) := Orient(rx, ry, a);
    var cx := Clamp(x, c.minX, c.maxX);
    var cy := Clamp(y, c.minY, c.maxY);
    (ClampToWindow(GuiScale(cx, c.minX, c.maxX, c.screenW), c.screenW),
     ClampToWindow(GuiScale(cy, c.minY, c.maxY, c.screenH), c.screenH))
  }

  /** Swap happens before invert. */
  lemma ScaleSwap(rx: int, ry: int, c: GuiConfig, a: Axes)
    requires Valid(c)
    ensures ScaleRawToScreen(rx, ry, c, a.(swap := true)) == ScaleRawToScreen(ry, rx, c, a.(swap := false))
  {
    OrientSwap(rx, ry, a);
  }

  /** The calibrated range spans the screen: a reading at or beyond the low
      end maps to the first pixel, at or beyond the high end to the last. */
  lemma ScaleSpansScreen(rx: int, ry: int, c: GuiConfig)
    requires Valid(c)
    ensures var p := ScaleRawToScreen(rx, ry, c, Axes(false, false, false));
      && (rx <= c.minX ==> p.0 == 0) && (rx >= c.maxX ==> p.0 == c.screenW - 1)
      && (ry <= c.minY ==> p.1 == 0) && (ry >= c.maxY ==> p.1 == c.screenH - 1)
  {
  }

  /** On the basic tool's fixed window and inside the range, both tools place
      an unoriented reading on the same pixel. */
  lemma AgreesWithBasicGui(x: int, y: int, c: GuiConfig)
    requires Valid(c) && c.screenW == BasicGui.Width && c.screenH == BasicGui.Height
    requires c.minX <= x <= c.maxX && c.minY <= y <= c.maxY
    ensures ScaleRawToScreen(x, y, c, Axes(false, false, false))
      == BasicGui.ScaleToScreen(x, y, BasicGui.Ranges(c.minX, c.maxX, c.minY, c.maxY))
  {
  }

  // ---------------------------------------------------------- one report

  /** What the tool shows: the output pointer, the raw reading, the pressure,
      whether the finger is down, and the last gesture text. */
  datatype View = View(
    outX: int,
    outY: int,
    rawX: int,
    rawY: int,
    pressure: int,
    down: bool,
    lastGesture: string)

  function InitialView(c: GuiConfig): View {
    View(c.screenW / 2, c.screenH / 2, 0, 0, 0, false, "")
  }

  /** The pointer starts in the middle of the screen, with no finger down
      and no gesture text. */
  lemma InitialViewCentred(c: GuiConfig)
    requires Valid(c)
    ensures var v := InitialView(c);
      && 0 <= v.outX <= c.screenW - 1 && 0 <= v.outY <= c.screenH - 1
      && v.outX == c.screenW / 2 && v.outY == c.screenH / 2
      && !v.down && v.lastGesture == [] && v.pressure == 0
  {
  }

  /** One `[SPI]` line (lines 373-397): the `DOWN` flag only when it is 0 or 1;
      the reported screen position when both coordinates are non-negative,
      else the fallback mapping of the range-scaled axes; then the output is
      kept on screen. */
  function OnSpiReport(v: View, l: SpiReport, c: GuiConfig, a: Axes): (r: View)
    requires Valid(c)
    ensures 0 <= r.outX <= c.screenW - 1 && 0 <= r.outY <= c.screenH - 1
    ensures r.rawX == l.rawX && r.rawY == l.rawY && r.pressure == OrElse(l.z, 0)
    ensures r.lastGesture == v.lastGesture
    ensures l.screen.Some? && 0 <= l.screen.value.0 < c.screenW && 0 <= l.screen.value.1 < c.screenH
      ==> (r.outX, r.outY) == l.screen.value
    ensures l.screen.None? ==> (r.outX, r.outY) == ScaleRawToScreen(l.x, l.y, c, a)
  {
    var d := OrElse(l.down, -1);
    var down := if d == 0 || d == 1 then d == 1 else v.down;
    var sx := if l.screen.Some? then l.screen.value.0 else -1;
    var sy := if l.screen.Some? then l.screen.value.1 else -1;
    var (ox, oy) := if sx >= 0 && sy >= 0 then (sx, sy) else ScaleRawToScreen(l.x, l.y, c, a);
    View(ClampToWindow(ox, c.screenW), ClampToWindow(oy, c.screenH), l.rawX, l.rawY, OrElse(l.z, 0), down, v.lastGesture)
  }

  /** The finger state changes only on an explicit `DOWN: 0` or `DOWN: 1`,
      and then follows it. */
  lemma DownFlagRule(v: View, l: SpiReport, c: GuiConfig, a: Axes)
    requires Valid(c)
    ensures l.down == Some(1) ==> OnSpiReport(v, l, c, a).down
    ensures l.down == Some(0) ==> !OnSpiReport(v, l, c, a).down
    ensures l.down != Some(0) && l.down != Some(1) ==> OnSpiReport(v, l, c, a).down == v.down
  {
  }

  /** A `[GESTURE]` line replaces the gesture text. */
  function OnGestureLine(v: View, text: string): (r: View)
    ensures r.lastGesture == text
    ensures r.(lastGesture := v.lastGesture) == v
  {
    v.(lastGesture := text)
  }

  /** The gesture text stays on screen until the next `[GESTURE]` line: no
      `[SPI]` report changes it, and a gesture line leaves the pointer alone. */
  lemma GestureOutlivesReports(v: View, text: string, ls: seq<SpiReport>, c: GuiConfig, a: Axes)
    requires Valid(c)
    ensures OnReports(OnGestureLine(v, text), ls, c, a).lastGesture == text
    ensures (OnGestureLine(v, text).outX, OnGestureLine(v, text).outY) == (v.outX, v.outY)
    ensures OnGestureLine(v, text).down == v.down
  {
    ReportsKeepGesture(OnGestureLine(v, text), ls, c, a);
  }

  /** The `[SPI]` lines in order. */
  function OnReports(v: View, ls: seq<SpiReport>, c: GuiConfig, a: Axes): (r: View)
    requires Valid(c)
    decreases |ls|
  {
    if ls == [] then v else OnReports(OnSpiReport(v, ls[0], c, a), ls[1..], c, a)
  }

  lemma {:induction false} ReportsKeepGesture(v: View, ls: seq<SpiReport>, c: GuiConfig, a: Axes)
    requires Valid(c)
    ensures OnReports(v, ls, c, a).lastGesture == v.lastGesture
    decreases |ls|
  {
    if ls != [] {
      ReportsKeepGesture(OnSpiReport(v, ls[0], c, a), ls[1..], c, a);
    }
  }

  /** The outline of the deadzone-trimmed area (lines 408-414), never thinner
      than one pixel. */
  function DeadzoneRect(c: GuiConfig): (r: Rect)
    ensures r.w >= 1 && r.h >= 1
    ensures r.x == c.deadzoneLeft && r.y == c.deadzoneTop
    ensures c.deadzoneLeft + c.deadzoneRight < c.screenW ==> r.w == c.screenW - c.deadzoneLeft - c.deadzoneRight
    ensures c.deadzoneTop + c.deadzoneBottom < c.screenH ==> r.h == c.screenH - c.deadzoneTop - c.deadzoneBottom
  {
    var w := c.screenW - c.deadzoneLeft - c.deadzoneRight;
    var h := c.screenH - c.deadzoneTop - c.deadzoneBottom;
    Rect(c.deadzoneLeft, c.deadzoneTop, if w < 1 then 1 else w, if h < 1 then 1 else h)
  }

  /** With deadzones that fit, the outline covers exactly the columns and
      rows the mapping's deadzone clip lets through. */
  lemma DeadzoneRectMatchesClip(c: GuiConfig)
    requires 0 <= c.deadzoneLeft && 0 <= c.deadzoneRight && c.deadzoneLeft + c.deadzoneRight <= c.screenW - 1
    requires 0 <= c.deadzoneTop && 0 <= c.deadzoneBottom && c.deadzoneTop + c.deadzoneBottom <= c.screenH - 1
    ensures var r := DeadzoneRect(c);
      && DeadzoneBounds(c.deadzoneLeft, c.deadzoneRight, c.screenW) == (r.x, r.x + r.w - 1)
      && DeadzoneBounds(c.deadzoneTop, c.deadzoneBottom, c.screenH) == (r.y, r.y + r.h - 1)
  {
  }

  // ------------------------------------------------------------ gesture text

  /** The characters the gesture filter keeps; the 5x7 glyph table draws some of the letters blank. */
  predicate Drawable(ch: char) {
    ('0' <= ch <= '9') || ch == ' ' || ch == ':' || ch == '-' || ('A' <= ch <= 'Z')
  }

  /** The longest gesture text drawn. */
  const MaxGestureLen: int := 30

  /** `a` can be obtained from `b` by deleting characters. */
  predicate Subsequence(a: string, b: string)
    decreases |b|
  {
    a == [] || (b != [] && if a[0] == b[0] then Subsequence(a[1..], b[1..]) else Subsequence(a, b[1..]))
  }

  function KeepDrawable(s: string): (g: string)
    ensures forall i :: 0 <= i < |g| ==> Drawable(g[i])
    ensures |g| <= |s|
  {
    if s == [] then [] else (if Drawable(s[0]) then [s[0]] else []) + KeepDrawable(s[1..])
  }

  /** The drawn gesture text: drawable characters only, in order, at most 30. */
  function GestureText(s: string): (g: string)
    ensures |g| <= MaxGestureLen
    ensures forall i :: 0 <= i < |g| ==> Drawable(g[i])
    ensures |g| == Min(MaxGestureLen, |KeepDrawable(s)|) && g == KeepDrawable(s)[..|g|]
  {
    var k := KeepDrawable(s);
    if |k| > MaxGestureLen then k[..MaxGestureLen] else k
  }

  lemma {:induction false} KeepDrawableSubsequence(s: string)
    ensures Subsequence(KeepDrawable(s), s)
  {
    if s != [] {
      KeepDrawableSubsequence(s[1..]);
      var k := KeepDrawable(s);
      if Drawable(s[0]) {
        assert k[0] == s[0] && k[1..] == KeepDrawable(s[1..]);
      } else {
        assert k == KeepDrawable(s[1..]);
        SubsequenceSkip(k, s);
      }
    }
  }

  /** A subsequence of the tail is a subsequence of the whole. */
  lemma {:induction false} SubsequenceSkip(a: string, b: string)
    requires b != [] && Subsequence(a, b[1..])
    ensures Subsequence(a, b)
    decreases |b|, 0
  {
    if a != [] && a[0] == b[0] {
      SubsequenceTail(a, b[1..]);
    }
  }

  /** Dropping the first character keeps a subsequence. */
  lemma {:induction false} SubsequenceTail(a: string, b: string)
    requires a != [] && Subsequence(a, b)
    ensures Subsequence(a[1..], b)
    decreases |b|, 1
  {
    if a[0] == b[0] {
      if a[1..] != [] {
        SubsequenceSkip(a[1..], b);
      }
    } else {
      SubsequenceTail(a, b[1..]);
      SubsequenceSkip(a[1..], b);
    }
  }

  /** A prefix of a subsequence is a subsequence. */
  lemma {:induction false} SubsequencePrefix(a: string, b: string, n: nat)
    requires n <= |a| && Subsequence(a, b)
    ensures Subsequence(a[..n], b)
    decreases |b|
  {
    if n > 0 {
      if a[0] == b[0] {
        assert a[..n][1..] == a[1..][..n - 1];
        SubsequencePrefix(a[1..], b[1..], n - 1);
      } else {
        SubsequencePrefix(a, b[1..], n);
      }
    }
  }

  /** Counted character by character, the filter keeps every occurrence of
      a drawable character and none of any other. */
  lemma {:induction false} KeepCount(s: string, ch: char)
    ensures multiset(KeepDrawable(s))[ch] == if Drawable(ch) then multiset(s)[ch] else 0
  {
    if s != [] {
      KeepCount(s[1..], ch);
      assert s == [s[0]] + s[1..];
      assert multiset(s) == multiset([s[0]]) + multiset(s[1..]);
    }
  }

  /** The filter works character by character, so it distributes over
      concatenation. */
  lemma {:induction false} KeepDrawableAppend(a: string, b: string)
    ensures KeepDrawable(a + b) == KeepDrawable(a) + KeepDrawable(b)
  {
    if a != [] {
      KeepDrawableAppend(a[1..], b);
      assert (a + b)[1..] == a[1..] + b;
    } else {
      assert a + b == b;
    }
  }

  /** The drawn text is the gesture line with characters deleted; when the
      line has at most 30 drawable characters, each of them is drawn as often
      as it occurs, and nothing else is. */
  lemma GestureTextSubsequence(s: string, ch: char)
    ensures Subsequence(GestureText(s), s)
    ensures |KeepDrawable(s)| <= MaxGestureLen
      ==> multiset(GestureText(s))[ch] == if Drawable(ch) then multiset(s)[ch] else 0
  {
    KeepCount(s, ch);
    KeepDrawableSubsequence(s);
    var k := KeepDrawable(s);
    if |k| > MaxGestureLen {
      SubsequencePrefix(k, s, MaxGestureLen);
    }
  }

  /** A short text of drawable characters is drawn as it is, and an
      undrawable character anywhere in a line changes nothing that is drawn. */
  lemma {:induction false} GestureTextKeeps(s: string, a: string, ch: char, b: string)
    ensures |s| <= MaxGestureLen && (forall i :: 0 <= i < |s| ==> Drawable(s[i])) ==> GestureText(s) == s
    ensures !Drawable(ch) ==> GestureText(a + [ch] + b) == GestureText(a + b)
  {
    if |s| <= MaxGestureLen && forall i :: 0 <= i < |s| ==> Drawable(s[i]) {
      KeepDrawableAll(s);
    }
    if !Drawable(ch) {
      KeepDrawableSkips(a, ch, b);
    }
  }

  lemma KeepDrawableSkips(a: string, ch: char, b: string)
    requires !Drawable(ch)
    ensures KeepDrawable(a + [ch] + b) == KeepDrawable(a + b)
  {
    KeepDrawableAppend(a, [ch] + b);
    KeepDrawableAppend(a, b);
    assert a + [ch] + b == a + ([ch] + b);
    assert ([ch] + b)[1..] == b;
  }

  lemma {:induction false} KeepDrawableAll(s: string)
    requires forall i :: 0 <= i < |s| ==> Drawable(s[i])
    ensures KeepDrawable(s) == s
  {
    if s != [] {
      KeepDrawableAll(s[1..]);
    }
  }
}

=== FILE: basic_gui.dfy ===
/** The basic GUI test tool: the calibrated raw ranges it scales with, its
    idle-cursor setting, and how each report line from the sampler moves the
    cursor and drives the on-screen button and slider. Drawing is left out. */
module BasicGui {
  import opened Common
  import opened ConfigText
  import opened ConfigFile
  import opened Mapper
  import opened GuiCommon
  import Sampler

  /** The fixed window size. */
  const Width: int := 800
  const Height: int := 480

  // ---------------------------------------------------------------- ranges

  datatype Ranges = Ranges(minX: int, maxX: int, minY: int, maxY: int)

  const DefaultRanges := Ranges(0, RawMax, 0, RawMax)

  predicate IsRangeKey(k: Key) { k == MinX || k == MaxX || k == MinY || k == MaxY }

  function GetRange(r: Ranges, k: Key): int
    requires IsRangeKey(k)
  {
    match k
    case MinX => r.minX
    case MaxX => r.maxX
    case MinY => r.minY
    case MaxY => r.maxY
  }

  function SetRange(r: Ranges, k: Key, v: int): (r': Ranges)
    requires IsRangeKey(k)
    ensures GetRange(r', k) == v
    ensures forall k' :: IsRangeKey(k') && k' != k ==> GetRange(r', k') == GetRange(r, k')
  {
    match k
    case MinX => r.(minX := v)
    case MaxX => r.(maxX := v)
    case MinY => r.(minY := v)
    case MaxY => r.(maxY := v)
  }

  /** One iteration of the `load_ranges` loop: only the four range keys are
      recognised. */
  function RangeLine(r: Ranges, line: string): Ranges {
    match GuiAssignment(line)
    case None => r
    case Some(kv) => if IsRangeKey(kv.0) then SetRange(r, kv.0, kv.1) else r
  }

  function ReadRanges(r: Ranges, lines: seq<string>): Ranges
    decreases |lines|
  {
    if lines == [] then r else ReadRanges(RangeLine(r, lines[0]), lines[1..])
  }

  /** Both ranges are non-empty, so the scaling never divides by zero. */
  predicate Wide(r: Ranges) { r.minX < r.maxX && r.minY < r.maxY }

  /** `if (max <= min) max = min + 1;` on each axis. */
  function Widen(r: Ranges): (w: Ranges)
    ensures Wide(w)
    ensures w.minX == r.minX && w.minY == r.minY
    ensures r.minX < r.maxX ==> w.maxX == r.maxX
    ensures r.minY < r.maxY ==> w.maxY == r.maxY
    ensures r.maxX <= r.minX ==> w.maxX == r.minX + 1
    ensures r.maxY <= r.minY ==> w.maxY == r.minY + 1
  {
    r.(maxX := if r.maxX <= r.minX then r.minX + 1 else r.maxX,
       maxY := if r.maxY <= r.minY then r.minY + 1 else r.maxY)
  }

  /** Widening changes exactly the ranges that need it. */
  lemma WidenFixes(r: Ranges)
    ensures Widen(r) == r <==> Wide(r)
    ensures Widen(Widen(r)) == Widen(r)
  {
  }

  /** `load_ranges`: the file's lines over the full 12-bit defaults, then
      widened. A missing file is the empty sequence of lines. */
  function LoadRanges(lines: seq<string>): (r: Ranges)
    ensures Wide(r)
  {
    Widen(ReadRanges(DefaultRanges, lines))
  }

  lemma LoadRangesEmpty()
    ensures LoadRanges([]) == DefaultRanges
  {
  }

  /** A range line sets its field to `atoi` of its trimmed value. */
  lemma RangeLineSets(r: Ranges, k: Key, v: string)
    requires IsRangeKey(k)
    requires v == [] || (!IsBlank(v[0]) && !IsBlank(v[|v| - 1]))
    ensures RangeLine(r, Name(k) + "=" + v) == SetRange(r, k, Atoi(v))
  {
    GuiAssignmentPlain(k, v);
  }

  /** The `XPT_MIN_X` ... `XPT_MAX_Y` overrides as the tool applies them,
      after loading and without widening again. */
  function ApplyEnvAsWritten(r: Ranges, env: Env): (r': Ranges)
    ensures forall k :: IsRangeKey(k) ==> GetRange(r', k) == Override(GetRange(r, k), env, k)
  {
    Ranges(Override(r.minX, env, MinX), Override(r.maxX, env, MaxX),
           Override(r.minY, env, MinY), Override(r.maxY, env, MaxY))
  }

  /** As written, overriding both ends of a range with the same value leaves
      an empty range, and the scaling then divides by zero. */
  lemma EnvCollapsesRangeAsWritten()
    ensures var env := map[MinX := "100", MaxX := "100"];
      var r := ApplyEnvAsWritten(LoadRanges([]), env);
      r.minX == 100 && r.maxX == 100 && !Wide(r)
  {
    ParseShow(100);
    assert Show(100) == "100";
  }

  /** The overrides followed by the widening `load_ranges` applies, as the
      advanced tool does after its overrides. */
  function ApplyEnv(r: Ranges, env: Env): (r': Ranges)
    ensures Wide(r')
    ensures Wide(ApplyEnvAsWritten(r, env)) ==> r' == ApplyEnvAsWritten(r, env)
  {
    Widen(ApplyEnvAsWritten(r, env))
  }

  /** The written overrides and the corrected ones give the same ranges
      exactly when the overrides leave both ranges wide; a collapsed or
      inverted override is the only difference. */
  lemma AsWrittenAgreesIffWide(r: Ranges, env: Env)
    ensures ApplyEnv(r, env) == ApplyEnvAsWritten(r, env) <==> Wide(ApplyEnvAsWritten(r, env))
  {
  }

  /** Without overrides, the loaded ranges are used as they are. */
  lemma ApplyEnvNone(r: Ranges)
    requires Wide(r)
    ensures ApplyEnv(r, map[]) == r
  {
  }

  // ----------------------------------------------------------- idle cursor

  /** What to do with the cursor while no finger is on the panel. */
  datatype IdleCursorMode = ShowRaw | FreezeLast | Hide

  /** `parse_idle_cursor_mode` of the `XPT_GUI_IDLE_CURSOR` variable (None
      when unset). */
  function ParseIdleCursorMode(s: Option<string>): (m: IdleCursorMode)
    ensures m == ShowRaw <==> s == Some("show") || s == Some("raw")
    ensures m == Hide <==> s == Some("hide") || s == Some("off")
  {
    if s.None? || s.value == [] then FreezeLast
    else if s.value == "show" || s.value == "raw" then ShowRaw
    else if s.value == "freeze" || s.value == "last" then FreezeLast
    else if s.value == "hide" || s.value == "off" then Hide
    else FreezeLast
  }

  /** Unset, empty or unknown settings freeze the cursor at the last touch. */
  lemma ParseDefaultsToFreeze(s: Option<string>)
    requires s.None? || s.value !in {"show", "raw", "hide", "off"}
    ensures ParseIdleCursorMode(s) == FreezeLast
  {
  }

  /** `idle_cursor_mode_name`. */
  function ModeName(m: IdleCursorMode): string {
    match m
    case ShowRaw => "show"
    case FreezeLast => "freeze"
    case Hide => "hide"
  }

  /** The name of every mode parses back to that mode. */
  lemma ParseModeName(m: IdleCursorMode)
    ensures ParseIdleCursorMode(Some(ModeName(m))) == m
  {
  }

  /** The 'i' key: ShowRaw, then FreezeLast, then Hide, then ShowRaw again. */
  function Cycle(m: IdleCursorMode): (n: IdleCursorMode)
    ensures n != m
  {
    match m
    case ShowRaw => FreezeLast
    case FreezeLast => Hide
    case Hide => ShowRaw
  }

  /** Three presses come back, and the presses in between visit the other two
      modes. */
  lemma CycleThree(m: IdleCursorMode)
    ensures Cycle(Cycle(Cycle(m))) == m
    ensures {m, Cycle(m), Cycle(Cycle(m))} == {ShowRaw, FreezeLast, Hide}
  {
  }

  // ------------------------------------------------------------ one report

  /** `scale_to_screen`: truncating range scaling, then into the window. */
  function ScaleToScreen(x: int, y: int, r: Ranges): (p: (int, int))
    requires r.minX != r.maxX && r.minY != r.maxY
    ensures 0 <= p.0 <= Width - 1 && 0 <= p.1 <= Height - 1
    ensures Wide(r) && r.minX <= x <= r.maxX ==> p.0 == Min(GuiScale(x, r.minX, r.maxX, Width), Width - 1)
    ensures Wide(r) && r.minY <= y <= r.maxY ==> p.1 == Min(GuiScale(y, r.minY, r.maxY, Height), Height - 1)
  {
    (ClampToWindow(GuiScale(x, r.minX, r.maxX, Width), Width),
     ClampToWindow(GuiScale(y, r.minY, r.maxY, Height), Height))
  }

  /** The touch-presence decision: the `DOWN` flag when it is 0 or 1, else
      the pressure when present, else both raw axes away from the rails. */
  function TouchPresent(l: SpiReport): (touch: bool)
    ensures OrElse(l.down, -1) == 1 ==> touch
    ensures OrElse(l.down, -1) == 0 ==> !touch
    ensures OrElse(l.down, -1) != 0 && OrElse(l.down, -1) != 1 && OrElse(l.z, -1) >= 0 ==> (touch <==> l.z.value > 0)
    ensures OrElse(l.down, -1) != 0 && OrElse(l.down, -1) != 1 && OrElse(l.z, -1) < 0
      ==> (touch <==> Sampler.Present(l.rawX, l.rawY))
  {
    var down := OrElse(l.down, -1);
    var z := OrElse(l.z, -1);
    if down == 0 || down == 1 then down == 1
    else if z >= 0 then z > 0
    else Sampler.Present(l.rawX, l.rawY)
  }

  /** Without a `DOWN` of 0 or 1 and without a usable `Z` (absent, or read as
      negative), the GUI decides presence exactly as the sampler does in its
      threshold-free mode. */
  lemma PresenceFallsBackToSampler(l: SpiReport)
    requires OrElse(l.down, -1) != 0 && OrElse(l.down, -1) != 1 && OrElse(l.z, -1) < 0
    ensures TouchPresent(l) == Sampler.Present(l.rawX, l.rawY)
  {
  }

  datatype UiState = UiState(
    toggled: bool,
    touchPresent: bool,
    cx: int,
    cy: int,
    lastTouchX: int,
    lastTouchY: int,
    rawX: int,
    rawY: int,
    sliderValue: real,
    draggingSlider: bool)

  const InitialUi := UiState(false, false, 400, 240, 400, 240, 0, 0, 0.5, false)

  /** The layout: a slider across the top and three buttons in a centred row. */
  const Slider := Rect(40, 120, 720, 24)
  const BtnW: int := 160
  const BtnH: int := 70
  const Spacing: int := 40
  const StartX: int := (Width - (BtnW * 3 + Spacing * 2)) / 2
  const BtnY: int := Height / 2 - BtnH / 2
  const Btn2 := Rect(StartX + BtnW + Spacing, BtnY, BtnW, BtnH)
  const BtnExt := Rect(StartX + 2 * (BtnW + Spacing), BtnY, BtnW, BtnH)

  /** The cursor a report asks for: the reported screen position when both
      coordinates are non-negative, kept inside the window; otherwise the
      range-scaled axes. */
  function ReportedCursor(l: SpiReport, r: Ranges): (p: (int, int))
    requires r.minX != r.maxX && r.minY != r.maxY
    ensures 0 <= p.0 <= Width - 1 && 0 <= p.1 <= Height - 1
    ensures l.screen.Some? && 0 <= l.screen.value.0 < Width && 0 <= l.screen.value.1 < Height ==> p == l.screen.value
    ensures (l.screen.None? || l.screen.value.0 < 0 || l.screen.value.1 < 0) ==> p == ScaleToScreen(l.x, l.y, r)
  {
    var sx := if l.screen.Some? then l.screen.value.0 else -1;
    var sy := if l.screen.Some? then l.screen.value.1 else -1;
    if sx >= 0 && sy >= 0 then (ClampToWindow(sx, Width), ClampToWindow(sy, Height))
    else ScaleToScreen(l.x, l.y, r)
  }

  /** The slider position under the cursor, `rel` clamped into the track. */
  function SliderRel(cx: int): (rel: int)
    ensures 0 <= rel <= Slider.w
  {
    Clamp(cx - Slider.x, 0, Slider.w)
  }

  /** One report line (lines 402-449): presence, the cursor policy, and the
      button and slider interactions. The second result is whether the exit
      button was touched. */
  function OnReport(st: UiState, l: SpiReport, mode: IdleCursorMode, r: Ranges): (res: (UiState, bool))
    requires r.minX != r.maxX && r.minY != r.maxY
    ensures var s := res.0;
      && s.touchPresent == TouchPresent(l)
      && s.rawX == l.rawX && s.rawY == l.rawY
      && (TouchPresent(l) || mode == ShowRaw ==> (s.cx, s.cy) == ReportedCursor(l, r))
      && (!TouchPresent(l) && mode != ShowRaw ==> s.cx == st.cx && s.cy == st.cy)
      && (TouchPresent(l) ==> s.lastTouchX == s.cx && s.lastTouchY == s.cy)
      && (!TouchPresent(l) ==> s.lastTouchX == st.lastTouchX && s.lastTouchY == st.lastTouchY)
      && (s.toggled <==> TouchPresent(l) && PointInRect(s.cx, s.cy, Btn2))
      && (s.draggingSlider <==> TouchPresent(l) && PointInRect(s.cx, s.cy, Slider))
      && (!s.draggingSlider ==> s.sliderValue == st.sliderValue)
      && (res.1 <==> TouchPresent(l) && PointInRect(s.cx, s.cy, BtnExt))
  {
    var touch := TouchPresent(l);
    var (cx, cy) := if touch || mode == ShowRaw then ReportedCursor(l, r) else (st.cx, st.cy);
    var (lx, ly) := if touch then (cx, cy) else (st.lastTouchX, st.lastTouchY);
    var onSlider := touch && PointInRect(cx, cy, Slider);
    var value := if onSlider then SliderRel(cx) as real / Slider.w as real else st.sliderValue;
    var s := UiState(touch && PointInRect(cx, cy, Btn2), touch, cx, cy, lx, ly, l.rawX, l.rawY, value, onSlider);
    (s, touch && PointInRect(cx, cy, BtnExt))
  }

  /** What every report keeps: both cursors inside the window and the slider
      value in [0, 1]. */
  predicate InWindow(st: UiState) {
    && 0 <= st.cx < Width && 0 <= st.cy < Height
    && 0 <= st.lastTouchX < Width && 0 <= st.lastTouchY < Height
    && 0.0 <= st.sliderValue <= 1.0
  }

  /** The tool starts with the cursor in the middle of the window, nothing
      toggled or touched, and the slider at one half. */
  lemma InitialInWindow()
    ensures InWindow(InitialUi)
    ensures InitialUi.cx == Width / 2 && InitialUi.cy == Height / 2
    ensures !InitialUi.toggled && !InitialUi.touchPresent && InitialUi.sliderValue == 0.5
  {
  }

  lemma OnReportInWindow(st: UiState, l: SpiReport, mode: IdleCursorMode, r: Ranges)
    requires r.minX != r.maxX && r.minY != r.maxY
    requires InWindow(st)
    ensures InWindow(OnReport(st, l, mode, r).0)
  {
    var s := OnReport(st, l, mode, r).0;
    if s.draggingSlider {
      var rel := SliderRel(s.cx);
      assert s.sliderValue == rel as real / 720.0;
    }
  }

  /** On the track the clamp never bites: the slider follows the finger
      exactly, and a touch on the exit button never moves the slider. */
  lemma SliderFollowsFinger(st: UiState, l: SpiReport, mode: IdleCursorMode, r: Ranges)
    requires r.minX != r.maxX && r.minY != r.maxY
    ensures var s := OnReport(st, l, mode, r).0;
      s.draggingSlider ==> s.sliderValue == (s.cx - Slider.x) as real / Slider.w as real
    ensures OnReport(st, l, mode, r).1 ==> !OnReport(st, l, mode, r).0.draggingSlider
  {
  }
}

=== FILE: common.dfy ===
/** Integer helpers shared by every component: the source's clamp template,
    C's truncating integer division, the `(int)` and `llround` conversions of a
    floating-point value (modelled on exact reals), and 32-bit wrap-around. */
module Common {

  datatype Option<+T> = None | Some(value: T)

  function Min(a: int, b: int): int { if a <= b then a else b }
  function Max(a: int, b: int): int { if a >= b then a else b }

  /** `clamp_val` / `clamp_i`: `(v < lo) ? lo : ((v > hi) ? hi : v)`, exactly as
      written, so that it is also defined (though not a clamp) when `lo > hi`. */
  function Clamp(v: int, lo: int, hi: int): (r: int)
    ensures lo <= hi ==> lo <= r <= hi
    ensures lo <= v <= hi ==> r == v
    ensures lo <= hi && v < lo ==> r == lo
    ensures lo <= hi && v > hi ==> r == hi
    ensures r == v || r == lo || r == hi
  {
    if v < lo then lo else if v > hi then hi else v
  }

  /** `clamp_val` instantiated at `float`, on exact reals. */
  function ClampReal(v: real, lo: real, hi: real): (r: real)
    ensures lo <= hi ==> lo <= r <= hi
    ensures lo <= v <= hi ==> r == v
    ensures lo <= hi && v < lo ==> r == lo
    ensures lo <= hi && v > hi ==> r == hi
    ensures r == v || r == lo || r == hi
  {
    if v < lo then lo else if v > hi then hi else v
  }

  function Abs(a: int): int { if a < 0 then -a else a }

  lemma DivRemainder(a: int, b: int)
    requires 0 <= a && 0 < b
    ensures 0 <= a - (a / b) * b < b
  {
  }

  lemma MulSign(d: int, k: int)
    requires d > 0
    ensures k >= 1 ==> d * k >= d
    ensures k <= -1 ==> d * k <= -d
  {
  }

  lemma MulLe(a: int, b: int, c: int)
    requires a <= b && 0 <= c
    ensures a * c <= b * c
  {
    assert b * c - a * c == (b - a) * c;
  }

  /** Euclidean quotient and remainder are unique. */
  lemma ModUnique(x: int, d: int, q: int, r: int)
    requires d > 0 && x == d * q + r && 0 <= r < d
    ensures x % d == r && x / d == q
  {
    var q' := x / d;
    assert d * (q' - q) == r - x % d;
    MulSign(d, q' - q);
  }

  /** C/C++ integer division, which truncates toward zero (Dafny's `/` is
      Euclidean): the remainder is smaller than the divisor and takes the sign
      of the dividend. */
  function TruncDiv(a: int, b: int): (q: int)
    requires b != 0
    ensures 0 <= a ==> 0 <= a - q * b < Abs(b)
    ensures a < 0 ==> -Abs(b) < a - q * b <= 0
  {
    var n := Abs(a) / Abs(b);
    DivRemainder(Abs(a), Abs(b));
    if (a >= 0) == (b > 0) then
      assert n * b == (if b > 0 then n * Abs(b) else -(n * Abs(b)));
      n
    else
      assert -n * b == (if b > 0 then -(n * Abs(b)) else n * Abs(b));
      -n
  }

  /** `std::llround`: nearest integer, halfway cases away from zero. */
  function RoundHalfAway(v: real): (r: int)
    ensures v >= 0.0 ==> -(1.0 / 2.0) < r as real - v <= 1.0 / 2.0
    ensures v < 0.0 ==> -(1.0 / 2.0) <= r as real - v < 1.0 / 2.0
  {
    if v >= 0.0 then (v + 0.5).Floor else -((-v + 0.5).Floor)
  }

  /** Rounding a value that lies between two integers stays between them. */
  lemma RoundBetween(v: real, lo: int, hi: int)
    requires lo as real <= v <= hi as real
    ensures lo <= RoundHalfAway(v) <= hi
  {
  }

  /** An integral value rounds to itself. */
  lemma RoundInteger(n: int)
    ensures RoundHalfAway(n as real) == n
  {
  }

  /** A C `(int)` cast of a floating-point value: truncation toward zero. */
  function TruncReal(v: real): (r: int)
    ensures 0.0 <= v ==> 0 <= r && r as real <= v < r as real + 1.0
    ensures v < 0.0 ==> r <= 0 && r as real - 1.0 < v <= r as real
  {
    if v >= 0.0 then v.Floor else -((-v).Floor)
  }

  const TwoTo31: int := 0x8000_0000
  const TwoTo32: int := 0x1_0000_0000

  predicate InInt32(v: int) { -TwoTo31 <= v < TwoTo31 }

  /** Conversion of a wider integer to a 32-bit `int` (two's-complement wrap). */
  function ToInt32(v: int): (r: int)
    ensures InInt32(r)
    ensures (r - v) % TwoTo32 == 0
    ensures InInt32(v) ==> r == v
  {
    (v + TwoTo31) % TwoTo32 - TwoTo31
  }
}

=== FILE: config_file.dfy ===
/** The `key=value` configuration file as read by the sampler's and the
    daemon's `load_config`, and the `spi_device=` rewrite the sampler applies
    when it persists an auto-detected SPI device. A file is a sequence of
    lines; reading and writing the file itself is left to the caller. */
module ConfigFile {
  import opened Common
  import opened ConfigText
  import opened Params

  /** The sampler trims keys and values and knows the gesture keys; the daemon
      does neither. */
  datatype Dialect = SamplerDialect | DaemonDialect

  /** Everything `load_config` fills in: the axis flags and raw ranges, the
      configured SPI device, and the advanced parameters. */
  datatype Calibration = Calibration(
    invertX: int,
    invertY: int,
    swapXY: int,
    minX: int,
    maxX: int,
    minY: int,
    maxY: int,
    spiDevice: string,
    adv: AdvancedParams)

  const DefaultCalibration := Calibration(0, 0, 0, 0, 4095, 0, 4095, "", Defaults)

  datatype Key =
    | InvertX | InvertY | SwapXY | MinX | MaxX | MinY | MaxY | SpiDevice
    | ScreenW | ScreenH | PollUs | OffsetX | OffsetY | ScaleX | ScaleY
    | DeadzoneLeft | DeadzoneRight | DeadzoneTop | DeadzoneBottom
    | MedianWindow | IirAlpha | PressThreshold | ReleaseThreshold | MaxDeltaPx
    | TapMaxMs | TapMaxMovePx | DragStartPx

  function Name(k: Key): string {
    match k
    case InvertX => "invert_x"
    case InvertY => "invert_y"
    case SwapXY => "swap_xy"
    case MinX => "min_x"
    case MaxX => "max_x"
    case MinY => "min_y"
    case MaxY => "max_y"
    case SpiDevice => "spi_device"
    case ScreenW => "screen_w"
    case ScreenH => "screen_h"
    case PollUs => "poll_us"
    case OffsetX => "offset_x"
    case OffsetY => "offset_y"
    case ScaleX => "scale_x"
    case ScaleY => "scale_y"
    case DeadzoneLeft => "deadzone_left"
    case DeadzoneRight => "deadzone_right"
    case DeadzoneTop => "deadzone_top"
    case DeadzoneBottom => "deadzone_bottom"
    case MedianWindow => "median_window"
    case IirAlpha => "iir_alpha"
    case PressThreshold => "press_threshold"
    case ReleaseThreshold => "release_threshold"
    case MaxDeltaPx => "max_delta_px"
    case TapMaxMs => "tap_max_ms"
    case TapMaxMovePx => "tap_max_move_px"
    case DragStartPx => "drag_start_px"
  }

  predicate IsGestureKey(k: Key) { k == TapMaxMs || k == TapMaxMovePx || k == DragStartPx }
  predicate IsFloatKey(k: Key) { k == ScaleX || k == ScaleY || k == IirAlpha }
  predicate IsIntKey(k: Key) { !IsFloatKey(k) && k != SpiDevice }

  /** The keys a dialect recognises: the daemon has no gesture parameters. */
  predicate Knows(d: Dialect, k: Key) { d == SamplerDialect || !IsGestureKey(k) }

  /** The only key a string can name, told apart by its length, its second
      character and its last character (no two names agree on all three). */
  function Candidate(s: string): Option<Key> {
    if |s| < 2 then None
    else
      var sig := (|s|, s[1], s[|s| - 1]);
      if sig == (8, 'n', 'x') then Some(InvertX)
      else if sig == (8, 'n', 'y') then Some(InvertY)
      else if sig == (7, 'w', 'y') then Some(SwapXY)
      else if sig == (5, 'i', 'x') then Some(MinX)
      else if sig == (5, 'a', 'x') then Some(MaxX)
      else if sig == (5, 'i', 'y') then Some(MinY)
      else if sig == (5, 'a', 'y') then Some(MaxY)
      else if sig == (10, 'p', 'e') then Some(SpiDevice)
      else if sig == (8, 'c', 'w') then Some(ScreenW)
      else if sig == (8, 'c', 'h') then Some(ScreenH)
      else if sig == (7, 'o', 's') then Some(PollUs)
      else if sig == (8, 'f', 'x') then Some(OffsetX)
      else if sig == (8, 'f', 'y') then Some(OffsetY)
      else if sig == (7, 'c', 'x') then Some(ScaleX)
      else if sig == (7, 'c', 'y') then Some(ScaleY)
      else if sig == (13, 'e', 't') then Some(DeadzoneLeft)
      else if sig == (14, 'e', 't') then Some(DeadzoneRight)
      else if sig == (12, 'e', 'p') then Some(DeadzoneTop)
      else if sig == (15, 'e', 'm') then Some(DeadzoneBottom)
      else if sig == (13, 'e', 'w') then Some(MedianWindow)
      else if sig == (9, 'i', 'a') then Some(IirAlpha)
      else if sig == (15, 'r', 'd') then Some(PressThreshold)
      else if sig == (17, 'e', 'd') then Some(ReleaseThreshold)
      else if sig == (12, 'a', 'x') then Some(MaxDeltaPx)
      else if sig == (10, 'a', 's') then Some(TapMaxMs)
      else if sig == (15, 'a', 'x') then Some(TapMaxMovePx)
      else if sig == (13, 'r', 'x') then Some(DragStartPx)
      else None
  }

  /** Which key, if any, a (possibly trimmed) key string names: the chain of
      `key == "..."` comparisons of `load_config`. */
  function KeyOf(s: string, d: Dialect): (r: Option<Key>)
    ensures r.Some? <==> exists k :: Name(k) == s && Knows(d, k)
    ensures r.Some? ==> Name(r.value) == s && Knows(d, r.value)
  {
    var c := Candidate(s);
    if c.Some? && Name(c.value) == s && Knows(d, c.value) then c
    else
      assert forall k :: Name(k) == s ==> Candidate(s) == Some(k) by {
        forall k | Name(k) == s ensures Candidate(s) == Some(k) { CandidateName(k); }
      }
      None
  }

  /** What the loader relies on about a key's name: its signature picks it
      out, it neither starts with a blank or `#` nor ends with a blank, and it
      holds no `=`. */
  predicate NameFacts(k: Key) {
    && Candidate(Name(k)) == Some(k)
    && |Name(k)| > 0 && Name(k)[0] != '#'
    && !IsBlank(Name(k)[0]) && !IsBlank(Name(k)[|Name(k)| - 1])
    && '=' !in Name(k)
  }

  lemma NameFactsHold(k: Key)
    ensures NameFacts(k)
  {
    match k
    case InvertX => NameFactsInvertX();
    case InvertY => NameFactsInvertY();
    case SwapXY => NameFactsSwapXY();
    case MinX => NameFactsMinX();
    case MaxX => NameFactsMaxX();
    case MinY => NameFactsMinY();
    case MaxY => NameFactsMaxY();
    case SpiDevice => NameFactsSpiDevice();
    case ScreenW => NameFactsScreenW();
    case ScreenH => NameFactsScreenH();
    case PollUs => NameFactsPollUs();
    case OffsetX => NameFactsOffsetX();
    case OffsetY => NameFactsOffsetY();
    case ScaleX => NameFactsScaleX();
    case ScaleY => NameFactsScaleY();
    case DeadzoneLeft => NameFactsDeadzoneLeft();
    case DeadzoneRight => NameFactsDeadzoneRight();
    case DeadzoneTop => NameFactsDeadzoneTop();
    case DeadzoneBottom => NameFactsDeadzoneBottom();
    case MedianWindow => NameFactsMedianWindow();
    case IirAlpha => NameFactsIirAlpha();
    case PressThreshold => NameFactsPressThreshold();
    case ReleaseThreshold => NameFactsReleaseThreshold();
    case MaxDeltaPx => NameFactsMaxDeltaPx();
    case TapMaxMs => NameFactsTapMaxMs();
    case TapMaxMovePx => NameFactsTapMaxMovePx();
    case DragStartPx => NameFactsDragStartPx();
  }

  lemma CandidateName(k: Key)
    ensures Candidate(Name(k)) == Some(k)
  {
    NameFactsHold(k);
  }

  /** Every key a dialect knows is recognised by its own name. */
  lemma KeyOfName(k: Key, d: Dialect)
    requires Knows(d, k)
    ensures KeyOf(Name(k), d) == Some(k)
  {
    CandidateName(k);
  }

  /** A field of the calibration, as a tagged value. */
  datatype Value = IntVal(i: int) | RealVal(r: real) | StrVal(s: string)

  function Get(c: Calibration, k: Key): Value {
    match k
    case InvertX => IntVal(c.invertX)
    case InvertY => IntVal(c.invertY)
    case SwapXY => IntVal(c.swapXY)
    case MinX => IntVal(c.minX)
    case MaxX => IntVal(c.maxX)
    case MinY => IntVal(c.minY)
    case MaxY => IntVal(c.maxY)
    case SpiDevice => StrVal(c.spiDevice)
    case ScreenW => IntVal(c.adv.screenW)
    case ScreenH => IntVal(c.adv.screenH)
    case PollUs => IntVal(c.adv.pollUs)
    case OffsetX => IntVal(c.adv.offsetX)
    case OffsetY => IntVal(c.adv.offsetY)
    case ScaleX => RealVal(c.adv.scaleX)
    case ScaleY => RealVal(c.adv.scaleY)
    case DeadzoneLeft => IntVal(c.adv.deadzoneLeft)
    case DeadzoneRight => IntVal(c.adv.deadzoneRight)
    case DeadzoneTop => IntVal(c.adv.deadzoneTop)
    case DeadzoneBottom => IntVal(c.adv.deadzoneBottom)
    case MedianWindow => IntVal(c.adv.medianWindow)
    case IirAlpha => RealVal(c.adv.iirAlpha)
    case PressThreshold => IntVal(c.adv.pressThreshold)
    case ReleaseThreshold => IntVal(c.adv.releaseThreshold)
    case MaxDeltaPx => IntVal(c.adv.maxDeltaPx)
    case TapMaxMs => IntVal(c.adv.tapMaxMs)
    case TapMaxMovePx => IntVal(c.adv.tapMaxMovePx)
    case DragStartPx => IntVal(c.adv.dragStartPx)
  }

  /** Does a value have the kind a key stores? */
  predicate Fits(k: Key, x: Value) {
    if k == SpiDevice then x.StrVal?
    else if IsFloatKey(k) then x.RealVal?
    else x.IntVal?
  }

  /** Store a value of the right kind into the field a key names. */
  function Put(c: Calibration, k: Key, x: Value): Calibration
    requires Fits(k, x)
  {
    match k
    case InvertX => c.(invertX := x.i)
    case InvertY => c.(invertY := x.i)
    case SwapXY => c.(swapXY := x.i)
    case MinX => c.(minX := x.i)
    case MaxX => c.(maxX := x.i)
    case MinY => c.(minY := x.i)
    case MaxY => c.(maxY := x.i)
    case SpiDevice => c.(spiDevice := x.s)
    case ScreenW => c.(adv := c.adv.(screenW := x.i))
    case ScreenH => c.(adv := c.adv.(screenH := x.i))
    case PollUs => c.(adv := c.adv.(pollUs := x.i))
    case OffsetX => c.(adv := c.adv.(offsetX := x.i))
    case OffsetY => c.(adv := c.adv.(offsetY := x.i))
    case ScaleX => c.(adv := c.adv.(scaleX := x.r))
    case ScaleY => c.(adv := c.adv.(scaleY := x.r))
    case DeadzoneLeft => c.(adv := c.adv.(deadzoneLeft := x.i))
    case DeadzoneRight => c.(adv := c.adv.(deadzoneRight := x.i))
    case DeadzoneTop => c.(adv := c.adv.(deadzoneTop := x.i))
    case DeadzoneBottom => c.(adv := c.adv.(deadzoneBottom := x.i))
    case MedianWindow => c.(adv := c.adv.(medianWindow := x.i))
    case IirAlpha => c.(adv := c.adv.(iirAlpha := x.r))
    case PressThreshold => c.(adv := c.adv.(pressThreshold := x.i))
    case ReleaseThreshold => c.(adv := c.adv.(releaseThreshold := x.i))
    case MaxDeltaPx => c.(adv := c.adv.(maxDeltaPx := x.i))
    case TapMaxMs => c.(adv := c.adv.(tapMaxMs := x.i))
    case TapMaxMovePx => c.(adv := c.adv.(tapMaxMovePx := x.i))
    case DragStartPx => c.(adv := c.adv.(dragStartPx := x.i))
  }

  /** Storing into a field: reads back what was stored, leaves every other
      field alone, and a second store to the same field replaces the first. */
  lemma FieldFacts(c: Calibration, k: Key, x: Value, y: Value, k': Key)
    requires Fits(k, x) && Fits(k, y)
    ensures Get(Put(c, k, x), k) == x
    ensures k' != k ==> Get(Put(c, k, x), k') == Get(c, k')
    ensures Put(Put(c, k, x), k, y) == Put(c, k, y)
  {
    match k
    case InvertX => FieldInvertX(c, x, y, k');
    case InvertY => FieldInvertY(c, x, y, k');
    case SwapXY => FieldSwapXY(c, x, y, k');
    case MinX => FieldMinX(c, x, y, k');
    case MaxX => FieldMaxX(c, x, y, k');
    case MinY => FieldMinY(c, x, y, k');
    case MaxY => FieldMaxY(c, x, y, k');
    case SpiDevice => FieldSpiDevice(c, x, y, k');
    case ScreenW => FieldScreenW(c, x, y, k');
    case ScreenH => FieldScreenH(c, x, y, k');
    case PollUs => FieldPollUs(c, x, y, k');
    case OffsetX => FieldOffsetX(c, x, y, k');
    case OffsetY => FieldOffsetY(c, x, y, k');
    case ScaleX => FieldScaleX(c, x, y, k');
    case ScaleY => FieldScaleY(c, x, y, k');
    case DeadzoneLeft => FieldDeadzoneLeft(c, x, y, k');
    case DeadzoneRight => FieldDeadzoneRight(c, x, y, k');
    case DeadzoneTop => FieldDeadzoneTop(c, x, y, k');
    case DeadzoneBottom => FieldDeadzoneBottom(c, x, y, k');
    case MedianWindow => FieldMedianWindow(c, x, y, k');
    case IirAlpha => FieldIirAlpha(c, x, y, k');
    case PressThreshold => FieldPressThreshold(c, x, y, k');
    case ReleaseThreshold => FieldReleaseThreshold(c, x, y, k');
    case MaxDeltaPx => FieldMaxDeltaPx(c, x, y, k');
    case TapMaxMs => FieldTapMaxMs(c, x, y, k');
    case TapMaxMovePx => FieldTapMaxMovePx(c, x, y, k');
    case DragStartPx => FieldDragStartPx(c, x, y, k');
  }

  /** The value a successful assignment of the text `v` to key `k` stores, or
      `None` when the text does not parse for that key (`spi_device` takes any
      text, the empty one included). */
  function Parsed(k: Key, v: string): (r: Option<Value>)
    ensures r.Some? ==> Fits(k, r.value)
  {
    if k == SpiDevice then Some(StrVal(v))
    else if IsFloatKey(k) then
      match ParseFloat(v)
      case Some(x) => Some(RealVal(x))
      case None => None
    else
      match ParseInt(v)
      case Some(n) => Some(IntVal(n))
      case None => None
  }

  /** One `else if (key == "..." && parse_xxx(val, v)) field = v;` arm. */
  function Assign(c: Calibration, k: Key, v: string): Calibration {
    match Parsed(k, v)
    case None => c
    case Some(x) => Put(c, k, x)
  }

  /** Assigning one key leaves every other field as it was. */
  lemma AssignFrame(c: Calibration, k: Key, v: string, k': Key)
    requires k' != k
    ensures Get(Assign(c, k, v), k') == Get(c, k')
  {
    if Parsed(k, v).Some? {
      FieldFacts(c, k, Parsed(k, v).value, Parsed(k, v).value, k');
    }
  }

  /** A later assignment of a parsable value overrides an earlier one. */
  lemma AssignOverrides(c: Calibration, k: Key, v1: string, v2: string)
    requires Parsed(k, v2).Some?
    ensures Assign(Assign(c, k, v1), k, v2) == Assign(c, k, v2)
  {
    if Parsed(k, v1).Some? {
      FieldFacts(c, k, Parsed(k, v1).value, Parsed(k, v2).value, k);
    }
  }

  /** Position of the first `=` in a line. */
  function FirstEq(line: string): (i: nat)
    ensures i <= |line|
    ensures forall j :: 0 <= j < i ==> line[j] != '='
    ensures i < |line| ==> line[i] == '='
  {
    if line == [] || line[0] == '=' then 0 else 1 + FirstEq(line[1..])
  }

  function MaybeTrim(s: string, trim: bool): string {
    if trim then Trim(s) else s
  }

  /** The per-line filter: empty lines, lines starting with `#` and lines
      without `=` are skipped; the rest split at the first `=`. */
  function SplitLine(line: string, trim: bool): (r: Option<(string, string)>)
    ensures r.None? <==> line == [] || line[0] == '#' || '=' !in line
  {
    var i := FirstEq(line);
    if line == [] || line[0] == '#' || i == |line| then None
    else Some((MaybeTrim(line[..i], trim), MaybeTrim(line[i + 1..], trim)))
  }

  /** Splitting recovers the two halves of `key=value`; the value may itself
      contain `=`. */
  lemma SplitJoin(k: string, v: string, trim: bool)
    requires '=' !in k
    requires k == [] || k[0] != '#'
    ensures SplitLine(k + "=" + v, trim) == Some((MaybeTrim(k, trim), MaybeTrim(v, trim)))
  {
    var line := k + "=" + v;
    assert line[|k|] == '=';
    assert FirstEq(line) == |k|;
    assert line[..|k|] == k;
    assert line[|k| + 1..] == v;
  }

  function Trims(d: Dialect): bool { d == SamplerDialect }

  /** One iteration of the `getline` loop of `load_config`. */
  function ApplyLine(c: Calibration, line: string, d: Dialect): Calibration {
    match SplitLine(line, Trims(d))
    case None => c
    case Some(kv) =>
      match KeyOf(kv.0, d)
      case None => c
      case Some(k) => Assign(c, k, kv.1)
  }

  /** Does this line assign key `k` (whether or not its value parses)? */
  predicate Mentions(line: string, k: Key, d: Dialect) {
    var kv := SplitLine(line, Trims(d));
    kv.Some? && KeyOf(kv.value.0, d) == Some(k)
  }

  /** Does this line set key `k`: does it assign `k` a value that parses? A
      line that assigns `k` an unparsable value leaves the field alone. */
  predicate Sets(line: string, k: Key, d: Dialect) {
    var kv := SplitLine(line, Trims(d));
    kv.Some? && KeyOf(kv.value.0, d) == Some(k) && Parsed(k, kv.value.1).Some?
  }

  function LoadLines(c: Calibration, lines: seq<string>, d: Dialect): Calibration
    decreases |lines|
  {
    if lines == [] then c else LoadLines(ApplyLine(c, lines[0], d), lines[1..], d)
  }

  /** `load_config`: the lines applied in order to the defaults. A missing or
      unreadable file is the empty sequence of lines. */
  function Load(lines: seq<string>, d: Dialect): Calibration {
    LoadLines(DefaultCalibration, lines, d)
  }

  /** Skipped lines change nothing: comments, empty lines, lines with no `=`. */
  lemma SkippedLine(c: Calibration, line: string, d: Dialect)
    requires line == [] || line[0] == '#' || '=' !in line
    ensures ApplyLine(c, line, d) == c
  {
  }

  /** The sampler ignores spaces and tabs around keys and values. */
  lemma SamplerTrims(c: Calibration, k: Key, v: string, p1: string, p2: string, p3: string, p4: string)
    requires AllBlank(p1) && AllBlank(p2) && AllBlank(p3) && AllBlank(p4)
    requires v == [] || (!IsBlank(v[0]) && !IsBlank(v[|v| - 1]))
    ensures ApplyLine(c, p1 + Name(k) + p2 + "=" + p3 + v + p4, SamplerDialect) == Assign(c, k, v)
  {
    NameNonBlank(k);
    SplitPadded(p1, Name(k), p2, p3, v, p4);
    KeyOfName(k, SamplerDialect);
  }

  /** A trimmed split of a padded `word=value` line gives back the word and
      the value. */
  lemma SplitPadded(p1: string, w: string, p2: string, p3: string, v: string, p4: string)
    requires AllBlank(p1) && AllBlank(p2) && AllBlank(p3) && AllBlank(p4)
    requires |w| > 0 && w[0] != '#' && '=' !in w && !IsBlank(w[0]) && !IsBlank(w[|w| - 1])
    requires v == [] || (!IsBlank(v[0]) && !IsBlank(v[|v| - 1]))
    ensures SplitLine(p1 + w + p2 + "=" + p3 + v + p4, true) == Some((w, v))
  {
    var key := p1 + w + p2;
    var value := p3 + v + p4;
    assert p1 + w + p2 + "=" + p3 + v + p4 == key + "=" + value;
    PaddedKeyShape(p1, w, p2);
    SplitJoin(key, value, true);
    TrimPadding(p1, w, p2);
    TrimPadding(p3, v, p4);
  }

  /** The sampler reads `name=value` as an assignment of the trimmed value. */
  lemma SamplerReadsAssignment(c: Calibration, k: Key, v: string)
    ensures ApplyLine(c, Name(k) + "=" + v, SamplerDialect) == Assign(c, k, Trim(v))
  {
    NameNonBlank(k);
    SplitTrimmedValue(Name(k), v);
    KeyOfName(k, SamplerDialect);
  }

  /** A value without a digit does not parse for a numeric key, so the line
      leaves the calibration as it was. */
  lemma NonNumberKeeps(c: Calibration, k: Key, v: string)
    requires k != SpiDevice
    requires forall i :: 0 <= i < |v| ==> !IsDigit(v[i])
    ensures ApplyLine(c, Name(k) + "=" + v, SamplerDialect) == c
  {
    SamplerReadsAssignment(c, k, v);
    TrimNoDigits(v);
    ParseRejectsNonNumbers(Trim(v));
    ParseFloatRejectsNonNumbers(Trim(v));
    assert Parsed(k, Trim(v)).None?;
  }

  lemma SplitTrimmedValue(w: string, v: string)
    requires |w| > 0 && w[0] != '#' && '=' !in w && !IsBlank(w[0]) && !IsBlank(w[|w| - 1])
    ensures SplitLine(w + "=" + v, true) == Some((w, Trim(v)))
  {
    SplitJoin(w, v, true);
    TrimWord(w);
  }

  /** Padding a name with blanks adds no `=` and no leading `#`. */
  lemma PaddedKeyShape(p1: string, w: string, p2: string)
    requires AllBlank(p1) && AllBlank(p2)
    requires '=' !in w && |w| > 0 && w[0] != '#'
    ensures '=' !in p1 + w + p2
    ensures (p1 + w + p2)[0] != '#'
  {
    var key := p1 + w + p2;
    forall j | 0 <= j < |key|
      ensures key[j] != '='
    {
      if j < |p1| {
        assert key[j] == p1[j];
      } else if j < |p1| + |w| {
        assert key[j] == w[j - |p1|];
      } else {
        assert key[j] == p2[j - |p1| - |w|];
      }
    }
    if p1 != [] {
      assert key[0] == p1[0];
    } else {
      assert key[0] == w[0];
    }
  }

  lemma NameNonBlank(k: Key)
    ensures |Name(k)| > 0 && Name(k)[0] != '#'
    ensures !IsBlank(Name(k)[0]) && !IsBlank(Name(k)[|Name(k)| - 1])
    ensures '=' !in Name(k)
  {
    NameFactsHold(k);
  }

  /** The daemon does not trim: a blank before the `=` hides the key. */
  lemma DaemonDoesNotTrim(c: Calibration, k: Key, v: string)
    ensures ApplyLine(c, Name(k) + " =" + v, DaemonDialect) == c
  {
    var key := Name(k) + " ";
    NameNonBlank(k);
    assert Name(k) + " =" + v == key + "=" + v;
    SplitJoin(key, v, false);
    forall k' | true
      ensures Name(k') != key
    {
      NameNonBlank(k');
    }
  }

  /** The daemon ignores the gesture keys it has no parameters for. */
  lemma DaemonIgnoresGestureKeys(c: Calibration, k: Key, v: string)
    requires IsGestureKey(k)
    ensures ApplyLine(c, Name(k) + "=" + v, DaemonDialect) == c
  {
    NameNonBlank(k);
    SplitJoin(Name(k), v, false);
    forall k' | Name(k') == Name(k)
      ensures k' == k
    {
      NameInjective(k, k');
    }
  }

  /** No two keys share a name. */
  lemma NameInjective(a: Key, b: Key)
    requires Name(a) == Name(b)
    ensures a == b
  {
    CandidateName(a);
    CandidateName(b);
  }

  lemma {:induction false} LoadLinesAppend(c: Calibration, a: seq<string>, b: seq<string>, d: Dialect)
    ensures LoadLines(c, a + b, d) == LoadLines(LoadLines(c, a, d), b, d)
    decreases |a|
  {
    if a == [] {
      assert a + b == b;
    } else {
      assert (a + b)[0] == a[0];
      assert (a + b)[1..] == a[1..] + b;
      LoadLinesAppend(ApplyLine(c, a[0], d), a[1..], b, d);
    }
  }

  /** A line that does not mention a key leaves that key's field alone. */
  lemma ApplyLineFrame(c: Calibration, line: string, k: Key, d: Dialect)
    requires !Sets(line, k, d)
    ensures Get(ApplyLine(c, line, d), k) == Get(c, k)
  {
    var kv := SplitLine(line, Trims(d));
    if kv.Some? && KeyOf(kv.value.0, d).Some? {
      var k0 := KeyOf(kv.value.0, d).value;
      ApplyLineAssigns(c, line, d, k0);
      if k0 != k {
        AssignFrame(c, k0, kv.value.1, k);
      }
    } else {
      ApplyLineSkips(c, line, d);
    }
  }

  lemma ApplyLineAssigns(c: Calibration, line: string, d: Dialect, k0: Key)
    requires SplitLine(line, Trims(d)).Some?
    requires KeyOf(SplitLine(line, Trims(d)).value.0, d) == Some(k0)
    ensures ApplyLine(c, line, d) == Assign(c, k0, SplitLine(line, Trims(d)).value.1)
  {
  }

  lemma ApplyLineSkips(c: Calibration, line: string, d: Dialect)
    requires SplitLine(line, Trims(d)).None? || KeyOf(SplitLine(line, Trims(d)).value.0, d).None?
    ensures ApplyLine(c, line, d) == c
  {
  }

  /** Lines that do not set a key leave that key's field alone. */
  lemma {:induction false} LoadLinesUntouched(c: Calibration, lines: seq<string>, k: Key, d: Dialect)
    requires forall j :: 0 <= j < |lines| ==> !Sets(lines[j], k, d)
    ensures Get(LoadLines(c, lines, d), k) == Get(c, k)
    decreases |lines|
  {
    if lines != [] {
      ApplyLineFrame(c, lines[0], k, d);
      LoadLinesUntouched(ApplyLine(c, lines[0], d), lines[1..], k, d);
    }
  }

  /** The last line that assigns a key with a parsable value decides it;
      later lines may still assign the key, as long as their values do not
      parse. */
  lemma LastAssignmentWins(c: Calibration, pre: seq<string>, k: Key, v: string, post: seq<string>)
    requires Parsed(k, Trim(v)).Some?
    requires forall j :: 0 <= j < |post| ==> !Sets(post[j], k, SamplerDialect)
    ensures Get(LoadLines(c, pre + [Name(k) + "=" + v] + post, SamplerDialect), k)
         == Parsed(k, Trim(v)).value
  {
    var d := SamplerDialect;
    var line := Name(k) + "=" + v;
    LoadLinesAppend(c, pre + [line], post, d);
    LoadLinesAppend(c, pre, [line], d);
    var mid := LoadLines(c, pre, d);
    SamplerReadsAssignment(mid, k, v);
    assert [line][1..] == [];
    assert LoadLines(mid, [line], d) == ApplyLine(mid, line, d);
    FieldFacts(mid, k, Parsed(k, Trim(v)).value, Parsed(k, Trim(v)).value, k);
    LoadLinesUntouched(ApplyLine(mid, line, d), post, k, d);
  }

  // ---- update_config_spi ----

  const SpiPrefix: string := "spi_device="

  predicate StartsWith(s: string, p: string) { |p| <= |s| && s[..|p|] == p }

  lemma StartsWithAppend(p: string, d: string)
    ensures StartsWith(p + d, p)
  {
    assert (p + d)[..|p|] == p;
  }

  predicate AnyStartsWith(lines: seq<string>, p: string) {
    exists i :: 0 <= i < |lines| && StartsWith(lines[i], p)
  }

  function ReplaceSpiLines(lines: seq<string>, dev: string): (r: seq<string>)
    ensures |r| == |lines|
    ensures forall i :: 0 <= i < |lines| ==>
      r[i] == (if StartsWith(lines[i], SpiPrefix) then SpiPrefix + dev else lines[i])
  {
    if lines == [] then []
    else
      [if StartsWith(lines[0], SpiPrefix) then SpiPrefix + dev else lines[0]]
        + ReplaceSpiLines(lines[1..], dev)
  }

  /** `update_config_spi` on the file's lines: every line that begins with
      `spi_device=` becomes `spi_device=<dev>`, and one such line is appended
      when there was none. An empty device name leaves the file alone. */
  function UpdateConfigSpi(lines: seq<string>, dev: string): (r: seq<string>)
    ensures dev == [] ==> r == lines
    ensures dev != [] ==> |r| == |lines| + (if AnyStartsWith(lines, SpiPrefix) then 0 else 1)
    ensures dev != [] ==> forall i :: 0 <= i < |lines| ==>
      r[i] == (if StartsWith(lines[i], SpiPrefix) then SpiPrefix + dev else lines[i])
    ensures dev != [] && !AnyStartsWith(lines, SpiPrefix) ==> r[|lines|] == SpiPrefix + dev
    // afterwards the device line is present, and every device line names `dev`
    ensures dev != [] ==> AnyStartsWith(r, SpiPrefix)
    ensures dev != [] ==> forall i :: 0 <= i < |r| && StartsWith(r[i], SpiPrefix) ==> r[i] == SpiPrefix + dev
  {
    if dev == [] then lines
    else
      var replaced := ReplaceSpiLines(lines, dev);
      StartsWithAppend(SpiPrefix, dev);
      if AnyStartsWith(lines, SpiPrefix) then
        var i :| 0 <= i < |lines| && StartsWith(lines[i], SpiPrefix);
        assert StartsWith(replaced[i], SpiPrefix);
        replaced
      else
        var r := replaced + [SpiPrefix + dev];
        assert StartsWith(r[|lines|], SpiPrefix);
        r
  }

  /** Persisting the same device twice writes the same file as once. */
  lemma UpdateConfigSpiIdempotent(lines: seq<string>, dev: string)
    ensures UpdateConfigSpi(UpdateConfigSpi(lines, dev), dev) == UpdateConfigSpi(lines, dev)
  {
    var once := UpdateConfigSpi(lines, dev);
    var twice := UpdateConfigSpi(once, dev);
    if dev != [] {
      assert |twice| == |once|;
      forall i | 0 <= i < |once|
        ensures twice[i] == once[i]
      {
      }
    }
  }

  /** The last line of a file that begins with `spi_device=`. */
  lemma LastSpiLine(r: seq<string>) returns (last: nat)
    requires AnyStartsWith(r, SpiPrefix)
    ensures last < |r| && StartsWith(r[last], SpiPrefix)
    ensures forall j :: last < j < |r| ==> !StartsWith(r[j], SpiPrefix)
  {
    if StartsWith(r[|r| - 1], SpiPrefix) {
      last := |r| - 1;
    } else {
      var i :| 0 <= i < |r| && StartsWith(r[i], SpiPrefix);
      assert i < |r| - 1 && r[..|r| - 1][i] == r[i];
      last := LastSpiLine(r[..|r| - 1]);
      assert r[..|r| - 1][last] == r[last];
    }
  }

  /** Persisting a device and reading the file back yields that device, as
      long as every line the loader reads as `spi_device` is written in the
      exact `spi_device=` form the rewrite recognises. */
  lemma UpdateConfigSpiThenLoad(c: Calibration, lines: seq<string>, dev: string)
    requires dev != []
    requires forall i :: 0 <= i < |lines| && Mentions(lines[i], SpiDevice, SamplerDialect) ==>
      StartsWith(lines[i], SpiPrefix)
    ensures LoadLines(c, UpdateConfigSpi(lines, dev), SamplerDialect).spiDevice == Trim(dev)
  {
    var r := UpdateConfigSpi(lines, dev);
    var last := LastSpiLine(r);
    SpiLineAssigns(r, dev, last);
    NoLaterSpiLine(lines, dev, last);
    LastAssignmentAt(c, r, last, SpiDevice, dev);
  }

  /** A device line written by the rewrite assigns that device. */
  lemma SpiLineAssigns(r: seq<string>, dev: string, i: nat)
    requires i < |r| && r[i] == SpiPrefix + dev
    ensures r[i] == Name(SpiDevice) + "=" + dev
  {
    assert SpiPrefix == Name(SpiDevice) + "=";
  }

  /** `LastAssignmentWins` for a file given as a whole, with the deciding line
      at position `i`. */
  lemma LastAssignmentAt(c: Calibration, r: seq<string>, i: nat, k: Key, v: string)
    requires i < |r| && r[i] == Name(k) + "=" + v
    requires Parsed(k, Trim(v)).Some?
    requires forall j :: i < j < |r| ==> !Sets(r[j], k, SamplerDialect)
    ensures Get(LoadLines(c, r, SamplerDialect), k) == Parsed(k, Trim(v)).value
  {
    var post := r[i + 1..];
    SplitAt(r, i);
    forall j | 0 <= j < |post|
      ensures !Sets(post[j], k, SamplerDialect)
    {
      assert post[j] == r[i + 1 + j];
    }
    LastAssignmentWins(c, r[..i], k, v, post);
  }

  lemma SplitAt(r: seq<string>, i: nat)
    requires i < |r|
    ensures r == r[..i] + [r[i]] + r[i + 1..]
    ensures forall j :: i < j < |r| ==> r[i + 1..][j - i - 1] == r[j]
  {
  }

  /** After the last `spi_device=` line of the rewritten file no line assigns
      the device. */
  lemma NoLaterSpiLine(lines: seq<string>, dev: string, last: nat)
    requires dev != []
    requires forall i :: 0 <= i < |lines| && Mentions(lines[i], SpiDevice, SamplerDialect) ==>
      StartsWith(lines[i], SpiPrefix)
    requires forall j :: last < j < |UpdateConfigSpi(lines, dev)| ==> !StartsWith(UpdateConfigSpi(lines, dev)[j], SpiPrefix)
    ensures forall j :: last < j < |UpdateConfigSpi(lines, dev)| ==> !Mentions(UpdateConfigSpi(lines, dev)[j], SpiDevice, SamplerDialect)
  {
    var r := UpdateConfigSpi(lines, dev);
    forall j | last < j < |r|
      ensures !Mentions(r[j], SpiDevice, SamplerDialect)
    {
      assert !StartsWith(r[j], SpiPrefix);
      if j < |lines| {
        assert r[j] == lines[j];
      }
    }
  }

  // ---- One small proof per key: the name facts and the field-access facts
  // ---- are checked key by key, so that no single proof spans all 27 keys.

  lemma NameFactsInvertX()
    ensures NameFacts(InvertX)
  {
  }

  lemma FieldInvertX(c: Calibration, x: Value, y: Value, k': Key)
    requires Fits(InvertX, x) && Fits(InvertX, y)
    ensures Get(Put(c, InvertX, x), InvertX) == x
    ensures k' != InvertX ==> Get(Put(c, InvertX, x), k') == Get(c, k')
    ensures Put(Put(c, InvertX, x), InvertX, y) == Put(c, InvertX, y)
  {
  }

  lemma NameFactsInvertY()
    ensures NameFacts(InvertY)
  {
  }

  lemma FieldInvertY(c: Calibration, x: Value, y: Value, k': Key)
    requires Fits(InvertY, x) && Fits(InvertY, y)
    ensures Get(Put(c, InvertY, x), InvertY) == x
    ensures k' != InvertY ==> Get(Put(c, InvertY, x), k') == Get(c, k')
    ensures Put(Put(c, InvertY, x), InvertY, y) == Put(c, InvertY, y)
  {
  }

  lemma NameFactsSwapXY()
    ensures NameFacts(SwapXY)
  {
  }

  lemma FieldSwapXY(c: Calibration, x: Value, y: Value, k': Key)
    requires Fits(SwapXY, x) && Fits(SwapXY, y)
    ensures Get(Put(c, SwapXY, x), SwapXY) == x
    ensures k' != SwapXY ==> Get(Put(c, SwapXY, x), k') == Get(c, k')
    ensures Put(Put(c, SwapXY, x), SwapXY, y) == Put(c, SwapXY, y)
  {
  }

  lemma NameFactsMinX()
    ensures NameFacts(MinX)
  {
  }

  lemma FieldMinX(c: Calibration, x: Value, y: Value, k': Key)
    requires Fits(MinX, x) && Fits(MinX, y)
    ensures Get(Put(c, MinX, x), MinX) == x
    ensures k' != MinX ==> Get(Put(c, MinX, x), k') == Get(c, k')
    ensures Put(Put(c, MinX, x), MinX, y) == Put(c, MinX, y)
  {
  }

  lemma NameFactsMaxX()
    ensures NameFacts(MaxX)
  {
  }

  lemma FieldMaxX(c: Calibration, x: Value, y: Value, k': Key)
    requires Fits(MaxX, x) && Fits(MaxX, y)
    ensures Get(Put(c, MaxX, x), MaxX) == x
    ensures k' != MaxX ==> Get(Put(c, MaxX, x), k') == Get(c, k')
    ensures Put(Put(c, MaxX, x), MaxX, y) == Put(c, MaxX, y)
  {
  }

  lemma NameFactsMinY()
    ensures NameFacts(MinY)
  {
  }

  lemma FieldMinY(c: Calibration, x: Value, y: Value, k': Key)
    requires Fits(MinY, x) && Fits(MinY, y)
    ensures Get(Put(c, MinY, x), MinY) == x
    ensures k' != MinY ==> Get(Put(c, MinY, x), k') == Get(c, k')
    ensures Put(Put(c, MinY, x), MinY, y) == Put(c, MinY, y)
  {
  }

  lemma NameFactsMaxY()
    ensures NameFacts(MaxY)
  {
  }

  lemma FieldMaxY(c: Calibration, x: Value, y: Value, k': Key)
    requires Fits(MaxY, x) && Fits(MaxY, y)
    ensures Get(Put(c, MaxY, x), MaxY) == x
    ensures k' != MaxY ==> Get(Put(c, MaxY, x), k') == Get(c, k')
    ensures Put(Put(c, MaxY, x), MaxY, y) == Put(c, MaxY, y)
  {
  }

  lemma NameFactsSpiDevice()
    ensures NameFacts(SpiDevice)
  {
  }

  lemma FieldSpiDevice(c: Calibration, x: Value, y: Value, k': Key)
    requires Fits(SpiDevice, x) && Fits(SpiDevice, y)
    ensures Get(Put(c, SpiDevice, x), SpiDevice) == x
    ensures k' != SpiDevice ==> Get(Put(c, SpiDevice, x), k') == Get(c, k')
    ensures Put(Put(c, SpiDevice, x), SpiDevice, y) == Put(c, SpiDevice, y)
  {
  }

  lemma NameFactsScreenW()
    ensures NameFacts(ScreenW)
  {
  }

  lemma FieldScreenW(c: Calibration, x: Value, y: Value, k': Key)
    requires Fits(ScreenW, x) && Fits(ScreenW, y)
    ensures Get(Put(c, ScreenW, x), ScreenW) == x
    ensures k' != ScreenW ==> Get(Put(c, ScreenW, x), k') == Get(c, k')
    ensures Put(Put(c, ScreenW, x), ScreenW, y) == Put(c, ScreenW, y)
  {
  }

  lemma NameFactsScreenH()
    ensures NameFacts(ScreenH)
  {
  }

  lemma FieldScreenH(c: Calibration, x: Value, y: Value, k': Key)
    requires Fits(ScreenH, x) && Fits(ScreenH, y)
    ensures Get(Put(c, ScreenH, x), ScreenH) == x
    ensures k' != ScreenH ==> Get(Put(c, ScreenH, x), k') == Get(c, k')
    ensures Put(Put(c, ScreenH, x), ScreenH, y) == Put(c, ScreenH, y)
  {
  }

  lemma NameFactsPollUs()
    ensures NameFacts(PollUs)
  {
  }

  lemma FieldPollUs(c: Calibration, x: Value, y: Value, k': Key)
    requires Fits(PollUs, x) && Fits(PollUs, y)
    ensures Get(Put(c, PollUs, x), PollUs) == x
    ensures k' != PollUs ==> Get(Put(c, PollUs, x), k') == Get(c, k')
    ensures Put(Put(c, PollUs, x), PollUs, y) == Put(c, PollUs, y)
  {
  }

  lemma NameFactsOffsetX()
    ensures NameFacts(OffsetX)
  {
  }

  lemma FieldOffsetX(c: Calibration, x: Value, y: Value, k': Key)
    requires Fits(OffsetX, x) && Fits(OffsetX, y)
    ensures Get(Put(c, OffsetX, x), OffsetX) == x
    ensures k' != OffsetX ==> Get(Put(c, OffsetX, x), k') == Get(c, k')
    ensures Put(Put(c, OffsetX, x), OffsetX, y) == Put(c, OffsetX, y)
  {
  }

  lemma NameFactsOffsetY()
    ensures NameFacts(OffsetY)
  {
  }

  lemma FieldOffsetY(c: Calibration, x: Value, y: Value, k': Key)
    requires Fits(OffsetY, x) && Fits(OffsetY, y)
    ensures Get(Put(c, OffsetY, x), OffsetY) == x
    ensures k' != OffsetY ==> Get(Put(c, OffsetY, x), k') == Get(c, k')
    ensures Put(Put(c, OffsetY, x), OffsetY, y) == Put(c, OffsetY, y)
  {
  }

  lemma NameFactsScaleX()
    ensures NameFacts(ScaleX)
  {
  }

  lemma FieldScaleX(c: Calibration, x: Value, y: Value, k': Key)
    requires Fits(ScaleX, x) && Fits(ScaleX, y)
    ensures Get(Put(c, ScaleX, x), ScaleX) == x
    ensures k' != ScaleX ==> Get(Put(c, ScaleX, x), k') == Get(c, k')
    ensures Put(Put(c, ScaleX, x), ScaleX, y) == Put(c, ScaleX, y)
  {
  }

  lemma NameFactsScaleY()
    ensures NameFacts(ScaleY)
  {
  }

  lemma FieldScaleY(c: Calibration, x: Value, y: Value, k': Key)
    requires Fits(ScaleY, x) && Fits(ScaleY, y)
    ensures Get(Put(c, ScaleY, x), ScaleY) == x
    ensures k' != ScaleY ==> Get(Put(c, ScaleY, x), k') == Get(c, k')
    ensures Put(Put(c, ScaleY, x), ScaleY, y) == Put(c, ScaleY, y)
  {
  }

  lemma NameFactsDeadzoneLeft()
    ensures NameFacts(DeadzoneLeft)
  {
  }

  lemma FieldDeadzoneLeft(c: Calibration, x: Value, y: Value, k': Key)
    requires Fits(DeadzoneLeft, x) && Fits(DeadzoneLeft, y)
    ensures Get(Put(c, DeadzoneLeft, x), DeadzoneLeft) == x
    ensures k' != DeadzoneLeft ==> Get(Put(c, DeadzoneLeft, x), k') == Get(c, k')
    ensures Put(Put(c, DeadzoneLeft, x), DeadzoneLeft, y) == Put(c, DeadzoneLeft, y)
  {
  }

  lemma NameFactsDeadzoneRight()
    ensures NameFacts(DeadzoneRight)
  {
  }

  lemma FieldDeadzoneRight(c: Calibration, x: Value, y: Value, k': Key)
    requires Fits(DeadzoneRight, x) && Fits(DeadzoneRight, y)
    ensures Get(Put(c, DeadzoneRight, x), DeadzoneRight) == x
    ensures k' != DeadzoneRight ==> Get(Put(c, DeadzoneRight, x), k') == Get(c, k')
    ensures Put(Put(c, DeadzoneRight, x), DeadzoneRight, y) == Put(c, DeadzoneRight, y)
  {
  }

  lemma NameFactsDeadzoneTop()
    ensures NameFacts(DeadzoneTop)
  {
  }

  lemma FieldDeadzoneTop(c: Calibration, x: Value, y: Value, k': Key)
    requires Fits(DeadzoneTop, x) && Fits(DeadzoneTop, y)
    ensures Get(Put(c, DeadzoneTop, x), DeadzoneTop) == x
    ensures k' != DeadzoneTop ==> Get(Put(c, DeadzoneTop, x), k') == Get(c, k')
    ensures Put(Put(c, DeadzoneTop, x), DeadzoneTop, y) == Put(c, DeadzoneTop, y)
  {
  }

  lemma NameFactsDeadzoneBottom()
    ensures NameFacts(DeadzoneBottom)
  {
  }

  lemma FieldDeadzoneBottom(c: Calibration, x: Value, y: Value, k': Key)
    requires Fits(DeadzoneBottom, x) && Fits(DeadzoneBottom, y)
    ensures Get(Put(c, DeadzoneBottom, x), DeadzoneBottom) == x
    ensures k' != DeadzoneBottom ==> Get(Put(c, DeadzoneBottom, x), k') == Get(c, k')
    ensures Put(Put(c, DeadzoneBottom, x), DeadzoneBottom, y) == Put(c, DeadzoneBottom, y)
  {
  }

  lemma NameFactsMedianWindow()
    ensures NameFacts(MedianWindow)
  {
  }

  lemma FieldMedianWindow(c: Calibration, x: Value, y: Value, k': Key)
    requires Fits(MedianWindow, x) && Fits(MedianWindow, y)
    ensures Get(Put(c, MedianWindow, x), MedianWindow) == x
    ensures k' != MedianWindow ==> Get(Put(c, MedianWindow, x), k') == Get(c, k')
    ensures Put(Put(c, MedianWindow, x), MedianWindow, y) == Put(c, MedianWindow, y)
  {
  }

  lemma NameFactsIirAlpha()
    ensures NameFacts(IirAlpha)
  {
  }

  lemma FieldIirAlpha(c: Calibration, x: Value, y: Value, k': Key)
    requires Fits(IirAlpha, x) && Fits(IirAlpha, y)
    ensures Get(Put(c, IirAlpha, x), IirAlpha) == x
    ensures k' != IirAlpha ==> Get(Put(c, IirAlpha, x), k') == Get(c, k')
    ensures Put(Put(c, IirAlpha, x), IirAlpha, y) == Put(c, IirAlpha, y)
  {
  }

  lemma NameFactsPressThreshold()
    ensures NameFacts(PressThreshold)
  {
  }

  lemma FieldPressThreshold(c: Calibration, x: Value, y: Value, k': Key)
    requires Fits(PressThreshold, x) && Fits(PressThreshold, y)
    ensures Get(Put(c, PressThreshold, x), PressThreshold) == x
    ensures k' != PressThreshold ==> Get(Put(c, PressThreshold, x), k') == Get(c, k')
    ensures Put(Put(c, PressThreshold, x), PressThreshold, y) == Put(c, PressThreshold, y)
  {
  }

  lemma NameFactsReleaseThreshold()
    ensures NameFacts(ReleaseThreshold)
  {
  }

  lemma FieldReleaseThreshold(c: Calibration, x: Value, y: Value, k': Key)
    requires Fits(ReleaseThreshold, x) && Fits(ReleaseThreshold, y)
    ensures Get(Put(c, ReleaseThreshold, x), ReleaseThreshold) == x
    ensures k' != ReleaseThreshold ==> Get(Put(c, ReleaseThreshold, x), k') == Get(c, k')
    ensures Put(Put(c, ReleaseThreshold, x), ReleaseThreshold, y) == Put(c, ReleaseThreshold, y)
  {
  }

  lemma NameFactsMaxDeltaPx()
    ensures NameFacts(MaxDeltaPx)
  {
  }

  lemma FieldMaxDeltaPx(c: Calibration, x: Value, y: Value, k': Key)
    requires Fits(MaxDeltaPx, x) && Fits(MaxDeltaPx, y)
    ensures Get(Put(c, MaxDeltaPx, x), MaxDeltaPx) == x
    ensures k' != MaxDeltaPx ==> Get(Put(c, MaxDeltaPx, x), k') == Get(c, k')
    ensures Put(Put(c, MaxDeltaPx, x), MaxDeltaPx, y) == Put(c, MaxDeltaPx, y)
  {
  }

  lemma NameFactsTapMaxMs()
    ensures NameFacts(TapMaxMs)
  {
  }

  lemma FieldTapMaxMs(c: Calibration, x: Value, y: Value, k': Key)
    requires Fits(TapMaxMs, x) && Fits(TapMaxMs, y)
    ensures Get(Put(c, TapMaxMs, x), TapMaxMs) == x
    ensures k' != TapMaxMs ==> Get(Put(c, TapMaxMs, x), k') == Get(c, k')
    ensures Put(Put(c, TapMaxMs, x), TapMaxMs, y) == Put(c, TapMaxMs, y)
  {
  }

  lemma NameFactsTapMaxMovePx()
    ensures NameFacts(TapMaxMovePx)
  {
  }

  lemma FieldTapMaxMovePx(c: Calibration, x: Value, y: Value, k': Key)
    requires Fits(TapMaxMovePx, x) && Fits(TapMaxMovePx, y)
    ensures Get(Put(c, TapMaxMovePx, x), TapMaxMovePx) == x
    ensures k' != TapMaxMovePx ==> Get(Put(c, TapMaxMovePx, x), k') == Get(c, k')
    ensures Put(Put(c, TapMaxMovePx, x), TapMaxMovePx, y) == Put(c, TapMaxMovePx, y)
  {
  }

  lemma NameFactsDragStartPx()
    ensures NameFacts(DragStartPx)
  {
  }

  lemma FieldDragStartPx(c: Calibration, x: Value, y: Value, k': Key)
    requires Fits(DragStartPx, x) && Fits(DragStartPx, y)
    ensures Get(Put(c, DragStartPx, x), DragStartPx) == x
    ensures k' != DragStartPx ==> Get(Put(c, DragStartPx, x), k') == Get(c, k')
    ensures Put(Put(c, DragStartPx, x), DragStartPx, y) == Put(c, DragStartPx, y)
  {
  }
}

=== FILE: config_text.dfy ===
/** Text-level helpers of the `key=value` configuration format: trimming of
    spaces and tabs, and the C library number parsers the loaders call
    (`strtol` base 10 behind `parse_int` and `atoi`, `strtof` behind
    `parse_float`). */
module ConfigText {
  import opened Common

  predicate IsBlank(c: char) { c == ' ' || c == '\t' }

  /** `isspace` in the C locale, which `strtol`/`strtof` skip before a number. */
  predicate IsSpace(c: char) {
    c == ' ' || c == '\t' || c == '\n' || c == '\U{B}' || c == '\U{C}' || c == '\r'
  }

  predicate IsDigit(c: char) { '0' <= c <= '9' }

  predicate AllBlank(s: string) { forall i :: 0 <= i < |s| ==> IsBlank(s[i]) }

  /** `r` is `s` without its leading blanks. */
  predicate LeftTrimmed(s: string, r: string) {
    && |r| <= |s| && r == s[|s| - |r|..]
    && AllBlank(s[..|s| - |r|])
    && (r == [] || !IsBlank(r[0]))
  }

  /** `r` is `s` without its trailing blanks. */
  predicate RightTrimmed(s: string, r: string) {
    && |r| <= |s| && r == s[..|r|]
    && AllBlank(s[|r|..])
    && (r == [] || !IsBlank(r[|r| - 1]))
  }

  /** The `ltrim` lambda: drops the leading spaces and tabs. */
  function TrimLeft(s: string): (r: string)
    ensures LeftTrimmed(s, r)
  {
    if s != [] && IsBlank(s[0]) then
      var r := TrimLeft(s[1..]);
      LeftTrimmedCons(s, r);
      r
    else
      assert s[..0] == [];
      s
  }

  lemma LeftTrimmedCons(s: string, r: string)
    requires s != [] && IsBlank(s[0]) && LeftTrimmed(s[1..], r)
    ensures LeftTrimmed(s, r)
  {
    var k := |s| - |r|;
    assert s[1..][|s| - 1 - |r|..] == s[k..];
    forall i | 0 <= i < k
      ensures IsBlank(s[..k][i])
    {
      if i > 0 {
        assert s[..k][i] == s[1..][..k - 1][i - 1];
      }
    }
  }

  /** The `rtrim` lambda: drops the trailing spaces and tabs. */
  function TrimRight(s: string): (r: string)
    ensures RightTrimmed(s, r)
  {
    if s != [] && IsBlank(s[|s| - 1]) then
      var r := TrimRight(s[..|s| - 1]);
      RightTrimmedSnoc(s, r);
      r
    else
      assert s[|s|..] == [];
      s
  }

  lemma RightTrimmedSnoc(s: string, r: string)
    requires s != [] && IsBlank(s[|s| - 1]) && RightTrimmed(s[..|s| - 1], r)
    ensures RightTrimmed(s, r)
  {
    var k := |r|;
    assert s[..|s| - 1][..k] == s[..k];
    forall i | 0 <= i < |s| - k
      ensures IsBlank(s[k..][i])
    {
      if k + i < |s| - 1 {
        assert s[k..][i] == s[..|s| - 1][k..][i];
      }
    }
  }

  function Trim(s: string): string { TrimRight(TrimLeft(s)) }

  /** Trimming removes exactly the padding: a word with no blank at either end
      comes back unchanged from any amount of surrounding spaces and tabs. */
  lemma {:induction false} TrimPadding(p: string, w: string, q: string)
    requires AllBlank(p) && AllBlank(q)
    requires w == [] || (!IsBlank(w[0]) && !IsBlank(w[|w| - 1]))
    ensures Trim(p + w + q) == w
  {
    if w == [] {
      assert p + w + q == p + q + [];
      assert AllBlank(p + q);
      TrimLeftPadding(p + q, []);
      assert TrimRight([]) == [];
    } else {
      assert p + w + q == p + (w + q);
      TrimLeftPadding(p, w + q);
      TrimRightPadding(w, q);
    }
  }

  /** A word with no blank at either end is its own trim. */
  lemma TrimWord(w: string)
    requires w == [] || (!IsBlank(w[0]) && !IsBlank(w[|w| - 1]))
    ensures Trim(w) == w
  {
    TrimLeftPadding([], w);
    TrimRightPadding(w, []);
    assert [] + w == w;
    assert w + [] == w;
  }

  lemma {:induction false} TrimLeftPadding(p: string, s: string)
    requires AllBlank(p)
    requires s == [] || !IsBlank(s[0])
    ensures TrimLeft(p + s) == s
  {
    if p != [] {
      assert (p + s)[1..] == p[1..] + s;
      TrimLeftPadding(p[1..], s);
    }
  }

  lemma {:induction false} TrimRightPadding(s: string, q: string)
    requires AllBlank(q)
    requires s == [] || !IsBlank(s[|s| - 1])
    ensures TrimRight(s + q) == s
  {
    if q != [] {
      assert (s + q)[..|s + q| - 1] == s + q[..|q| - 1];
      TrimRightPadding(s, q[..|q| - 1]);
    } else {
      assert s + q == s;
    }
  }

  function DigitValue(c: char): int
    requires IsDigit(c)
  {
    c as int - '0' as int
  }

  /** Length of the longest all-digit prefix. */
  function DigitRun(s: string): (n: nat)
    ensures n <= |s|
    ensures forall i :: 0 <= i < n ==> IsDigit(s[i])
    ensures n < |s| ==> !IsDigit(s[n])
  {
    if s != [] && IsDigit(s[0]) then 1 + DigitRun(s[1..]) else 0
  }

  /** The value of a run of decimal digits, most significant first. */
  function DigitsValue(ds: string): (v: nat)
    requires forall i :: 0 <= i < |ds| ==> IsDigit(ds[i])
  {
    if ds == [] then 0 else 10 * DigitsValue(ds[..|ds| - 1]) + DigitValue(ds[|ds| - 1]) as nat
  }

  function SpaceRun(s: string): (n: nat)
    ensures n <= |s|
    ensures forall i :: 0 <= i < n ==> IsSpace(s[i])
    ensures n < |s| ==> !IsSpace(s[n])
  {
    if s != [] && IsSpace(s[0]) then 1 + SpaceRun(s[1..]) else 0
  }

  /** Sign and digits of a number after the leading white space: the sign as
      -1/+1, and where the digits start. */
  function SignAt(s: string): (r: (int, nat))
    ensures r.0 == 1 || r.0 == -1
    ensures r.1 <= |s|
  {
    if s != [] && s[0] == '-' then (-1, 1)
    else if s != [] && s[0] == '+' then (1, 1)
    else (1, 0)
  }

  const LongMin: int := -0x8000_0000_0000_0000
  const LongMax: int := 0x7FFF_FFFF_FFFF_FFFF

  /** `parse_int`: `strtol(s, &end, 10)` followed by `(int)v`. Leading white
      space and one sign are accepted, then the longest run of digits; with no
      digit `end == s` and the parse fails. An out-of-range value saturates to
      the 64-bit `long` range and the cast keeps its low 32 bits. */
  function ParseInt(s: string): (r: Option<int>)
    ensures r.Some? ==> InInt32(r.value)
  {
    var t := s[SpaceRun(s)..];
    var (sign, start) := SignAt(t);
    var n := DigitRun(t[start..]);
    if n == 0 then None
    else Some(ToInt32(Clamp(sign * DigitsValue(t[start..][..n]), LongMin, LongMax)))
  }

  /** `atoi`: like `parse_int`, but a string with no number reads as 0. */
  function Atoi(s: string): (v: int)
    ensures InInt32(v)
    ensures ParseInt(s).None? ==> v == 0
    ensures ParseInt(s).Some? ==> v == ParseInt(s).value
  {
    match ParseInt(s)
    case None => 0
    case Some(n) => n
  }

  /** Decimal rendering of a natural number, most significant digit first. */
  function ShowNat(n: nat): (s: string)
    ensures |s| >= 1
    ensures forall i :: 0 <= i < |s| ==> IsDigit(s[i])
  {
    if n < 10 then [('0' as int + n) as char]
    else ShowNat(n / 10) + [('0' as int + n % 10) as char]
  }

  /** Decimal rendering of an integer, with a leading `-` when negative. */
  function Show(n: int): string
  {
    if n < 0 then "-" + ShowNat(-n) else ShowNat(n)
  }

  lemma {:induction false} DigitsOfShowNat(n: nat)
    ensures DigitsValue(ShowNat(n)) == n
  {
    if n >= 10 {
      var s := ShowNat(n);
      assert s[..|s| - 1] == ShowNat(n / 10);
      DigitsOfShowNat(n / 10);
    }
  }

  lemma DigitRunAll(s: string)
    requires forall i :: 0 <= i < |s| ==> IsDigit(s[i])
    ensures DigitRun(s) == |s|
  {
  }

  /** `parse_int` reads back every 32-bit value it is shown. */
  lemma ParseShow(n: int)
    requires InInt32(n)
    ensures ParseInt(Show(n)) == Some(n)
  {
    var digits := ShowNat(Abs(n));
    var sign := if n < 0 then -1 else 1;
    ShowShape(n);
    ParseIntDigits(Show(n), sign, if n < 0 then 1 else 0, digits);
    DigitsOfShowNat(Abs(n));
    assert sign * DigitsValue(digits) == n;
    assert Clamp(n, LongMin, LongMax) == n;
  }

  /** The rendering of `n`: no leading space, a minus sign exactly when `n`
      is negative, then the digits of its magnitude. */
  lemma ShowShape(n: int)
    ensures Show(n) != [] && !IsSpace(Show(n)[0])
    ensures SignAt(Show(n)) == (if n < 0 then -1 else 1, if n < 0 then 1 else 0)
    ensures Show(n)[if n < 0 then 1 else 0..] == ShowNat(Abs(n))
  {
    var d := ShowNat(Abs(n));
    assert IsDigit(d[0]);
  }

  /** An unpadded, optionally signed run of digits. */
  lemma ParseIntDigits(t: string, sign: int, start: nat, ds: string)
    requires t != [] && !IsSpace(t[0])
    requires start <= |t| && SignAt(t) == (sign, start) && t[start..] == ds
    requires ds != [] && forall i :: 0 <= i < |ds| ==> IsDigit(ds[i])
    ensures ParseInt(t) == Some(ToInt32(Clamp(sign * DigitsValue(ds), LongMin, LongMax)))
  {
    assert SpaceRun(t) == 0;
    assert t[0..] == t;
    DigitRunAll(ds);
    assert ds[..|ds|] == ds;
  }

  /** A string with no digit in it does not parse. */
  lemma ParseRejectsNonNumbers(s: string)
    requires forall i :: 0 <= i < |s| ==> !IsDigit(s[i])
    ensures ParseInt(s).None?
  {
    var t := s[SpaceRun(s)..];
    var (sign, start) := SignAt(t);
    if DigitRun(t[start..]) > 0 {
      assert IsDigit(s[SpaceRun(s) + start]);
    }
  }

  /** Nor does `strtof` find a number in it. */
  lemma ParseFloatRejectsNonNumbers(s: string)
    requires forall i :: 0 <= i < |s| ==> !IsDigit(s[i])
    ensures ParseFloat(s).None?
  {
    var t := s[SpaceRun(s)..];
    var (sign, start) := SignAt(t);
    var u := t[start..];
    assert forall i :: 0 <= i < |u| ==> u[i] == s[SpaceRun(s) + start + i];
    UnsignedNeedsDigits(u);
  }

  lemma UnsignedNeedsDigits(u: string)
    requires forall i :: 0 <= i < |u| ==> !IsDigit(u[i])
    ensures Unsigned(u).None?
  {
    assert DigitRun(u) == 0;
    if 0 < |u| && u[0] == '.' {
      assert forall i :: 0 <= i < |u[1..]| ==> u[1..][i] == u[i + 1];
    }
  }

  /** Trimming only removes characters: a text without digits keeps none. */
  lemma TrimNoDigits(v: string)
    requires forall i :: 0 <= i < |v| ==> !IsDigit(v[i])
    ensures forall i :: 0 <= i < |Trim(v)| ==> !IsDigit(Trim(v)[i])
  {
    var l := TrimLeft(v);
    assert LeftTrimmed(v, l);
    NoDigitsSlice(v, |v| - |l|, |v|);
    assert v[|v| - |l|..|v|] == l;
    var t := TrimRight(l);
    assert RightTrimmed(l, t);
    NoDigitsSlice(l, 0, |t|);
    assert l[0..|t|] == t;
  }

  lemma NoDigitsSlice(v: string, a: nat, b: nat)
    requires a <= b <= |v| && forall i :: 0 <= i < |v| ==> !IsDigit(v[i])
    ensures forall i :: 0 <= i < b - a ==> !IsDigit(v[a..b][i])
  {
    forall i | 0 <= i < b - a
      ensures !IsDigit(v[a..b][i])
    {
      assert v[a..b][i] == v[a + i];
    }
  }

  /** `strtof` on the decimal forms: optional white space and sign, digits with
      an optional fraction (at least one digit in all), then an optional
      exponent that is only consumed when it has digits. The value is exact. */
  function ParseFloat(s: string): (r: Option<real>)
  {
    ParseSigned(s[SpaceRun(s)..])
  }

  /** The number after the leading white space: sign, unsigned part, exponent. */
  function ParseSigned(t: string): (r: Option<real>)
  {
    var (sign, start) := SignAt(t);
    match Unsigned(t[start..])
    case None => None
    case Some(ur) => Some(ScaleBy10(if sign < 0 then -ur.0 else ur.0, Exponent(ur.1)))
  }

  /** The unsigned decimal part of a number: digits, optionally a point and
      more digits, at least one digit in all. Yields the value and the text
      after it. */
  function Unsigned(u: string): Option<(real, string)>
  {
    var n := DigitRun(u);
    var hasPoint := n < |u| && u[n] == '.';
    var frac := if hasPoint then u[n + 1..] else [];
    var m := DigitRun(frac);
    if n + m == 0 then None
    else
      var fracPart := if m == 0 then 0.0 else FractionValue(frac[..m]);
      Some((DigitsValue(u[..n]) as real + fracPart, if hasPoint then frac[m..] else u[n..]))
  }

  /** The value of the digits after a decimal point: `0.d1d2...`. */
  function FractionValue(ds: string): (v: real)
    requires forall i :: 0 <= i < |ds| ==> IsDigit(ds[i])
    ensures 0.0 <= v <= 1.0
  {
    if ds == [] then 0.0 else (DigitValue(ds[0]) as real + FractionValue(ds[1..])) / 10.0
  }

  /** The power of ten an exponent suffix `e[sign]digits` contributes; 0 when
      the suffix is absent or has no digits. */
  function Exponent(rest: string): int
  {
    if rest != [] && (rest[0] == 'e' || rest[0] == 'E') then
      var (esign, estart) := SignAt(rest[1..]);
      var e := DigitRun(rest[1..][estart..]);
      if e == 0 then 0
      else
        var k: int := DigitsValue(rest[1..][estart..][..e]);
        if esign < 0 then -k else k
    else 0
  }

  /** `x * 10^e`, one factor of ten at a time. */
  function ScaleBy10(x: real, e: int): real
    decreases if e >= 0 then e else -e
  {
    if e == 0 then x else if e > 0 then ScaleBy10(x * 10.0, e - 1) else ScaleBy10(x / 10.0, e + 1)
  }

  /** A plain run of digits reads as its value, with nothing left over. */
  lemma UnsignedDigits(ds: string)
    requires ds != [] && forall i :: 0 <= i < |ds| ==> IsDigit(ds[i])
    ensures Unsigned(ds) == Some((DigitsValue(ds) as real, []))
  {
    DigitRunAll(ds);
    var n := DigitRun(ds);
    assert n == |ds|;
    assert ds[..n] == ds;
    assert ds[n..] == [];
    assert DigitRun([]) == 0;
  }

  /** `parse_float` reads an optional minus sign followed by decimal digits
      (the way an integer is written) as exactly that integer. */
  lemma ParseFloatDigits(sg: string, ds: string)
    requires sg == "" || sg == "-"
    requires ds != [] && forall i :: 0 <= i < |ds| ==> IsDigit(ds[i])
    ensures ParseFloat(sg + ds) == Some(if sg == "-" then -(DigitsValue(ds) as real) else DigitsValue(ds) as real)
  {
    SignThenDigits(sg, ds);
    NoLeadingSpace(sg + ds);
    ParseSignedDigits(sg + ds, if sg == "-" then -1 else 1, |sg|, ds);
  }

  lemma SignThenDigits(sg: string, ds: string)
    requires sg == "" || sg == "-"
    requires ds != [] && forall i :: 0 <= i < |ds| ==> IsDigit(ds[i])
    ensures (sg + ds) != [] && !IsSpace((sg + ds)[0])
    ensures SignAt(sg + ds) == (if sg == "-" then -1 else 1, |sg|)
    ensures (sg + ds)[|sg|..] == ds
  {
  }

  lemma NoLeadingSpace(s: string)
    requires s != [] && !IsSpace(s[0])
    ensures ParseFloat(s) == ParseSigned(s)
  {
    assert s[0..] == s;
  }

  /** A sign followed by a plain run of digits. */
  lemma ParseSignedDigits(t: string, sign: int, start: nat, ds: string)
    requires start <= |t| && SignAt(t) == (sign, start) && t[start..] == ds
    requires ds != [] && forall i :: 0 <= i < |ds| ==> IsDigit(ds[i])
    ensures ParseSigned(t) == Some(if sign < 0 then -(DigitsValue(ds) as real) else DigitsValue(ds) as real)
  {
    UnsignedDigits(ds);
    NoExponent();
  }

  /** `strtof` also reads hexadecimal text (`0x10` is 16); this parser does
      not, and reads such text as its leading `0`. */
  lemma HexReadsLeadingZero(h: string)
    ensures ParseFloat("0x" + h) == Some(0.0) && ParseFloat("0X" + h) == Some(0.0)
  {
    HexPrefix('x', h);
    HexPrefix('X', h);
  }

  lemma HexPrefix(c: char, h: string)
    requires c == 'x' || c == 'X'
    ensures ParseFloat(['0', c] + h) == Some(0.0)
  {
    var s := ['0', c] + h;
    NoLeadingSpace(s);
    assert SignAt(s) == (1, 0) && s[0..] == s;
    UnsignedZeroThen(s);
    assert Exponent(s[1..]) == 0;
    NoExponent();
  }

  /** A lone `0` followed by something that is neither a digit nor a point. */
  lemma UnsignedZeroThen(s: string)
    requires 2 <= |s| && s[0] == '0' && !IsDigit(s[1]) && s[1] != '.'
    ensures Unsigned(s) == Some((0.0, s[1..]))
  {
    assert DigitRun(s[1..]) == 0;
    assert DigitRun(s) == 1;
    assert s[..1] == "0";
    assert DigitsValue("0") == 0 by {
      assert "0"[..0] == [];
    }
  }

  lemma NoExponent()
    ensures Exponent([]) == 0
    ensures forall x :: ScaleBy10(x, 0) == x
  {
  }

}

=== FILE: daemon.dfy ===
/** One iteration of the input daemon's loop: read, decide whether a finger is
    on the panel with a two-sample debounce, filter while it is, and report
    the contact to the kernel as a single-slot multi-touch device. Also the
    idle-time configuration reload. The kernel's event stream is modelled as
    the sequence of events written. */
module Daemon {
  import opened Common
  import opened Params
  import opened ConfigFile
  import opened Mapper
  import opened NoiseFilter
  import SpiSample

  /** Poll period while a finger is down or pressure suggests one. */
  const ActivePollUs: int := 5000

  /** A press or a release is accepted on the second consecutive sample that
      asks for it. */
  const DebounceSamples: int := 2

  /** The events of lines 657-685, as written to the virtual device. */
  datatype Event =
    | Slot(slot: int)
    | TrackingId(id: int)
    | PositionX(x: int)
    | PositionY(y: int)
    | MtPressure(p: int)
    | AbsX(x: int)
    | AbsY(y: int)
    | BtnTouch(v: int)
    | ToolFinger(v: int)
    | Sync

  /** Everything the loop carries between iterations. `lastDown` is whether the
      device was last told that a finger is down; `trackingId` is the id the
      next contact gets. */
  datatype DaemonState = DaemonState(
    down: bool,
    pressStreak: int,
    releaseStreak: int,
    candX: int,
    candY: int,
    haveCandidate: bool,
    filter: FilterState,
    lastDown: bool,
    trackingId: int)

  const Start := DaemonState(false, 0, 0, 0, 0, false, NoiseFilter.Initial, false, 1)

  /** Whether the pressure alone suggests a touch: at the press threshold when
      one is set, any pressure otherwise. */
  predicate PressureTouch(a: AdvancedParams, p: int) {
    if a.pressThreshold > 0 then p >= a.pressThreshold else p > 0
  }

  /** Whether the pressure asks for a release: at or below the release
      threshold when a press threshold is set, no pressure otherwise. */
  predicate Releases(a: AdvancedParams, p: int) {
    if a.pressThreshold > 0 then p <= a.releaseThreshold else p <= 0
  }

  /** The reset while idle with no pressure (lines 487-497). */
  function Idle(st: DaemonState): (r: DaemonState)
    ensures r.pressStreak == 0 && r.releaseStreak == 0 && !r.haveCandidate
    ensures r.filter.histX == [] && r.filter.histY == [] && !r.filter.haveFiltered
    ensures r.down == st.down && r.lastDown == st.lastDown && r.trackingId == st.trackingId
  {
    st.(pressStreak := 0, releaseStreak := 0, filter := Reset(st.filter), haveCandidate := false)
  }

  /** The filter reset of a press, snapping the filtered position to the
      candidate sample when there is one. */
  function Snap(st: DaemonState): (f: FilterState)
    ensures f.histX == [] && f.histY == []
    ensures f.haveFiltered == st.haveCandidate
    ensures st.haveCandidate ==> f.filtX == st.candX && f.filtY == st.candY
  {
    var f := Reset(st.filter);
    if st.haveCandidate then f.(filtX := st.candX, filtY := st.candY, haveFiltered := true) else f
  }

  /** Hysteresis with debounce (lines 534-606): a change of state needs two
      consecutive samples asking for it. */
  function Debounce(st: DaemonState, a: AdvancedParams, p: int): (r: DaemonState)
    ensures r.lastDown == st.lastDown && r.trackingId == st.trackingId
    ensures r.candX == st.candX && r.candY == st.candY
    ensures !st.down ==> (r.down <==> PressureTouch(a, p) && st.pressStreak + 1 >= DebounceSamples)
    ensures st.down ==> (!r.down <==> Releases(a, p) && st.releaseStreak + 1 >= DebounceSamples)
    ensures !st.down && r.down ==> r.filter == Snap(st) && r.releaseStreak == 0
    ensures st.down && !r.down ==> r.filter == Reset(st.filter) && !r.haveCandidate && r.releaseStreak == 0
    ensures st.down == r.down ==> r.filter == st.filter && r.haveCandidate == st.haveCandidate
  {
    if !st.down then
      if PressureTouch(a, p) then
        var n := st.pressStreak + 1;
        if n >= DebounceSamples then
          st.(pressStreak := n, down := true, filter := Snap(st), releaseStreak := 0)
        else st.(pressStreak := n)
      else st.(pressStreak := 0)
    else
      var s := st.(pressStreak := 0);
      if Releases(a, p) then
        var n := st.releaseStreak + 1;
        if n >= DebounceSamples then
          s.(down := false, filter := Reset(st.filter), haveCandidate := false, releaseStreak := 0)
        else s.(releaseStreak := n)
      else s.(releaseStreak := 0)
  }

  /** The state update of one iteration, before anything is reported: a
      failed X or Y read changes nothing; idle with no pressure resets; else
      the mapped sample becomes the candidate, the debounce runs, and the
      filter runs while down. */
  function Update(st: DaemonState, a: AdvancedParams, ok: bool, p: int, sx: int, sy: int): (r: DaemonState)
    ensures !ok ==> r == st
    ensures r.lastDown == st.lastDown && r.trackingId == st.trackingId
  {
    if !ok then st
    else if !st.down && !PressureTouch(a, p) then Idle(st)
    else
      var s := Debounce(st.(candX := sx, candY := sy, haveCandidate := true), a, p);
      if s.down then s.(filter := Step(s.filter, sx, sy, a)) else s
  }

  /** Lines 657-685: while down, position and pressure on slot 0, with a new
      tracking id and the touch keys when the contact is new; when up after
      having been down, the end of the contact. */
  function Emit(st: DaemonState, p: int): (r: (DaemonState, seq<Event>))
    ensures r.0.lastDown == st.down
    ensures r.0.down == st.down && r.0.filter == st.filter
    ensures st.down && !st.lastDown ==>
      (BtnTouch(1) in r.1 && TrackingId(st.trackingId) in r.1 && r.0.trackingId == st.trackingId + 1)
    ensures !(st.down && !st.lastDown) ==> r.0.trackingId == st.trackingId && BtnTouch(1) !in r.1
    ensures BtnTouch(0) in r.1 <==> !st.down && st.lastDown
    ensures st.down ==> PositionX(st.filter.filtX) in r.1 && PositionY(st.filter.filtY) in r.1
    ensures st.down == st.lastDown && !st.down ==> r.1 == []
  {
    var x := st.filter.filtX;
    var y := st.filter.filtY;
    if st.down then
      var begin := !st.lastDown;
      (st.(lastDown := true, trackingId := if begin then st.trackingId + 1 else st.trackingId),
       Report(begin, st.trackingId, x, y, p))
    else if st.lastDown then
      (st.(lastDown := false), Lift())
    else (st, [])
  }

  /** The block sent while down: slot 0, a tracking id and the touch keys
      only when the contact is new, and the position and pressure. */
  function Report(begin: bool, id: int, x: int, y: int, p: int): seq<Event>
  {
    [Slot(0)] + (if begin then [TrackingId(id)] else [])
      + [PositionX(x), PositionY(y), MtPressure(p), AbsX(x), AbsY(y)]
      + (if begin then [BtnTouch(1), ToolFinger(1)] else []) + [Sync]
  }

  /** The block that ends the contact on slot 0. */
  function Lift(): seq<Event>
  {
    [Slot(0), TrackingId(-1), BtnTouch(0), ToolFinger(0), Sync]
  }

  datatype TickResult = TickResult(state: DaemonState, sleepUs: int, out: Option<(int, int)>, events: seq<Event>)

  function SleepUs(st: DaemonState, a: AdvancedParams, p: int): (us: int)
    ensures st.down || PressureTouch(a, p) ==> us == ActivePollUs
    ensures !st.down && !PressureTouch(a, p) ==> us == a.pollUs
  {
    if st.down || PressureTouch(a, p) then ActivePollUs else a.pollUs
  }

  /** The loop body exactly as written: the report is reached only while down,
      because an up state leaves the iteration early (lines 609-612). */
  function TickAsWritten(st: DaemonState, a: AdvancedParams, ok: bool, p: int, sx: int, sy: int): (r: TickResult)
    ensures BtnTouch(0) !in r.events
  {
    var s := Update(st, a, ok, p, sx, sy);
    var sleep := SleepUs(st, a, p);
    if ok && s.down then
      var (s', evs) := Emit(s, p);
      TickResult(s', sleep, Some((s.filter.filtX, s.filter.filtY)), evs)
    else TickResult(s, sleep, None, [])
  }

  /** The loop body with the report reached on every successful read, so
      that a release is reported too. */
  function Advance(st: DaemonState, a: AdvancedParams, ok: bool, p: int, sx: int, sy: int): (r: TickResult)
    ensures !ok ==> r.state == st && r.events == [] && r.out.None?
    ensures r.out.Some? <==> ok && r.state.down
    ensures r.sleepUs == (if st.down || PressureTouch(a, p) then ActivePollUs else a.pollUs)
    ensures ok ==> r.state.lastDown == r.state.down
  {
    var s := Update(st, a, ok, p, sx, sy);
    var sleep := SleepUs(st, a, p);
    if !ok then TickResult(s, sleep, None, [])
    else
      var (s', evs) := Emit(s, p);
      TickResult(s', sleep, if s.down then Some((s.filter.filtX, s.filter.filtY)) else None, evs)
  }

  /** The poll period follows the finger: every iteration that ends with
      the finger down, and every one whose pressure already suggests a touch
      before the debounce, waits only the short active period; an iteration
      that waits the configured period leaves the finger up. */
  lemma FastPollWhileDown(st: DaemonState, a: AdvancedParams, ok: bool, p: int, sx: int, sy: int)
    ensures var r := Advance(st, a, ok, p, sx, sy);
      && (r.state.down ==> r.sleepUs == ActivePollUs)
      && (PressureTouch(a, p) ==> r.sleepUs == ActivePollUs)
      && (a.pollUs != ActivePollUs && r.sleepUs == a.pollUs ==> !r.state.down)
  {
  }

  /** One iteration on the readings of the X, Y and Z1 channels (-1 for a
      failed read), mapped through the calibration. */
  function Tick(st: DaemonState, c: Calibration, rawX: int, rawY: int, z1: int): (r: TickResult)
    ensures rawX < 0 || rawY < 0 ==> r.state == st && r.events == [] && r.out.None?
  {
    var s := MapDaemon(rawX, rawY, c);
    Advance(st, c.adv, rawX >= 0 && rawY >= 0, SpiSample.Pressure(z1), s.0, s.1)
  }

  /** What holds between iterations: up means the filter is reset and no
      release is pending; down means there is a filtered position; the
      streaks count at most one pending sample. */
  predicate Inv(st: DaemonState, a: AdvancedParams) {
    && (!st.down ==> st.filter.histX == [] && st.filter.histY == [] && !st.filter.haveFiltered)
    && (!st.down ==> 0 <= st.pressStreak <= 1 && st.releaseStreak == 0)
    && (st.down ==> st.filter.haveFiltered && 0 <= st.releaseStreak <= 1)
    && |st.filter.histX| == |st.filter.histY| <= HistCap(a.medianWindow)
  }

  lemma StartInv(a: AdvancedParams)
    ensures Inv(Start, a)
  {
  }

  lemma UpdateInv(st: DaemonState, a: AdvancedParams, ok: bool, p: int, sx: int, sy: int)
    requires Inv(st, a)
    ensures Inv(Update(st, a, ok, p, sx, sy), a)
  {
    if ok && (st.down || PressureTouch(a, p)) {
      var s := Debounce(st.(candX := sx, candY := sy, haveCandidate := true), a, p);
      if s.down {
        StepInv(s.filter, sx, sy, a);
      }
    }
  }

  /** Every iteration keeps the invariant. */
  lemma AdvanceInv(st: DaemonState, a: AdvancedParams, ok: bool, p: int, sx: int, sy: int)
    requires Inv(st, a)
    ensures Inv(Advance(st, a, ok, p, sx, sy).state, a)
  {
    UpdateInv(st, a, ok, p, sx, sy);
  }

  /** A press is accepted exactly on the second consecutive sample with touch
      pressure: a single spike never presses. */
  lemma PressNeedsTwoSamples(st: DaemonState, a: AdvancedParams, ok: bool, p: int, sx: int, sy: int)
    requires Inv(st, a) && !st.down
    ensures Advance(st, a, ok, p, sx, sy).state.down <==> ok && PressureTouch(a, p) && st.pressStreak == 1
    ensures ok ==> (Advance(st, a, ok, p, sx, sy).state.pressStreak ==
                      (if PressureTouch(a, p) then st.pressStreak + 1 else 0))
  {
  }

  /** A release is accepted exactly on the second consecutive sample asking
      for it; a pressure between the thresholds keeps the finger down. */
  lemma ReleaseNeedsTwoSamples(st: DaemonState, a: AdvancedParams, ok: bool, p: int, sx: int, sy: int)
    requires Inv(st, a) && st.down
    ensures !Advance(st, a, ok, p, sx, sy).state.down <==> ok && Releases(a, p) && st.releaseStreak == 1
    ensures ok && !Releases(a, p) ==> Advance(st, a, ok, p, sx, sy).state.releaseStreak == 0
  {
    if ok {
      var s := Debounce(st.(candX := sx, candY := sy, haveCandidate := true), a, p);
      assert Update(st, a, ok, p, sx, sy).down == s.down;
    }
  }

  /** The first position reported for a contact is the sample that completed
      the press, unfiltered. */
  lemma PressSnapsToFinger(st: DaemonState, a: AdvancedParams, ok: bool, p: int, sx: int, sy: int)
    requires Inv(st, a) && !st.down && Advance(st, a, ok, p, sx, sy).state.down
    ensures Advance(st, a, ok, p, sx, sy).out == Some((sx, sy))
  {
    var c := st.(candX := sx, candY := sy, haveCandidate := true);
    var s := Debounce(c, a, p);
    assert s.filter == Snap(c);
    StepSeeded(s.filter, sx, sy, a);
  }

  /** Idle with no pressure: nothing reported, streaks and filter reset. */
  lemma IdleResets(st: DaemonState, a: AdvancedParams, p: int, sx: int, sy: int)
    requires !st.down && !PressureTouch(a, p)
    ensures var r := Advance(st, a, true, p, sx, sy);
      && r.out.None? && !r.state.down
      && r.state.pressStreak == 0 && r.state.releaseStreak == 0 && !r.state.haveCandidate
      && r.state.filter.histX == [] && r.state.filter.histY == [] && !r.state.filter.haveFiltered
  {
  }

  /** Fed samples inside a box, everything the daemon reports stays in it. */
  lemma AdvanceWithinBox(st: DaemonState, a: AdvancedParams, ok: bool, p: int, sx: int, sy: int, lx: int, hx: int, ly: int, hy: int)
    requires WithinBox(st.filter, lx, hx, ly, hy)
    requires lx <= sx <= hx && ly <= sy <= hy
    requires 0.0 <= a.iirAlpha <= 1.0
    ensures WithinBox(Advance(st, a, ok, p, sx, sy).state.filter, lx, hx, ly, hy)
    ensures var o := Advance(st, a, ok, p, sx, sy).out; o.Some? ==> lx <= o.value.0 <= hx && ly <= o.value.1 <= hy
  {
    if ok && (st.down || PressureTouch(a, p)) {
      var c := st.(candX := sx, candY := sy, haveCandidate := true);
      var s := Debounce(c, a, p);
      assert WithinBox(s.filter, lx, hx, ly, hy);
      if s.down {
        StepWithinBox(s.filter, sx, sy, a, lx, hx, ly, hy);
      }
    }
  }

  /** The filter state lies inside the deadzone-trimmed screen. */
  predicate InTrimmedScreen(f: FilterState, a: AdvancedParams) {
    var xb := DeadzoneBounds(a.deadzoneLeft, a.deadzoneRight, a.screenW);
    var yb := DeadzoneBounds(a.deadzoneTop, a.deadzoneBottom, a.screenH);
    WithinBox(f, xb.0, xb.1, yb.0, yb.1)
  }

  /** With sanitised parameters, every position the daemon reports lies inside
      the deadzone-trimmed screen, and the filter stays there. */
  lemma TickWithinScreen(st: DaemonState, c: Calibration, rawX: int, rawY: int, z1: int)
    requires Sanitized(c.adv)
    requires InTrimmedScreen(st.filter, c.adv)
    ensures InTrimmedScreen(Tick(st, c, rawX, rawY, z1).state.filter, c.adv)
    ensures var o := Tick(st, c, rawX, rawY, z1).out;
      o.Some? ==> InDeadzoneX(o.value.0, c.adv) && InDeadzoneY(o.value.1, c.adv)
  {
    var a := c.adv;
    var s := MapDaemon(rawX, rawY, c);
    var xb := DeadzoneBounds(a.deadzoneLeft, a.deadzoneRight, a.screenW);
    var yb := DeadzoneBounds(a.deadzoneTop, a.deadzoneBottom, a.screenH);
    AdvanceWithinBox(st, a, rawX >= 0 && rawY >= 0, SpiSample.Pressure(z1), s.0, s.1, xb.0, xb.1, yb.0, yb.1);
  }

  /** What the events say about the contact: starting from whether a finger
      was reported down, each touch key must change that state; the result is
      the state they leave, or None if a key repeats the state it is in. */
  function Contacts(evs: seq<Event>, open: bool): Option<bool>
    decreases |evs|
  {
    if evs == [] then Some(open)
    else match evs[0]
      case BtnTouch(v) =>
        if (v == 1 && !open) || (v == 0 && open) then Contacts(evs[1..], v == 1) else None
      case _ => Contacts(evs[1..], open)
  }

  lemma {:induction false} ContactsAppend(e1: seq<Event>, e2: seq<Event>, open: bool)
    ensures Contacts(e1 + e2, open) ==
      (match Contacts(e1, open) case None => None case Some(o) => Contacts(e2, o))
    decreases |e1|
  {
    if e1 == [] {
      assert e1 + e2 == e2;
    } else {
      assert (e1 + e2)[0] == e1[0];
      assert (e1 + e2)[1..] == e1[1..] + e2;
      match e1[0]
      case BtnTouch(v) => ContactsAppend(e1[1..], e2, v == 1);
      case _ => ContactsAppend(e1[1..], e2, open);
    }
  }

  lemma ContactsQuiet(evs: seq<Event>, open: bool)
    requires forall i :: 0 <= i < |evs| ==> !evs[i].BtnTouch?
    ensures Contacts(evs, open) == Some(open)
    decreases |evs|
  {
    if evs != [] {
      ContactsQuiet(evs[1..], open);
    }
  }

  /** The report block announces exactly the change of the debounced state. */
  lemma EmitContacts(st: DaemonState, p: int)
    ensures Contacts(Emit(st, p).1, st.lastDown) == Some(st.down)
  {
    if st.down && !st.lastDown {
      PressEmitContacts(st, p);
    } else if st.down {
      HoldEmitContacts(st, p);
    } else if st.lastDown {
      ReleaseEmitContacts(st, p);
    }
  }

  lemma PressEmitContacts(st: DaemonState, p: int)
    requires st.down && !st.lastDown
    ensures Contacts(Emit(st, p).1, false) == Some(true)
  {
    PressReportContacts(st.trackingId, st.filter.filtX, st.filter.filtY, p);
  }

  lemma PressReportContacts(id: int, x: int, y: int, p: int)
    ensures Contacts(Report(true, id, x, y, p), false) == Some(true)
  {
    var head := [Slot(0)] + [TrackingId(id)] + [PositionX(x), PositionY(y), MtPressure(p), AbsX(x), AbsY(y)];
    assert Report(true, id, x, y, p) == head + [BtnTouch(1), ToolFinger(1), Sync];
    assert head == [Slot(0), TrackingId(id), PositionX(x), PositionY(y), MtPressure(p), AbsX(x), AbsY(y)];
    PressContacts(head);
  }

  lemma HoldEmitContacts(st: DaemonState, p: int)
    requires st.down && st.lastDown
    ensures Contacts(Emit(st, p).1, true) == Some(true)
  {
    var x := st.filter.filtX;
    var y := st.filter.filtY;
    var evs := [Slot(0), PositionX(x), PositionY(y), MtPressure(p), AbsX(x), AbsY(y), Sync];
    assert Report(false, st.trackingId, x, y, p) == evs;
    ContactsQuiet(evs, true);
  }

  lemma ReleaseEmitContacts(st: DaemonState, p: int)
    requires !st.down && st.lastDown
    ensures Contacts(Emit(st, p).1, true) == Some(false)
  {
    assert Lift()[1..][1..][1..] == [ToolFinger(0), Sync];
    ContactsQuiet([ToolFinger(0), Sync], false);
  }

  lemma PressContacts(head: seq<Event>)
    requires forall i :: 0 <= i < |head| ==> !head[i].BtnTouch?
    ensures Contacts(head + [BtnTouch(1), ToolFinger(1), Sync], false) == Some(true)
  {
    ContactsQuiet(head, false);
    ContactsAppend(head, [BtnTouch(1), ToolFinger(1), Sync], false);
    PressTail();
  }

  lemma PressTail()
    ensures Contacts([BtnTouch(1), ToolFinger(1), Sync], false) == Some(true)
  {
    assert [BtnTouch(1), ToolFinger(1), Sync][1..] == [ToolFinger(1), Sync];
    ContactsQuiet([ToolFinger(1), Sync], true);
  }

  /** Each successful iteration tells the device the debounced state, so what
      the device believes and what the daemon decided never drift apart. */
  lemma AdvanceContacts(st: DaemonState, a: AdvancedParams, ok: bool, p: int, sx: int, sy: int)
    requires st.lastDown == st.down
    ensures var r := Advance(st, a, ok, p, sx, sy);
      Contacts(r.events, st.lastDown) == Some(r.state.down) && r.state.lastDown == r.state.down
  {
    if ok {
      EmitContacts(Update(st, a, ok, p, sx, sy), p);
    }
  }

  /** One iteration's inputs: whether the X and Y reads succeeded, the
      pressure, and the mapped sample. */
  datatype Sample = Sample(ok: bool, p: int, sx: int, sy: int)

  function Run(st: DaemonState, a: AdvancedParams, ins: seq<Sample>): (r: (DaemonState, seq<Event>))
    decreases |ins|
  {
    if ins == [] then (st, [])
    else
      var t := Advance(st, a, ins[0].ok, ins[0].p, ins[0].sx, ins[0].sy);
      var rest := Run(t.state, a, ins[1..]);
      (rest.0, t.events + rest.1)
  }

  /** Over any run, the touch keys alternate press/release and leave the
      device in the daemon's debounced state. */
  lemma {:induction false} RunReportsContact(st: DaemonState, a: AdvancedParams, ins: seq<Sample>)
    requires st.lastDown == st.down
    ensures Contacts(Run(st, a, ins).1, st.lastDown) == Some(Run(st, a, ins).0.down)
    ensures Run(st, a, ins).0.lastDown == Run(st, a, ins).0.down
    decreases |ins|
  {
    if ins != [] {
      var t := Advance(st, a, ins[0].ok, ins[0].p, ins[0].sx, ins[0].sy);
      AdvanceContacts(st, a, ins[0].ok, ins[0].p, ins[0].sx, ins[0].sy);
      RunReportsContact(t.state, a, ins[1..]);
      ContactsAppend(t.events, Run(t.state, a, ins[1..]).1, st.lastDown);
    }
  }

  /** As written, a contact's release is silent: the daemon goes up but the
      device is still told a finger is down. */
  lemma ReleaseIsSilentAsWritten(st: DaemonState, a: AdvancedParams, p: int, sx: int, sy: int)
    requires Inv(st, a) && st.down && st.lastDown && st.releaseStreak == 1 && Releases(a, p)
    ensures var r := TickAsWritten(st, a, true, p, sx, sy);
      !r.state.down && r.state.lastDown && r.events == []
    ensures BtnTouch(0) in Advance(st, a, true, p, sx, sy).events
  {
  }

  /** As written, a later contact is never announced: with the device
      believing a finger is down, no iteration sends a new tracking id or a
      touch key. */
  lemma NextContactUnannouncedAsWritten(st: DaemonState, a: AdvancedParams, ok: bool, p: int, sx: int, sy: int)
    requires st.lastDown
    ensures var r := TickAsWritten(st, a, ok, p, sx, sy);
      r.state.lastDown && r.state.trackingId == st.trackingId
      && BtnTouch(1) !in r.events && BtnTouch(0) !in r.events
  {
  }

  /** Two states that agree on everything except what the device has been
      told (`lastDown` and the next tracking id). */
  predicate SameCore(s: DaemonState, t: DaemonState) {
    s.(lastDown := t.lastDown, trackingId := t.trackingId) == t
  }

  /** The written loop and the corrected one differ only in what the device
      is told. From states that agree apart from that, one iteration of each
      reports the same position, waits the same time, and again ends in such
      states. The debounce, snapping, filter and poll-period lemmas about
      `Advance` therefore hold for the loop as written too. */
  lemma AsWrittenSharesCore(st: DaemonState, st': DaemonState, a: AdvancedParams, ok: bool, p: int, sx: int, sy: int)
    requires SameCore(st, st')
    ensures var r := Advance(st, a, ok, p, sx, sy);
      var w := TickAsWritten(st', a, ok, p, sx, sy);
      && w.out == r.out && w.sleepUs == r.sleepUs && SameCore(r.state, w.state)
  {
    var s := Update(st, a, ok, p, sx, sy);
    UpdateSharesCore(st, st', a, ok, p, sx, sy);
    EmitSharesCore(s, p);
    if ok && s.down {
      SameCoreTrans(s, Emit(s, p).0, Emit(Update(st', a, ok, p, sx, sy), p).0);
    }
  }

  /** The state update never looks at what the device has been told. */
  lemma UpdateSharesCore(st: DaemonState, st': DaemonState, a: AdvancedParams, ok: bool, p: int, sx: int, sy: int)
    requires SameCore(st, st')
    ensures SameCore(Update(st, a, ok, p, sx, sy), Update(st', a, ok, p, sx, sy))
  {
    if ok && !(!st.down && !PressureTouch(a, p)) {
      var c := st.(candX := sx, candY := sy, haveCandidate := true);
      var c' := st'.(candX := sx, candY := sy, haveCandidate := true);
      assert SameCore(c, c');
      DebounceSharesCore(c, c', a, p);
    }
  }

  lemma DebounceSharesCore(st: DaemonState, st': DaemonState, a: AdvancedParams, p: int)
    requires SameCore(st, st')
    ensures SameCore(Debounce(st, a, p), Debounce(st', a, p))
  {
    assert Snap(st) == Snap(st');
  }

  /** Reporting changes only what the device has been told. */
  lemma EmitSharesCore(s: DaemonState, p: int)
    ensures SameCore(s, Emit(s, p).0)
  {
  }

  lemma SameCoreTrans(s: DaemonState, t: DaemonState, u: DaemonState)
    requires SameCore(s, t) && SameCore(s, u)
    ensures SameCore(t, u)
  {
  }

  function RunAsWritten(st: DaemonState, a: AdvancedParams, ins: seq<Sample>): (r: (DaemonState, seq<Event>))
    decreases |ins|
  {
    if ins == [] then (st, [])
    else
      var t := TickAsWritten(st, a, ins[0].ok, ins[0].p, ins[0].sx, ins[0].sy);
      var rest := RunAsWritten(t.state, a, ins[1..]);
      (rest.0, t.events + rest.1)
  }

  /** Over any run the written loop passes through the corrected loop's
      states, apart from the device's view. */
  lemma {:induction false} RunAsWrittenSharesCore(st: DaemonState, st': DaemonState, a: AdvancedParams, ins: seq<Sample>)
    requires SameCore(st, st')
    ensures SameCore(Run(st, a, ins).0, RunAsWritten(st', a, ins).0)
    decreases |ins|
  {
    if ins != [] {
      var i := ins[0];
      AsWrittenSharesCore(st, st', a, i.ok, i.p, i.sx, i.sy);
      RunAsWrittenSharesCore(Advance(st, a, i.ok, i.p, i.sx, i.sy).state,
        TickAsWritten(st', a, i.ok, i.p, i.sx, i.sy).state, a, ins[1..]);
    }
  }

  /** As written, over any run, no release is ever sent and once the device
      has been told of a contact it is never told of another. */
  lemma {:induction false} AsWrittenNeverLifts(st: DaemonState, a: AdvancedParams, ins: seq<Sample>)
    ensures BtnTouch(0) !in RunAsWritten(st, a, ins).1
    ensures st.lastDown ==> BtnTouch(1) !in RunAsWritten(st, a, ins).1 && RunAsWritten(st, a, ins).0.lastDown
    decreases |ins|
  {
    if ins != [] {
      var t := TickAsWritten(st, a, ins[0].ok, ins[0].p, ins[0].sx, ins[0].sy);
      AsWrittenNeverLifts(t.state, a, ins[1..]);
      if st.lastDown {
        NextContactUnannouncedAsWritten(st, a, ins[0].ok, ins[0].p, ins[0].sx, ins[0].sy);
      }
    }
  }

  /** A (re)load: the configuration file read from scratch over the
      defaults, then sanitised. */
  function Configure(lines: seq<string>): (c: Calibration)
    ensures Sanitized(c.adv)
    ensures c.(adv := Defaults) == Load(lines, DaemonDialect).(adv := Defaults)
    ensures Sanitized(Load(lines, DaemonDialect).adv) ==> c == Load(lines, DaemonDialect)
  {
    var c := Load(lines, DaemonDialect);
    c.(adv := Sanitize(c.adv))
  }

  /** An empty or missing file yields the built-in defaults. */
  lemma ConfigureEmpty()
    ensures Configure([]) == DefaultCalibration
  {
    DefaultsSanitized();
  }

  /** The reload check (lines 424-470): when it is due, the finger is up, and
      the file changed (another path, or a new modification time), the
      configuration is reloaded and the debounce and filter start over. */
  function Reload(cal: Calibration, st: DaemonState, due: bool, changed: bool, lines: seq<string>): (r: (Calibration, DaemonState))
    ensures !(due && changed && !st.down) ==> r == (cal, st)
    ensures due && changed && !st.down ==> r.0 == Configure(lines)
    ensures due && changed && !st.down ==>
      && r.1.pressStreak == 0 && r.1.releaseStreak == 0 && !r.1.haveCandidate
      && r.1.filter.histX == [] && r.1.filter.histY == [] && !r.1.filter.haveFiltered
    ensures r.1.down == st.down && r.1.lastDown == st.lastDown && r.1.trackingId == st.trackingId
  {
    if due && !st.down && changed then
      (Configure(lines), st.(pressStreak := 0, releaseStreak := 0, filter := Reset(st.filter), haveCandidate := false))
    else (cal, st)
  }

  /** A reload never happens mid-contact, so the invariant carries over to the
      new configuration even when its median window differs. */
  lemma ReloadInv(cal: Calibration, st: DaemonState, due: bool, changed: bool, lines: seq<string>)
    requires Inv(st, cal.adv)
    ensures var r := Reload(cal, st, due, changed, lines); Inv(r.1, r.0.adv)
  {
  }
}

=== FILE: gui_common.dfy ===
/** What the two GUI test tools share: the report line they read from the
    sampler, their configuration-line rule (trimmed, `atoi` on the value),
    the environment overrides, and the window clamp. */
module GuiCommon {
  import opened Common
  import opened ConfigText
  import opened ConfigFile

  /** The fields of one `[SPI]` report line as the GUIs extract them: the
      range-scaled axes, the raw readings, and the optional screen position
      (`SX`/`SY`, present together), pressure (`Z`) and `DOWN` flag. Every
      field has gone through `atoi`. */
  datatype SpiReport = SpiReport(
    x: int,
    y: int,
    rawX: int,
    rawY: int,
    screen: Option<(int, int)>,
    z: Option<int>,
    down: Option<int>)

  /** What an optional field reads as when absent. */
  function OrElse(f: Option<int>, absent: int): (v: int)
    ensures f.Some? ==> v == f.value
    ensures f.None? ==> v == absent
  {
    match f
    case None => absent
    case Some(n) => n
  }

  /** One line of a GUI loader: the key it assigns and the value, or None
      when the line is skipped or the key is unknown. Unlike the sampler's
      loader, a value with no number in it reads as 0. */
  function GuiAssignment(line: string): (r: Option<(Key, int)>)
    ensures r.Some? ==> InInt32(r.value.1)
  {
    match SplitLine(line, true)
    case None => None
    case Some(kv) =>
      match KeyOf(kv.0, SamplerDialect)
      case None => None
      case Some(k) => Some((k, Atoi(kv.1)))
  }

  /** A line `key=value`, padded with blanks anywhere around the key and the
      value, assigns `atoi(value)` to that key. */
  lemma GuiAssignmentOf(k: Key, v: string, p1: string, p2: string, p3: string, p4: string)
    requires AllBlank(p1) && AllBlank(p2) && AllBlank(p3) && AllBlank(p4)
    requires v == [] || (!IsBlank(v[0]) && !IsBlank(v[|v| - 1]))
    ensures GuiAssignment(p1 + Name(k) + p2 + "=" + p3 + v + p4) == Some((k, Atoi(v)))
  {
    var key := p1 + Name(k) + p2;
    var value := p3 + v + p4;
    assert p1 + Name(k) + p2 + "=" + p3 + v + p4 == key + "=" + value;
    NameNonBlank(k);
    PaddedKeyShape(p1, Name(k), p2);
    SplitJoin(key, value, true);
    TrimPadding(p1, Name(k), p2);
    TrimPadding(p3, v, p4);
    KeyOfName(k, SamplerDialect);
  }

  /** The unpadded case. */
  lemma GuiAssignmentPlain(k: Key, v: string)
    requires v == [] || (!IsBlank(v[0]) && !IsBlank(v[|v| - 1]))
    ensures GuiAssignment(Name(k) + "=" + v) == Some((k, Atoi(v)))
  {
    GuiAssignmentOf(k, v, [], [], [], []);
    Unpadded(Name(k), v);
  }

  lemma Unpadded(w: string, v: string)
    ensures [] + w + [] + "=" + [] + v + [] == w + "=" + v
  {
  }

  /** The environment variables a tool consults, by the key they override;
      an absent variable is a missing entry. */
  type Env = map<Key, string>

  /** `if (const char* v = getenv(..)) { if (*v) field = atoi(v); }`: a set,
      non-empty variable replaces the field. */
  function Override(v: int, env: Env, k: Key): (r: int)
    ensures k !in env || env[k] == [] ==> r == v
    ensures k in env && env[k] != [] ==> r == Atoi(env[k])
  {
    if k in env && env[k] != [] then Atoi(env[k]) else v
  }

  /** `if (v < 0) v = 0; if (v >= w) v = w - 1;` */
  function ClampToWindow(v: int, w: int): (r: int)
    ensures 1 <= w ==> 0 <= r <= w - 1
    ensures 0 <= v < w ==> r == v
  {
    if v < 0 then (if 0 >= w then w - 1 else 0) else if v >= w then w - 1 else v
  }

  /** For a non-empty window the two tests are the shared clamp. */
  lemma ClampToWindowIsClamp(v: int, w: int)
    requires 1 <= w
    ensures ClampToWindow(v, w) == Clamp(v, 0, w - 1)
  {
  }

  datatype Rect = Rect(x: int, y: int, w: int, h: int)

  /** `SDL_PointInRect`: the left and top edges are inside, the right and
      bottom edges are not. */
  predicate PointInRect(px: int, py: int, r: Rect) {
    r.x <= px < r.x + r.w && r.y <= py < r.y + r.h
  }
}

=== FILE: mapper.dfy ===
/** The raw-to-screen coordinate mapping: swap the axes, invert them, clamp
    into the calibrated raw range, scale the range onto the screen, apply the
    fine offset and scale, and clip away the deadzones. The sampler, the daemon
    and the two GUI tools each scale the range slightly differently; each
    variant is a function here and all share the other steps. */
module Mapper {
  import opened Common
  import opened Params
  import opened ConfigFile

  /** Largest 12-bit sample. */
  const RawMax: int := 4095

  /** The axis flags; any non-zero configured value switches a flag on. */
  datatype Axes = Axes(swap: bool, invertX: bool, invertY: bool)

  function AxesOf(c: Calibration): Axes {
    Axes(c.swapXY != 0, c.invertX != 0, c.invertY != 0)
  }

  function Invert(v: int, on: bool): (r: int)
    ensures 0 <= v <= RawMax ==> 0 <= r <= RawMax
  {
    if on then RawMax - v else v
  }

  /** Swap first, then invert each (already swapped) screen axis. */
  function Orient(rx: int, ry: int, a: Axes): (p: (int, int))
    ensures 0 <= rx <= RawMax && 0 <= ry <= RawMax ==> 0 <= p.0 <= RawMax && 0 <= p.1 <= RawMax
  {
    var (x, y) := if a.swap then (ry, rx) else (rx, ry);
    (Invert(x, a.invertX), Invert(y, a.invertY))
  }

  /** The inverse of `Orient`: undo the inversions, then the swap. */
  function Unorient(x: int, y: int, a: Axes): (int, int) {
    var (u, v) := (Invert(x, a.invertX), Invert(y, a.invertY));
    if a.swap then (v, u) else (u, v)
  }

  /** Orientation loses nothing: the raw point can be recovered. */
  lemma UnorientOrient(rx: int, ry: int, a: Axes)
    ensures Unorient(Orient(rx, ry, a).0, Orient(rx, ry, a).1, a) == (rx, ry)
  {
  }

  /** Swap happens before invert: mapping with the swap on is mapping the
      swapped reading with the swap off, the invert flags held fixed. */
  lemma OrientSwap(rx: int, ry: int, a: Axes)
    ensures Orient(rx, ry, a.(swap := true)) == Orient(ry, rx, a.(swap := false))
  {
  }

  /** The sampler clamps an axis into its raw range only when the range is
      well formed (`min <= max`). */
  function RangeClamp(v: int, lo: int, hi: int): (r: int)
    ensures lo <= hi ==> lo <= r <= hi && (lo <= v <= hi ==> r == v)
    ensures lo > hi ==> r == v
  {
    if lo <= hi then Clamp(v, lo, hi) else v
  }

  /** Sampler range scaling, `llround((x-min) * (w / (double)(max-min)))`.
      When `max == min` the quotient is infinite and the product with the
      zero offset is NaN. C leaves `llround` of NaN unspecified; after the
      `(int)` cast both the x86-64 and the AArch64 conversion give 0, which is
      what this returns. */
  function SamplerScale(x: int, lo: int, hi: int, w: int): (s: int)
    ensures lo < hi && lo <= x <= hi && 0 <= w ==> 0 <= s <= w
    ensures x == lo ==> s == 0
    ensures lo < hi && x == hi ==> s == w
  {
    if hi == lo then 0
    else
      var v := (x - lo) as real * (w as real / (hi - lo) as real);
      if lo < hi && lo <= x <= hi && 0 <= w then
        RealScaleBounds(x, lo, hi, w);
        RoundBetween(v, 0, w);
        RoundHalfAway(v)
      else
        RoundHalfAway(v)
  }

  /** Daemon range scaling in integers, `(x-min)*(w-1) / max(1, max-min)`: the
      divisor is never zero, and C division truncates. */
  function DaemonScale(x: int, lo: int, hi: int, w: int): (s: int)
    ensures lo <= x <= hi && 1 <= w ==> 0 <= s <= w - 1
    ensures x == lo ==> s == 0
    ensures lo < hi && x == hi && 1 <= w ==> s == w - 1
  {
    var d := Max(1, hi - lo);
    var n := (x - lo) * (w - 1);
    var q := TruncDiv(n, d);
    DaemonScaleBounds(x - lo, hi - lo, w - 1, n, d, q);
    q
  }

  lemma DaemonScaleBounds(u: int, range: int, m: int, n: int, d: int, q: int)
    requires n == u * m && d == Max(1, range)
    requires 0 <= n ==> 0 <= n - q * d < d
    requires n < 0 ==> -d < n - q * d <= 0
    ensures 0 <= u <= range && 0 <= m ==> 0 <= q <= m
    ensures u == 0 ==> q == 0
    ensures 0 < range && u == range && 0 <= m ==> q == m
  {
    if u == 0 {
      assert n == 0;
      ZeroQuotient(q, d);
    }
    if 0 <= u <= range && 0 <= m {
      MulLe(0, u, m);
      MulLe(u, d, m);
      assert n <= d * m;
      QuotientBounds(n, d, q, m);
    }
    if 0 < range && u == range && 0 <= m {
      assert n == d * m;
      ExactQuotient(n, d, q, m);
    }
  }

  lemma ZeroQuotient(q: int, d: int)
    requires 0 < d && 0 <= 0 - q * d < d
    ensures q == 0
  {
    MulSign(d, q);
  }

  lemma ExactQuotient(n: int, d: int, q: int, m: int)
    requires 0 < d && n == d * m && 0 <= n - q * d < d
    ensures q == m
  {
    assert n - q * d == d * (m - q);
    MulSign(d, m - q);
  }

  /** The truncated quotient of a numerator in `[0, d*m]` lies in `[0, m]`. */
  lemma QuotientBounds(n: int, d: int, q: int, m: int)
    requires 0 < d && 0 <= n <= d * m
    requires 0 <= n - q * d < d
    ensures 0 <= q <= m
  {
    MulSign(d, q);
    assert d * m - q * d == d * (m - q);
    MulSign(d, m - q);
  }

  /** Scaling preserves order: a point further along the raw axis never maps
      to a smaller screen coordinate. */
  lemma DaemonScaleMonotone(x1: int, x2: int, lo: int, hi: int, w: int)
    requires lo <= x1 <= x2 <= hi && 1 <= w
    ensures DaemonScale(x1, lo, hi, w) <= DaemonScale(x2, lo, hi, w)
  {
    var d := Max(1, hi - lo);
    var n1 := (x1 - lo) * (w - 1);
    var n2 := (x2 - lo) * (w - 1);
    MulLe(x1 - lo, x2 - lo, w - 1);
    MulLe(0, x1 - lo, w - 1);
    QuotientMonotone(n1, n2, d, DaemonScale(x1, lo, hi, w), DaemonScale(x2, lo, hi, w));
  }

  lemma QuotientMonotone(n1: int, n2: int, d: int, q1: int, q2: int)
    requires 0 < d && 0 <= n1 <= n2
    requires 0 <= n1 - q1 * d < d && 0 <= n2 - q2 * d < d
    ensures q1 <= q2
  {
    assert (q1 - q2) * d == q1 * d - q2 * d;
    MulSign(d, q1 - q2);
  }

  lemma RealScaleBounds(x: int, lo: int, hi: int, w: int)
    requires lo < hi && lo <= x <= hi && 0 <= w
    ensures 0.0 <= (x - lo) as real * (w as real / (hi - lo) as real) <= w as real
  {
    var k := w as real / (hi - lo) as real;
    assert 0.0 <= k;
    assert (hi - lo) as real * k == w as real;
    assert (x - lo) as real * k <= (hi - lo) as real * k;
  }

  /** GUI range scaling, `(int)((x-min) * (w / (double)(max-min)))`: the cast
      truncates toward zero. Callers guarantee `max != min`. */
  function GuiScale(x: int, lo: int, hi: int, w: int): (s: int)
    requires lo != hi
    ensures lo < hi && lo <= x <= hi && 0 <= w ==> 0 <= s <= w
    ensures x == lo ==> s == 0
    ensures lo < hi && x == hi ==> s == w
  {
    var v := (x - lo) as real * (w as real / (hi - lo) as real);
    if lo < hi && lo <= x <= hi && 0 <= w then
      RealScaleBounds(x, lo, hi, w);
      TruncReal(v)
    else
      TruncReal(v)
  }

  /** The fine adjustment `llround(s * scale + offset)`. */
  function OffsetScale(s: int, scale: real, offset: int): (r: int)
    ensures -(1.0 / 2.0) <= r as real - (s as real * scale + offset as real) <= 1.0 / 2.0
    ensures scale == 1.0 ==> r == s + offset
  {
    RoundHalfAway(s as real * scale + offset as real)
  }

  /** The allowed interval of one screen axis once the deadzones are cut off
      both ends; it is never empty, because the upper end is raised to the
      lower one when the deadzones overlap. */
  function DeadzoneBounds(dLow: int, dHigh: int, dim: int): (b: (int, int))
    ensures 1 <= dim ==> 0 <= b.0 <= b.1 <= dim - 1
    ensures 0 <= dLow && 0 <= dHigh && dLow + dHigh <= dim - 1 ==> b == (dLow, dim - 1 - dHigh)
    ensures 1 <= dim && dLow <= 0 && dHigh <= 0 ==> b == (0, dim - 1)
  {
    var lo := Clamp(dLow, 0, dim - 1);
    var hi := Clamp(dim - 1 - dHigh, 0, dim - 1);
    (lo, if hi < lo then lo else hi)
  }

  /** Screen space after the fine adjustment: the deadzone clip. */
  function ClipDeadzone(s: int, dLow: int, dHigh: int, dim: int): (r: int)
    ensures 1 <= dim ==> DeadzoneBounds(dLow, dHigh, dim).0 <= r <= DeadzoneBounds(dLow, dHigh, dim).1
    ensures 1 <= dim ==> 0 <= r <= dim - 1
    ensures DeadzoneBounds(dLow, dHigh, dim).0 <= s <= DeadzoneBounds(dLow, dHigh, dim).1 ==> r == s
  {
    var b := DeadzoneBounds(dLow, dHigh, dim);
    Clamp(s, b.0, b.1)
  }

  /** One screen axis in the sampler, from the oriented raw value on. */
  function SamplerAxis(v: int, lo: int, hi: int, dim: int, scale: real, offset: int, dLow: int, dHigh: int): int {
    var s := Clamp(SamplerScale(RangeClamp(v, lo, hi), lo, hi, dim), 0, dim - 1);
    ClipDeadzone(OffsetScale(s, scale, offset), dLow, dHigh, dim)
  }

  /** One screen axis in the daemon, from the oriented raw value on. */
  function DaemonAxis(v: int, lo: int, hi: int, dim: int, scale: real, offset: int, dLow: int, dHigh: int): int {
    var s := Clamp(DaemonScale(Clamp(v, lo, hi), lo, hi, dim), 0, dim - 1);
    ClipDeadzone(OffsetScale(s, scale, offset), dLow, dHigh, dim)
  }

  /** The sampler's per-tick mapping of a raw reading (lines 587-620). */
  function MapSampler(rx: int, ry: int, c: Calibration): (p: (int, int))
    ensures 1 <= c.adv.screenW ==> InDeadzoneX(p.0, c.adv)
    ensures 1 <= c.adv.screenH ==> InDeadzoneY(p.1, c.adv)
  {
    var (x, y) := Orient(rx, ry, AxesOf(c));
    var a := c.adv;
    (SamplerAxis(x, c.minX, c.maxX, a.screenW, a.scaleX, a.offsetX, a.deadzoneLeft, a.deadzoneRight),
     SamplerAxis(y, c.minY, c.maxY, a.screenH, a.scaleY, a.offsetY, a.deadzoneTop, a.deadzoneBottom))
  }

  /** The daemon's per-tick mapping of a raw reading (lines 503-526). */
  function MapDaemon(rx: int, ry: int, c: Calibration): (p: (int, int))
    ensures 1 <= c.adv.screenW ==> InDeadzoneX(p.0, c.adv)
    ensures 1 <= c.adv.screenH ==> InDeadzoneY(p.1, c.adv)
  {
    var (x, y) := Orient(rx, ry, AxesOf(c));
    var a := c.adv;
    (DaemonAxis(x, c.minX, c.maxX, a.screenW, a.scaleX, a.offsetX, a.deadzoneLeft, a.deadzoneRight),
     DaemonAxis(y, c.minY, c.maxY, a.screenH, a.scaleY, a.offsetY, a.deadzoneTop, a.deadzoneBottom))
  }

  /** A horizontal screen position inside the deadzone-trimmed screen. */
  predicate InDeadzoneX(sx: int, a: AdvancedParams) {
    var b := DeadzoneBounds(a.deadzoneLeft, a.deadzoneRight, a.screenW);
    0 <= sx <= a.screenW - 1 && b.0 <= sx <= b.1
  }

  predicate InDeadzoneY(sy: int, a: AdvancedParams) {
    var b := DeadzoneBounds(a.deadzoneTop, a.deadzoneBottom, a.screenH);
    0 <= sy <= a.screenH - 1 && b.0 <= sy <= b.1
  }

  /** Parameters that leave the range scaling alone: unit scale, no offset,
      no deadzones. */
  predicate Neutral(a: AdvancedParams) {
    a.scaleX == 1.0 && a.scaleY == 1.0 && a.offsetX == 0 && a.offsetY == 0
    && a.deadzoneLeft == 0 && a.deadzoneRight == 0 && a.deadzoneTop == 0 && a.deadzoneBottom == 0
  }

  /** With neutral fine-tuning, the daemon's calibrated range spans the whole
      screen: the range ends map to the screen edges and everything between
      maps monotonically between them. */
  lemma DaemonMapsRangeOntoScreen(v: int, lo: int, hi: int, dim: int)
    requires lo < hi && 1 <= dim
    ensures DaemonAxis(lo, lo, hi, dim, 1.0, 0, 0, 0) == 0
    ensures DaemonAxis(hi, lo, hi, dim, 1.0, 0, 0, 0) == dim - 1
    ensures lo <= v <= hi ==> DaemonAxis(v, lo, hi, dim, 1.0, 0, 0, 0) == DaemonScale(v, lo, hi, dim)
    ensures v <= lo ==> DaemonAxis(v, lo, hi, dim, 1.0, 0, 0, 0) == 0
    ensures v >= hi ==> DaemonAxis(v, lo, hi, dim, 1.0, 0, 0, 0) == dim - 1
  {
  }

  /** The same for the sampler. */
  lemma SamplerMapsRangeOntoScreen(v: int, lo: int, hi: int, dim: int)
    requires lo < hi && 1 <= dim
    ensures SamplerAxis(lo, lo, hi, dim, 1.0, 0, 0, 0) == 0
    ensures SamplerAxis(hi, lo, hi, dim, 1.0, 0, 0, 0) == dim - 1
    ensures lo <= v <= hi ==> SamplerAxis(v, lo, hi, dim, 1.0, 0, 0, 0) == Min(SamplerScale(v, lo, hi, dim), dim - 1)
  {
  }
}

=== FILE: median.dfy ===
/** The sliding median stage of the noise filter: a bounded history of the
    last samples (a `std::deque` in the source) and `median_of`, which sorts a
    copy of the window and takes the element at index `size/2`. */
module Median {
  import opened Common

  predicate Sorted(s: seq<int>) {
    forall i, j :: 0 <= i < j < |s| ==> s[i] <= s[j]
  }

  /** Insertion of one value into a sorted sequence. */
  function Insert(x: int, s: seq<int>): (r: seq<int>)
    requires Sorted(s)
    ensures Sorted(r)
    ensures |r| == |s| + 1
    ensures multiset(r) == multiset(s) + multiset{x}
    ensures r[0] == (if s == [] then x else Min(x, s[0]))
  {
    if s == [] || x <= s[0] then [x] + s
    else
      var t := Insert(x, s[1..]);
      ConsSorted(s[0], t);
      assert s == [s[0]] + s[1..];
      [s[0]] + t
  }

  /** Putting a value no larger than the head in front keeps a sequence sorted. */
  lemma ConsSorted(h: int, t: seq<int>)
    requires Sorted(t) && (t != [] ==> h <= t[0])
    ensures Sorted([h] + t)
  {
  }

  /** `std::sort`, as an insertion sort. */
  function Sort(s: seq<int>): (r: seq<int>)
    ensures Sorted(r)
    ensures |r| == |s|
    ensures multiset(r) == multiset(s)
  {
    if s == [] then []
    else
      assert s == [s[0]] + s[1..];
      Insert(s[0], Sort(s[1..]))
  }

  /** How many entries are at most / at least a value. */
  function CountLe(s: seq<int>, v: int): (n: nat)
    ensures n <= |s|
  {
    if s == [] then 0 else (if s[0] <= v then 1 else 0) + CountLe(s[1..], v)
  }

  function CountGe(s: seq<int>, v: int): (n: nat)
    ensures n <= |s|
  {
    if s == [] then 0 else (if s[0] >= v then 1 else 0) + CountGe(s[1..], v)
  }

  lemma {:induction false} CountInsert(x: int, s: seq<int>, v: int)
    requires Sorted(s)
    ensures CountLe(Insert(x, s), v) == CountLe(s, v) + (if x <= v then 1 else 0)
    ensures CountGe(Insert(x, s), v) == CountGe(s, v) + (if x >= v then 1 else 0)
  {
    if s == [] || x <= s[0] {
      assert ([x] + s)[1..] == s;
    } else {
      CountInsert(x, s[1..], v);
      assert ([s[0]] + Insert(x, s[1..]))[1..] == Insert(x, s[1..]);
    }
  }

  /** Sorting keeps how many entries lie on either side of any value. */
  lemma {:induction false} CountSort(s: seq<int>, v: int)
    ensures CountLe(Sort(s), v) == CountLe(s, v)
    ensures CountGe(Sort(s), v) == CountGe(s, v)
  {
    if s != [] {
      CountSort(s[1..], v);
      CountInsert(s[0], Sort(s[1..]), v);
    }
  }

  lemma {:induction false} CountLePrefix(s: seq<int>, v: int, k: nat)
    requires k <= |s|
    requires forall i :: 0 <= i < k ==> s[i] <= v
    ensures CountLe(s, v) >= k
  {
    if k > 0 {
      CountLePrefix(s[1..], v, k - 1);
    }
  }

  lemma {:induction false} CountGeSuffix(s: seq<int>, v: int, k: nat)
    requires k <= |s|
    requires forall i :: k <= i < |s| ==> s[i] >= v
    ensures CountGe(s, v) >= |s| - k
  {
    if s != [] {
      if k == 0 {
        CountGeSuffix(s[1..], v, 0);
      } else {
        CountGeSuffix(s[1..], v, k - 1);
      }
    }
  }

  /** `median_of`: 0 for an empty window, else the middle of the sorted window
      (the upper middle for an even size). It is a member of the window with
      more than half of the window at or below it and at least half at or
      above it. */
  function MedianOf(w: seq<int>): (m: int)
    ensures w == [] ==> m == 0
    ensures w != [] ==> m in w
    ensures w != [] ==> CountLe(w, m) >= |w| / 2 + 1
    ensures w != [] ==> CountGe(w, m) >= |w| - |w| / 2
  {
    if w == [] then 0
    else
      MiddleOfSorted(w);
      Sort(w)[|w| / 2]
  }

  /** The middle entry of the sorted window, and what the counts say of it. */
  lemma MiddleOfSorted(w: seq<int>)
    requires w != []
    ensures Sort(w)[|w| / 2] in w
    ensures CountLe(w, Sort(w)[|w| / 2]) >= |w| / 2 + 1
    ensures CountGe(w, Sort(w)[|w| / 2]) >= |w| - |w| / 2
  {
    var t := Sort(w);
    var k := |w| / 2;
    var m := t[k];
    SortedMembers(w, k);
    SortedSides(t, k);
    CountLePrefix(t, m, k + 1);
    CountGeSuffix(t, m, k);
    CountSort(w, m);
  }

  lemma SortedMembers(w: seq<int>, k: nat)
    requires k < |w|
    ensures Sort(w)[k] in w
  {
    var t := Sort(w);
    assert t[k] in multiset(t);
  }

  lemma SortedSides(t: seq<int>, k: nat)
    requires Sorted(t) && k < |t|
    ensures forall i :: 0 <= i < k + 1 ==> t[i] <= t[k]
    ensures forall i :: k <= i < |t| ==> t[i] >= t[k]
  {
  }

  function SeqMin(s: seq<int>): int
    requires s != []
  {
    if |s| == 1 then s[0] else Min(s[0], SeqMin(s[1..]))
  }

  function SeqMax(s: seq<int>): int
    requires s != []
  {
    if |s| == 1 then s[0] else Max(s[0], SeqMax(s[1..]))
  }

  lemma {:induction false} MinMaxBound(s: seq<int>, x: int)
    requires x in s
    ensures SeqMin(s) <= x <= SeqMax(s)
  {
    if |s| > 1 && x != s[0] {
      MinMaxBound(s[1..], x);
    }
  }

  /** The median lies between the window's smallest and largest entry. */
  lemma MedianBetween(w: seq<int>)
    requires w != []
    ensures SeqMin(w) <= MedianOf(w) <= SeqMax(w)
  {
    MinMaxBound(w, MedianOf(w));
  }

  /** A window of equal samples has that sample as its median. */
  lemma MedianConstant(w: seq<int>, c: int)
    requires w != []
    requires forall i :: 0 <= i < |w| ==> w[i] == c
    ensures MedianOf(w) == c
  {
  }

  /** `push_back` followed by `pop_front` while the deque is longer than the
      window: the window keeps the newest `mw` samples, oldest first. */
  function Push(hist: seq<int>, x: int, mw: int): (r: seq<int>)
    requires 1 <= mw
    ensures |r| == Min(|hist| + 1, mw)
    ensures r == (hist + [x])[|hist| + 1 - |r|..]
    ensures r[|r| - 1] == x
  {
    var h := hist + [x];
    if |h| > mw then h[|h| - mw..] else h
  }

  /** Pushing a run of samples into a window leaves exactly the last `mw` of
      everything seen, in order. */
  lemma {:induction false} PushAll(hist: seq<int>, xs: seq<int>, mw: int)
    requires 1 <= mw && |hist| <= mw
    ensures PushSeq(hist, xs, mw) == (hist + xs)[|hist + xs| - Min(|hist + xs|, mw)..]
    decreases |xs|
  {
    if xs != [] {
      PushAll(Push(hist, xs[0], mw), xs[1..], mw);
      PushOnce(hist, xs, mw);
    }
  }

  /** After the first push, the last `mw` of what remains are the last `mw`
      of everything. */
  lemma PushOnce(hist: seq<int>, xs: seq<int>, mw: int)
    requires 1 <= mw && |hist| <= mw && xs != []
    ensures var all1 := Push(hist, xs[0], mw) + xs[1..];
      all1[|all1| - Min(|all1|, mw)..] == (hist + xs)[|hist + xs| - Min(|hist + xs|, mw)..]
  {
    var h1 := Push(hist, xs[0], mw);
    var all := hist + xs;
    var all1 := h1 + xs[1..];
    var k := Min(|all|, mw);
    var j := |hist| + 1 - |h1|;
    assert hist + [xs[0]] + xs[1..] == all;
    SuffixAppend(hist + [xs[0]], xs[1..], j);
    assert all1 == all[j..];
    assert Min(|all1|, mw) == k;
    assert all1[|all1| - k..] == all[|all| - k..];
  }

  lemma SuffixAppend(u: seq<int>, v: seq<int>, i: nat)
    requires i <= |u|
    ensures u[i..] + v == (u + v)[i..]
  {
  }

  function PushSeq(hist: seq<int>, xs: seq<int>, mw: int): seq<int>
    requires 1 <= mw
    decreases |xs|
  {
    if xs == [] then hist else PushSeq(Push(hist, xs[0], mw), xs[1..], mw)
  }
}

=== FILE: noise_filter.dfy ===
/** The noise filter that runs on each mapped sample while the touch is down:
    a per-axis limit on the jump from the last filtered position, the sliding
    median, and first-order (IIR) smoothing. The sampler and the daemon run
    the same three stages in the same order. */
module NoiseFilter {
  import opened Common
  import opened Params
  import opened Median

  /** The histories of both axes, whether a filtered position exists yet, and
      that position. */
  datatype FilterState = FilterState(
    histX: seq<int>,
    histY: seq<int>,
    haveFiltered: bool,
    filtX: int,
    filtY: int)

  const Initial := FilterState([], [], false, 0, 0)

  /** What a release or a reload does to the filter: both histories emptied
      and the filtered position forgotten (its stale value stays but is no
      longer used). */
  function Reset(f: FilterState): (r: FilterState)
    ensures r.histX == [] && r.histY == [] && !r.haveFiltered
  {
    f.(histX := [], histY := [], haveFiltered := false)
  }

  /** The `max_delta_px` step: a sample further than `d` from the filtered
      position is pulled back to distance `d`. */
  function DeltaClamp(v: int, filt: int, d: int): (r: int)
    ensures 0 <= d ==> filt - d <= r <= filt + d
    ensures filt - d <= v <= filt + d ==> r == v
    ensures 0 <= d && v > filt + d ==> r == filt + d
    ensures 0 <= d && v < filt - d ==> r == filt - d
  {
    var dx := v - filt;
    if dx > d then filt + d else if dx < -d then filt - d else v
  }

  /** The step is a clamp into the band around the filtered position. */
  lemma DeltaClampIsClamp(v: int, filt: int, d: int)
    requires 0 <= d
    ensures DeltaClamp(v, filt, d) == Clamp(v, filt - d, filt + d)
  {
  }

  /** Pulling a sample toward the filtered position keeps it between the two. */
  lemma DeltaClampBetween(v: int, filt: int, d: int)
    requires 0 < d
    ensures Min(v, filt) <= DeltaClamp(v, filt, d) <= Max(v, filt)
  {
  }

  predicate MedianActive(mw: int) { mw == 3 || mw == 5 }

  /** The smoothing step `llround(a * pre + (1 - a) * filt)`. */
  function Blend(pre: int, filt: int, a: real): (r: int)
    ensures 0.0 <= a <= 1.0 ==> Min(pre, filt) <= r <= Max(pre, filt)
    ensures a == 1.0 ==> r == pre
    ensures a == 0.0 ==> r == filt
    ensures pre == filt ==> r == pre
  {
    BlendFacts(pre, filt, a);
    RoundHalfAway(a * pre as real + (1.0 - a) * filt as real)
  }

  lemma BlendFacts(pre: int, filt: int, a: real)
    ensures var r := RoundHalfAway(a * pre as real + (1.0 - a) * filt as real);
      && (0.0 <= a <= 1.0 ==> Min(pre, filt) <= r <= Max(pre, filt))
      && (a == 1.0 ==> r == pre)
      && (a == 0.0 ==> r == filt)
      && (pre == filt ==> r == pre)
  {
    var v := a * pre as real + (1.0 - a) * filt as real;
    if 0.0 <= a <= 1.0 {
      BlendBetween(pre, filt, a);
      RoundBetween(v, Min(pre, filt), Max(pre, filt));
    }
    if a == 1.0 {
      assert v == pre as real;
      RoundInteger(pre);
    }
    if a == 0.0 {
      assert v == filt as real;
      RoundInteger(filt);
    }
    if pre == filt {
      assert v == pre as real;
      RoundInteger(pre);
    }
  }

  lemma BlendBetween(pre: int, filt: int, a: real)
    requires 0.0 <= a <= 1.0
    ensures Min(pre, filt) as real <= a * pre as real + (1.0 - a) * filt as real <= Max(pre, filt) as real
  {
    var v := a * pre as real + (1.0 - a) * filt as real;
    var d := (filt - pre) as real;
    assert v == pre as real + (1.0 - a) * d;
    assert v == filt as real - a * d;
    if pre <= filt {
      NonnegMul(1.0 - a, d);
      NonnegMul(a, d);
    } else {
      NonnegMul(1.0 - a, -d);
      NonnegMul(a, -d);
    }
  }

  lemma NonnegMul(x: real, y: real)
    requires 0.0 <= x && 0.0 <= y
    ensures 0.0 <= x * y
  {
  }

  /** One axis of one filter pass: the history after the sample is pushed,
      and the new filtered value. `have` says whether a filtered value exists. */
  function AxisStep(hist: seq<int>, have: bool, filt: int, s: int, a: AdvancedParams): (r: (seq<int>, int))
    ensures MedianActive(a.medianWindow) ==> |r.0| == Min(|hist| + 1, a.medianWindow)
    ensures !MedianActive(a.medianWindow) ==> r.0 == hist
  {
    var d := a.maxDeltaPx;
    var mw := a.medianWindow;
    var p := if d > 0 && have then DeltaClamp(s, filt, d) else s;
    var h := if MedianActive(mw) then Push(hist, p, mw) else hist;
    var m := if MedianActive(mw) then MedianOf(h) else p;
    (h, if a.iirAlpha > 0.0 && have then Blend(m, filt, a.iirAlpha) else m)
  }

  /** One pass of the filter on the mapped sample `(sx, sy)` while the touch
      is down; the new filtered position is also the reported one. */
  function Step(f: FilterState, sx: int, sy: int, a: AdvancedParams): (r: FilterState)
    ensures r.haveFiltered
    ensures MedianActive(a.medianWindow) ==> |r.histX| == Min(|f.histX| + 1, a.medianWindow)
    ensures MedianActive(a.medianWindow) ==> |r.histY| == Min(|f.histY| + 1, a.medianWindow)
    ensures !MedianActive(a.medianWindow) ==> r.histX == f.histX && r.histY == f.histY
  {
    var x := AxisStep(f.histX, f.haveFiltered, f.filtX, sx, a);
    var y := AxisStep(f.histY, f.haveFiltered, f.filtY, sy, a);
    FilterState(x.0, y.0, true, x.1, y.1)
  }

  /** The maximum history length a median window allows. */
  function HistCap(mw: int): nat {
    if MedianActive(mw) then mw else 0
  }

  /** The filter keeps the histories equally long and within the window, and
      leaves a filtered position; both loops rely on this between samples. */
  lemma StepInv(f: FilterState, sx: int, sy: int, a: AdvancedParams)
    requires |f.histX| == |f.histY| <= HistCap(a.medianWindow)
    ensures var g := Step(f, sx, sy, a);
      g.haveFiltered && |g.histX| == |g.histY| <= HistCap(a.medianWindow)
  {
    var g := Step(f, sx, sy, a);
    if MedianActive(a.medianWindow) {
      LengthCap(|f.histX|, |g.histX|, a.medianWindow);
      LengthCap(|f.histY|, |g.histY|, a.medianWindow);
    }
  }

  lemma LengthCap(n: int, m: int, mw: int)
    requires MedianActive(mw) && m == Min(n + 1, mw)
    ensures m <= HistCap(mw)
  {
  }

  /** With every stage switched off the filter passes samples through. */
  lemma StepTransparent(f: FilterState, sx: int, sy: int, a: AdvancedParams)
    requires a.maxDeltaPx <= 0 && !MedianActive(a.medianWindow) && a.iirAlpha <= 0.0
    ensures Step(f, sx, sy, a).filtX == sx && Step(f, sx, sy, a).filtY == sy
  {
  }

  /** A one-sample window has that sample as its median. */
  lemma PushIntoEmpty(s: int, mw: int)
    requires 1 <= mw
    ensures Push([], s, mw) == [s]
    ensures MedianOf([s]) == s
  {
  }

  /** An axis with an empty history and the filtered value equal to the
      sample (or no filtered value at all) reports the sample. */
  lemma AxisStepFixed(have: bool, filt: int, s: int, a: AdvancedParams)
    requires have ==> filt == s
    ensures AxisStep([], have, filt, s, a).1 == s
  {
    var d := a.maxDeltaPx;
    var mw := a.medianWindow;
    var p := if d > 0 && have then DeltaClamp(s, filt, d) else s;
    assert p == s;
    var h := if MedianActive(mw) then Push([], p, mw) else [];
    if MedianActive(mw) {
      PushIntoEmpty(s, mw);
    }
    var m := if MedianActive(mw) then MedianOf(h) else p;
    assert m == s;
    assert AxisStep([], have, filt, s, a).1 == if a.iirAlpha > 0.0 && have then Blend(m, filt, a.iirAlpha) else m;
  }

  /** The first sample after a reset comes out unchanged, whatever the
      parameters: nothing to clamp against, a one-sample window, nothing to
      blend with. */
  lemma StepAfterReset(f: FilterState, sx: int, sy: int, a: AdvancedParams)
    requires f.histX == [] && f.histY == [] && !f.haveFiltered
    ensures Step(f, sx, sy, a).filtX == sx && Step(f, sx, sy, a).filtY == sy
  {
    AxisStepFixed(false, f.filtX, sx, a);
    AxisStepFixed(false, f.filtY, sy, a);
  }

  /** A filter seeded with the sample itself (the daemon's snap to the finger)
      also reports it unchanged. */
  lemma StepSeeded(f: FilterState, sx: int, sy: int, a: AdvancedParams)
    requires f.histX == [] && f.histY == [] && f.haveFiltered && f.filtX == sx && f.filtY == sy
    ensures Step(f, sx, sy, a).filtX == sx && Step(f, sx, sy, a).filtY == sy
  {
    AxisStepFixed(true, f.filtX, sx, a);
    AxisStepFixed(true, f.filtY, sy, a);
  }

  /** Without the median, a sanitised filter never moves the reported
      position by more than `max_delta_px` per sample. */
  lemma StepDeltaBound(f: FilterState, sx: int, sy: int, a: AdvancedParams)
    requires a.maxDeltaPx > 0 && f.haveFiltered && !MedianActive(a.medianWindow)
    requires 0.0 <= a.iirAlpha <= 1.0
    ensures Abs(Step(f, sx, sy, a).filtX - f.filtX) <= a.maxDeltaPx
    ensures Abs(Step(f, sx, sy, a).filtY - f.filtY) <= a.maxDeltaPx
  {
  }

  predicate AllWithin(s: seq<int>, lo: int, hi: int) {
    forall i :: 0 <= i < |s| ==> lo <= s[i] <= hi
  }

  /** Everything the filter remembers lies inside the given screen box. */
  predicate WithinBox(f: FilterState, lx: int, hx: int, ly: int, hy: int) {
    && AllWithin(f.histX, lx, hx)
    && AllWithin(f.histY, ly, hy)
    && (f.haveFiltered ==> lx <= f.filtX <= hx && ly <= f.filtY <= hy)
  }

  lemma PushWithin(hist: seq<int>, x: int, mw: int, lo: int, hi: int)
    requires 1 <= mw && AllWithin(hist, lo, hi) && lo <= x <= hi
    ensures AllWithin(Push(hist, x, mw), lo, hi)
  {
    var h := hist + [x];
    assert AllWithin(h, lo, hi);
    var r := Push(hist, x, mw);
    forall i | 0 <= i < |r|
      ensures lo <= r[i] <= hi
    {
      assert r[i] == h[|hist| + 1 - |r| + i];
    }
  }

  /** The filter only ever interpolates between samples it has seen: fed
      samples inside a box, it stays inside the box and so does its output. */
  lemma AxisStepWithin(hist: seq<int>, have: bool, filt: int, s: int, a: AdvancedParams, lo: int, hi: int)
    requires AllWithin(hist, lo, hi) && (have ==> lo <= filt <= hi) && lo <= s <= hi
    requires 0.0 <= a.iirAlpha <= 1.0
    ensures AllWithin(AxisStep(hist, have, filt, s, a).0, lo, hi)
    ensures lo <= AxisStep(hist, have, filt, s, a).1 <= hi
  {
    var d := a.maxDeltaPx;
    var mw := a.medianWindow;
    if d > 0 && have {
      DeltaClampBetween(s, filt, d);
    }
    var p := if d > 0 && have then DeltaClamp(s, filt, d) else s;
    assert lo <= p <= hi;
    var h := if MedianActive(mw) then Push(hist, p, mw) else hist;
    if MedianActive(mw) {
      PushWithin(hist, p, mw, lo, hi);
      MedianWithin(h, lo, hi);
    }
    var m := if MedianActive(mw) then MedianOf(h) else p;
    assert lo <= m <= hi;
    var r := AxisStep(hist, have, filt, s, a);
    assert r.0 == h;
    if a.iirAlpha > 0.0 && have {
      assert r.1 == Blend(m, filt, a.iirAlpha);
      BlendWithin(m, filt, a.iirAlpha, lo, hi);
    } else {
      assert r.1 == m;
    }
  }

  lemma BlendWithin(pre: int, filt: int, alpha: real, lo: int, hi: int)
    requires lo <= pre <= hi && lo <= filt <= hi && 0.0 <= alpha <= 1.0
    ensures lo <= Blend(pre, filt, alpha) <= hi
  {
    var b := Blend(pre, filt, alpha);
    assert Min(pre, filt) <= b <= Max(pre, filt);
  }

  lemma MedianWithin(h: seq<int>, lo: int, hi: int)
    requires h != [] && AllWithin(h, lo, hi)
    ensures lo <= MedianOf(h) <= hi
  {
    var m := MedianOf(h);
    var i :| 0 <= i < |h| && h[i] == m;
  }

  lemma StepWithinBox(f: FilterState, sx: int, sy: int, a: AdvancedParams, lx: int, hx: int, ly: int, hy: int)
    requires WithinBox(f, lx, hx, ly, hy)
    requires lx <= sx <= hx && ly <= sy <= hy
    requires 0.0 <= a.iirAlpha <= 1.0
    ensures WithinBox(Step(f, sx, sy, a), lx, hx, ly, hy)
  {
    AxisStepWithin(f.histX, f.haveFiltered, f.filtX, sx, a, lx, hx);
    AxisStepWithin(f.histY, f.haveFiltered, f.filtY, sy, a, ly, hy);
  }
}

=== FILE: params.dfy ===
/** The advanced tuning parameters (`AdvancedParams`) shared by the sampler
    and the daemon, with their defaults and the load-time sanitiser. */
module Params {
  import opened Common

  datatype AdvancedParams = AdvancedParams(
    screenW: int,
    screenH: int,
    pollUs: int,
    offsetX: int,
    offsetY: int,
    scaleX: real,
    scaleY: real,
    deadzoneLeft: int,
    deadzoneRight: int,
    deadzoneTop: int,
    deadzoneBottom: int,
    medianWindow: int,
    iirAlpha: real,
    pressThreshold: int,
    releaseThreshold: int,
    maxDeltaPx: int,
    tapMaxMs: int,
    tapMaxMovePx: int,
    dragStartPx: int)

  /** The member initialisers of `AdvancedParams`. */
  const Defaults := AdvancedParams(
    800, 480, 100000,
    0, 0, 1.0, 1.0,
    0, 0, 0, 0,
    3, 0.2,
    120, 80,
    0,
    250, 12, 18)

  const MinScale: real := 0.01
  const MaxScale: real := 10.0

  predicate ValidMedianWindow(w: int) { w == 0 || w == 3 || w == 5 }

  /** What the sanitiser guarantees and every later stage relies on. */
  predicate Sanitized(p: AdvancedParams) {
    && 1 <= p.screenW <= 4096
    && 1 <= p.screenH <= 4096
    && 1000 <= p.pollUs <= 1000000
    && MinScale <= p.scaleX <= MaxScale
    && MinScale <= p.scaleY <= MaxScale
    && 0.0 <= p.iirAlpha <= 1.0
    && ValidMedianWindow(p.medianWindow)
    && p.releaseThreshold <= p.pressThreshold
  }

  /** `sanitize_adv` (and the identical block in the sampler's `main`): clamp
      the screen size, poll interval, scales and smoothing factor into range,
      fall back to a 3-sample median on an unsupported window size, and pull
      the release threshold down to the press threshold. */
  function Sanitize(p: AdvancedParams): (r: AdvancedParams)
    ensures Sanitized(r)
    ensures Sanitized(p) ==> r == p
    // a field already in range is kept; one out of range goes to the nearest bound
    ensures 1 <= p.screenW <= 4096 ==> r.screenW == p.screenW
    ensures p.screenW < 1 ==> r.screenW == 1
    ensures p.screenW > 4096 ==> r.screenW == 4096
    ensures 1 <= p.screenH <= 4096 ==> r.screenH == p.screenH
    ensures p.screenH < 1 ==> r.screenH == 1
    ensures p.screenH > 4096 ==> r.screenH == 4096
    ensures 1000 <= p.pollUs <= 1000000 ==> r.pollUs == p.pollUs
    ensures p.pollUs < 1000 ==> r.pollUs == 1000
    ensures p.pollUs > 1000000 ==> r.pollUs == 1000000
    ensures MinScale <= p.scaleX <= MaxScale ==> r.scaleX == p.scaleX
    ensures p.scaleX < MinScale ==> r.scaleX == MinScale
    ensures p.scaleX > MaxScale ==> r.scaleX == MaxScale
    ensures MinScale <= p.scaleY <= MaxScale ==> r.scaleY == p.scaleY
    ensures p.scaleY < MinScale ==> r.scaleY == MinScale
    ensures p.scaleY > MaxScale ==> r.scaleY == MaxScale
    ensures 0.0 <= p.iirAlpha <= 1.0 ==> r.iirAlpha == p.iirAlpha
    ensures p.iirAlpha < 0.0 ==> r.iirAlpha == 0.0
    ensures p.iirAlpha > 1.0 ==> r.iirAlpha == 1.0
    ensures ValidMedianWindow(p.medianWindow) ==> r.medianWindow == p.medianWindow
    ensures !ValidMedianWindow(p.medianWindow) ==> r.medianWindow == 3
    ensures r.releaseThreshold == Min(p.releaseThreshold, p.pressThreshold)
    // nothing else is touched
    ensures r.pressThreshold == p.pressThreshold
    ensures r.offsetX == p.offsetX && r.offsetY == p.offsetY
    ensures r.deadzoneLeft == p.deadzoneLeft && r.deadzoneRight == p.deadzoneRight
    ensures r.deadzoneTop == p.deadzoneTop && r.deadzoneBottom == p.deadzoneBottom
    ensures r.maxDeltaPx == p.maxDeltaPx
    ensures r.tapMaxMs == p.tapMaxMs && r.tapMaxMovePx == p.tapMaxMovePx
    ensures r.dragStartPx == p.dragStartPx
  {
    p.(
      screenW := Clamp(p.screenW, 1, 4096),
      screenH := Clamp(p.screenH, 1, 4096),
      pollUs := Clamp(p.pollUs, 1000, 1000000),
      scaleX := ClampReal(p.scaleX, MinScale, MaxScale),
      scaleY := ClampReal(p.scaleY, MinScale, MaxScale),
      iirAlpha := ClampReal(p.iirAlpha, 0.0, 1.0),
      medianWindow := if ValidMedianWindow(p.medianWindow) then p.medianWindow else 3,
      releaseThreshold :=
        if p.releaseThreshold > p.pressThreshold then p.pressThreshold else p.releaseThreshold)
  }

  /** Sanitising twice is sanitising once, and the sanitiser leaves exactly
      the already-sanitised parameter sets alone. */
  lemma SanitizeIdempotent(p: AdvancedParams)
    ensures Sanitize(Sanitize(p)) == Sanitize(p)
    ensures Sanitize(p) == p <==> Sanitized(p)
  {
  }

  lemma DefaultsSanitized()
    ensures Sanitized(Defaults)
  {
  }
}

=== FILE: sampler.dfy ===
/** One iteration of the sampler's main loop (the calibrator's streaming
    mode): map the reading, update the touch state with pressure hysteresis,
    classify taps and drags, run the noise filter while down, and report the
    filtered position clamped to the screen. Time enters as the current
    millisecond count of a monotonic clock. */
module Sampler {
  import opened Common
  import opened Params
  import opened ConfigFile
  import opened Mapper
  import opened NoiseFilter
  import SpiSample

  /** The three conversions the loop uses; a failed conversion reads as -1. */
  datatype Reading = Reading(rawX: int, rawY: int, z1: int)

  datatype Gesture = Tap(x: int, y: int, ms: int) | DragStart(x: int, y: int)

  /** Touch state and filter state carried from one iteration to the next. */
  datatype SamplerState = SamplerState(
    down: bool,
    dragging: bool,
    startX: int,
    startY: int,
    startMs: int,
    filter: FilterState)

  const Start := SamplerState(false, false, 0, 0, 0, NoiseFilter.Initial)

  /** Without pressure thresholds, a touch is assumed while both raw axes stay
      away from the rails. */
  const PresentLo: int := 50
  const PresentHi: int := 4045

  predicate Present(rx: int, ry: int) {
    PresentLo <= rx <= PresentHi && PresentLo <= ry <= PresentHi
  }

  function Dist2(x0: int, y0: int, x1: int, y1: int): (d: int)
    ensures d >= 0
    ensures d == 0 <==> x0 == x1 && y0 == y1
  {
    var dx := x0 - x1;
    var dy := y0 - y1;
    SquareSign(dx);
    SquareSign(dy);
    dx * dx + dy * dy
  }

  lemma SquareSign(d: int)
    ensures d * d >= 0 && (d * d == 0 <==> d == 0)
  {
    if d > 0 {
      MulSign(d, d);
    } else if d < 0 {
      MulSign(-d, -d);
    }
  }

  /** A contact begins at the mapped position and the current time. */
  function Begin(st: SamplerState, sx: int, sy: int, nowMs: int): SamplerState {
    st.(down := true, startX := sx, startY := sy, startMs := nowMs, dragging := false)
  }

  /** A contact ends: no drag, filter reset. */
  function End(st: SamplerState): SamplerState {
    st.(down := false, dragging := false, filter := Reset(st.filter))
  }

  /** Whether releasing at `(sx, sy)` at `nowMs` is a tap. */
  predicate IsTap(st: SamplerState, a: AdvancedParams, sx: int, sy: int, nowMs: int) {
    && !st.dragging
    && nowMs - st.startMs <= a.tapMaxMs
    && Dist2(st.startX, st.startY, sx, sy) <= a.tapMaxMovePx * a.tapMaxMovePx
  }

  /** The touch-state update. With a press threshold: hysteresis between the
      press and release thresholds, and a tap check on release. Without one:
      the raw-coordinate presence heuristic, and no taps. */
  function TouchUpdate(st: SamplerState, a: AdvancedParams, p: int, rx: int, ry: int, sx: int, sy: int, nowMs: int): (r: (SamplerState, seq<Gesture>))
    ensures a.pressThreshold > 0 && !st.down ==> (r.0.down <==> p >= a.pressThreshold)
    ensures a.pressThreshold > 0 && st.down ==> (!r.0.down <==> p <= a.releaseThreshold)
    ensures a.pressThreshold <= 0 ==> (r.0.down <==> Present(rx, ry)) && r.1 == []
    ensures !st.down && r.0.down ==> r.0 == Begin(st, sx, sy, nowMs)
    ensures st.down && !r.0.down ==> r.0 == End(st)
    ensures st.down == r.0.down ==> r.0 == st
    ensures r.1 != [] ==> r.1 == [Tap(sx, sy, nowMs - st.startMs)]
    ensures r.1 != [] <==> a.pressThreshold > 0 && st.down && p <= a.releaseThreshold && IsTap(st, a, sx, sy, nowMs)
  {
    if a.pressThreshold > 0 then
      if !st.down then
        if p >= a.pressThreshold then (Begin(st, sx, sy, nowMs), []) else (st, [])
      else if p <= a.releaseThreshold then
        (End(st), if IsTap(st, a, sx, sy, nowMs) then [Tap(sx, sy, nowMs - st.startMs)] else [])
      else (st, [])
    else
      var present := Present(rx, ry);
      if !st.down && present then (Begin(st, sx, sy, nowMs), [])
      else if st.down && !present then (End(st), [])
      else (st, [])
  }

  /** Drag detection: once per contact, when the finger has moved at least
      `drag_start_px` from where the contact began. */
  function DragUpdate(st: SamplerState, a: AdvancedParams, sx: int, sy: int): (r: (SamplerState, seq<Gesture>))
    ensures r.1 == [] || r.1 == [DragStart(st.startX, st.startY)]
    ensures r.1 != [] <==> (st.down && !st.dragging
      && Dist2(st.startX, st.startY, sx, sy) >= a.dragStartPx * a.dragStartPx)
    ensures r.1 != [] ==> r.0 == st.(dragging := true)
    ensures r.1 == [] ==> r.0 == st
  {
    if st.down && !st.dragging && Dist2(st.startX, st.startY, sx, sy) >= a.dragStartPx * a.dragStartPx then
      (st.(dragging := true), [DragStart(st.startX, st.startY)])
    else (st, [])
  }

  /** The filter runs only while down; while up it only primes the filtered
      position if there is none. */
  function FilterUpdate(st: SamplerState, a: AdvancedParams, sx: int, sy: int): (r: SamplerState)
    ensures r.down == st.down && r.dragging == st.dragging && r.startX == st.startX
    ensures r.startY == st.startY && r.startMs == st.startMs
    ensures st.down ==> r.filter == Step(st.filter, sx, sy, a)
    ensures !st.down ==> r.filter.histX == st.filter.histX && r.filter.histY == st.filter.histY
    ensures !st.down ==> r.filter.haveFiltered == st.filter.haveFiltered
  {
    if st.down then st.(filter := Step(st.filter, sx, sy, a))
    else if !st.filter.haveFiltered then st.(filter := st.filter.(filtX := sx, filtY := sy))
    else st
  }

  datatype TickResult = TickResult(state: SamplerState, outX: int, outY: int, gestures: seq<Gesture>)

  /** One loop iteration (lines 581-720 of the sampler) on a reading: the
      pressure is the Z1 conversion, and the sample is the reading mapped
      through the calibration. */
  function Tick(st: SamplerState, c: Calibration, rd: Reading, nowMs: int): (r: TickResult)
    ensures 1 <= c.adv.screenW ==> 0 <= r.outX <= c.adv.screenW - 1
    ensures 1 <= c.adv.screenH ==> 0 <= r.outY <= c.adv.screenH - 1
  {
    var s := MapSampler(rd.rawX, rd.rawY, c);
    Advance(st, c.adv, SpiSample.Pressure(rd.z1), rd.rawX, rd.rawY, s.0, s.1, nowMs)
  }

  /** The iteration after mapping: touch state, drag detection, filter, and
      the filtered position clamped to the screen. */
  function Advance(st: SamplerState, a: AdvancedParams, p: int, rx: int, ry: int, sx: int, sy: int, nowMs: int): (r: TickResult)
    ensures 1 <= a.screenW ==> 0 <= r.outX <= a.screenW - 1
    ensures 1 <= a.screenH ==> 0 <= r.outY <= a.screenH - 1
  {
    var (st1, g1) := TouchUpdate(st, a, p, rx, ry, sx, sy, nowMs);
    var (st2, g2) := DragUpdate(st1, a, sx, sy);
    var st3 := FilterUpdate(st2, a, sx, sy);
    TickResult(st3, Clamp(st3.filter.filtX, 0, a.screenW - 1), Clamp(st3.filter.filtY, 0, a.screenH - 1), g1 + g2)
  }

  /** What holds between iterations: a drag only within a contact; between
      contacts the filter is reset; during one it has a position; histories
      are as long as each other and never longer than the window. */
  predicate Inv(st: SamplerState, a: AdvancedParams) {
    && (st.dragging ==> st.down)
    && (!st.down ==> st.filter.histX == [] && st.filter.histY == [] && !st.filter.haveFiltered)
    && (st.down ==> st.filter.haveFiltered)
    && |st.filter.histX| == |st.filter.histY| <= HistCap(a.medianWindow)
  }

  lemma StartInv(a: AdvancedParams)
    ensures Inv(Start, a)
  {
  }

  /** Every iteration keeps the invariant. */
  lemma AdvanceInv(st: SamplerState, a: AdvancedParams, p: int, rx: int, ry: int, sx: int, sy: int, nowMs: int)
    requires Inv(st, a)
    ensures Inv(Advance(st, a, p, rx, ry, sx, sy, nowMs).state, a)
  {
    var (st1, g1) := TouchUpdate(st, a, p, rx, ry, sx, sy, nowMs);
    var (st2, g2) := DragUpdate(st1, a, sx, sy);
    assert st2.filter == st1.filter && st2.down == st1.down;
    FilterUpdateInv(st2, a, sx, sy);
    assert Advance(st, a, p, rx, ry, sx, sy, nowMs).state == FilterUpdate(st2, a, sx, sy);
  }

  /** Before the filter runs, the invariant holds except that a contact that
      has just begun has no filtered position yet. */
  lemma FilterUpdateInv(st: SamplerState, a: AdvancedParams, sx: int, sy: int)
    requires st.dragging ==> st.down
    requires !st.down ==> st.filter.histX == [] && st.filter.histY == [] && !st.filter.haveFiltered
    requires |st.filter.histX| == |st.filter.histY| <= HistCap(a.medianWindow)
    ensures Inv(FilterUpdate(st, a, sx, sy), a)
  {
    var r := FilterUpdate(st, a, sx, sy);
    if st.down {
      StepInv(st.filter, sx, sy, a);
    }
  }


  lemma TickInv(st: SamplerState, c: Calibration, rd: Reading, nowMs: int)
    requires Inv(st, c.adv)
    ensures Inv(Tick(st, c, rd, nowMs).state, c.adv)
  {
    var s := MapSampler(rd.rawX, rd.rawY, c);
    AdvanceInv(st, c.adv, SpiSample.Pressure(rd.z1), rd.rawX, rd.rawY, s.0, s.1, nowMs);
  }

  /** Pressure hysteresis: up to down exactly when the pressure reaches the
      press threshold, recording where and when the contact began; down to up
      exactly when it falls to the release threshold, resetting the filter. */
  lemma Hysteresis(st: SamplerState, a: AdvancedParams, p: int, rx: int, ry: int, sx: int, sy: int, nowMs: int)
    requires a.pressThreshold > 0
    ensures var r := Advance(st, a, p, rx, ry, sx, sy, nowMs).state;
      && (!st.down ==> (r.down <==> p >= a.pressThreshold))
      && (st.down ==> (!r.down <==> p <= a.releaseThreshold))
      && (!st.down && r.down ==> r.startX == sx && r.startY == sy && r.startMs == nowMs)
      && (st.down && !r.down ==>
            r.filter.histX == [] && r.filter.histY == [] && !r.filter.haveFiltered && !r.dragging)
  {
    var (st1, g1) := TouchUpdate(st, a, p, rx, ry, sx, sy, nowMs);
    var (st2, g2) := DragUpdate(st1, a, sx, sy);
    assert st2.down == st1.down && st2.filter == st1.filter;
  }

  /** Without a press threshold the contact follows the presence heuristic
      and no tap is ever reported. */
  lemma HeuristicMode(st: SamplerState, a: AdvancedParams, p: int, rx: int, ry: int, sx: int, sy: int, nowMs: int)
    requires a.pressThreshold <= 0
    ensures Advance(st, a, p, rx, ry, sx, sy, nowMs).state.down <==> Present(rx, ry)
    ensures forall g :: g in Advance(st, a, p, rx, ry, sx, sy, nowMs).gestures ==> g.DragStart?
  {
    var (st1, g1) := TouchUpdate(st, a, p, rx, ry, sx, sy, nowMs);
    var (st2, g2) := DragUpdate(st1, a, sx, sy);
    assert g1 == [];
    assert Advance(st, a, p, rx, ry, sx, sy, nowMs).gestures == g2;
  }

  /** A tap is reported exactly on a release in threshold mode of a contact
      that never dragged, lasted at most `tap_max_ms` and ended within
      `tap_max_move_px` of where it began; it carries the release position
      and the contact's duration. */
  lemma TapExactly(st: SamplerState, a: AdvancedParams, p: int, rx: int, ry: int, sx: int, sy: int, nowMs: int)
    ensures var r := Advance(st, a, p, rx, ry, sx, sy, nowMs);
      && ((exists g :: g in r.gestures && g.Tap?) <==>
            a.pressThreshold > 0 && st.down && p <= a.releaseThreshold && IsTap(st, a, sx, sy, nowMs))
      && (forall g :: g in r.gestures && g.Tap? ==> g == Tap(sx, sy, nowMs - st.startMs))
  {
    var (st1, g1) := TouchUpdate(st, a, p, rx, ry, sx, sy, nowMs);
    var (st2, g2) := DragUpdate(st1, a, sx, sy);
    var r := Advance(st, a, p, rx, ry, sx, sy, nowMs);
    assert r.gestures == g1 + g2;
    assert forall g :: g in g2 ==> g.DragStart?;
    if g1 != [] {
      assert r.gestures[0] == g1[0];
    }
  }

  /** A contact that has started dragging ends without a tap. */
  lemma NoTapAfterDrag(st: SamplerState, a: AdvancedParams, p: int, rx: int, ry: int, sx: int, sy: int, nowMs: int)
    requires st.dragging
    ensures forall g :: g in Advance(st, a, p, rx, ry, sx, sy, nowMs).gestures ==> !g.Tap?
  {
    TapExactly(st, a, p, rx, ry, sx, sy, nowMs);
  }

  /** An iteration that starts and ends inside one contact reports a drag
      start only if the contact was not dragging yet, and leaves it dragging. */
  lemma DragStartOnce(st: SamplerState, a: AdvancedParams, p: int, rx: int, ry: int, sx: int, sy: int, nowMs: int)
    requires st.down && Advance(st, a, p, rx, ry, sx, sy, nowMs).state.down
    ensures var r := Advance(st, a, p, rx, ry, sx, sy, nowMs);
      && (st.dragging ==> r.state.dragging && DragCount(r.gestures) == 0)
      && DragCount(r.gestures) <= 1
      && (DragCount(r.gestures) == 1 ==> r.state.dragging)
  {
    var (st1, g1) := TouchUpdate(st, a, p, rx, ry, sx, sy, nowMs);
    var (st2, g2) := DragUpdate(st1, a, sx, sy);
    assert st2.down == st1.down;
    assert st1 == st;
    assert g1 == [];
    assert Advance(st, a, p, rx, ry, sx, sy, nowMs).gestures == g2;
  }

  function DragCount(gs: seq<Gesture>): nat {
    if gs == [] then 0 else (if gs[0].DragStart? then 1 else 0) + DragCount(gs[1..])
  }

  lemma {:induction false} DragCountAppend(a: seq<Gesture>, b: seq<Gesture>)
    ensures DragCount(a + b) == DragCount(a) + DragCount(b)
  {
    if a == [] {
      assert a + b == b;
    } else {
      assert (a + b)[0] == a[0];
      assert (a + b)[1..] == a[1..] + b;
      DragCountAppend(a[1..], b);
    }
  }

  /** Consecutive iterations: each input is the pressure, the raw reading,
      the mapped sample and the time it was taken. */
  datatype Input = Input(p: int, rx: int, ry: int, sx: int, sy: int, nowMs: int)

  function Run(st: SamplerState, a: AdvancedParams, ins: seq<Input>): (SamplerState, seq<Gesture>)
    decreases |ins|
  {
    if ins == [] then (st, [])
    else
      var i := ins[0];
      var t := Advance(st, a, i.p, i.rx, i.ry, i.sx, i.sy, i.nowMs);
      var rest := Run(t.state, a, ins[1..]);
      (rest.0, t.gestures + rest.1)
  }

  /** The contact lasts through every iteration of the run. */
  predicate StaysDown(st: SamplerState, a: AdvancedParams, ins: seq<Input>)
    decreases |ins|
  {
    ins == [] ||
      var i := ins[0];
      var t := Advance(st, a, i.p, i.rx, i.ry, i.sx, i.sy, i.nowMs);
      t.state.down && StaysDown(t.state, a, ins[1..])
  }

  /** DRAG_START is reported at most once per contact. */
  lemma {:induction false} OneDragPerContact(st: SamplerState, a: AdvancedParams, ins: seq<Input>)
    requires st.down && StaysDown(st, a, ins)
    ensures DragCount(Run(st, a, ins).1) <= (if st.dragging then 0 else 1)
    decreases |ins|
  {
    if ins != [] {
      var i := ins[0];
      var t := Advance(st, a, i.p, i.rx, i.ry, i.sx, i.sy, i.nowMs);
      DragStartOnce(st, a, i.p, i.rx, i.ry, i.sx, i.sy, i.nowMs);
      OneDragPerContact(t.state, a, ins[1..]);
      DragCountAppend(t.gestures, Run(t.state, a, ins[1..]).1);
    }
  }

  /** The first report of a contact is exactly where the finger landed: the
      filter was reset when the previous contact ended. */
  lemma FirstReportIsFinger(st: SamplerState, a: AdvancedParams, p: int, rx: int, ry: int, sx: int, sy: int, nowMs: int)
    requires Inv(st, a) && !st.down && Advance(st, a, p, rx, ry, sx, sy, nowMs).state.down
    ensures Advance(st, a, p, rx, ry, sx, sy, nowMs).state.filter.filtX == sx
    ensures Advance(st, a, p, rx, ry, sx, sy, nowMs).state.filter.filtY == sy
  {
    var (st1, g1) := TouchUpdate(st, a, p, rx, ry, sx, sy, nowMs);
    var (st2, g2) := DragUpdate(st1, a, sx, sy);
    assert st2.filter == st.filter;
    StepAfterReset(st.filter, sx, sy, a);
  }
}

=== FILE: spi_sample.dfy ===
/** One XPT2046 conversion: the controller answers a 3-byte SPI transfer, and
    the 12-bit result sits in bits 6..0 of the second byte followed by bits
    7..3 of the third. The bit operations of the source are defined here on
    naturals, bit by bit, so that the decoding can be stated as arithmetic. */
module SpiSample {
  import opened Common

  newtype byte = b: int | 0 <= b < 256

  /** Channel command bytes sent in the first byte of the transfer. */
  const CmdX: byte := 0x90
  const CmdY: byte := 0xD0
  const CmdZ1: byte := 0xB0
  const CmdZ2: byte := 0xC0

  function Pow2(k: nat): (p: nat)
    ensures p >= 1
  {
    if k == 0 then 1 else 2 * Pow2(k - 1)
  }

  /** Bitwise `|` on non-negative integers. */
  function BitOr(a: nat, b: nat): nat
    decreases a + b
  {
    if a == 0 then b
    else if b == 0 then a
    else 2 * BitOr(a / 2, b / 2) + (if a % 2 == 1 || b % 2 == 1 then 1 else 0)
  }

  /** Bitwise `&` on non-negative integers. */
  function BitAnd(a: nat, b: nat): nat
    decreases a + b
  {
    if a == 0 || b == 0 then 0
    else 2 * BitAnd(a / 2, b / 2) + (if a % 2 == 1 && b % 2 == 1 then 1 else 0)
  }

  /** `x << k` and `x >> k` on non-negative values. */
  function Shl(x: nat, k: nat): nat { if k == 0 then x else 2 * Shl(x, k - 1) }
  function Shr(x: nat, k: nat): nat { if k == 0 then x else Shr(x / 2, k - 1) }

  /** OR-ing a value into the zero low bits of a shifted word is addition. */
  lemma {:induction false} OrDisjoint(a: nat, k: nat, y: nat)
    requires y < Pow2(k)
    ensures BitOr(Shl(a, k), y) == Shl(a, k) + y
  {
    if k > 0 && y > 0 {
      var m := Shl(a, k - 1);
      OrDisjoint(a, k - 1, y / 2);
      if m > 0 {
        assert BitOr(2 * m, y) == 2 * BitOr(m, y / 2) + y % 2;
      }
    }
  }

  lemma HalfMod(x: nat, p: nat)
    requires p >= 1
    ensures x % (2 * p) == 2 * ((x / 2) % p) + x % 2
  {
    var q := (x / 2) / p;
    var r := (x / 2) % p;
    assert x / 2 == p * q + r;
    assert x == (2 * p) * q + (2 * r + x % 2);
    ModUnique(x, 2 * p, q, 2 * r + x % 2);
  }

  /** AND with a mask of k one-bits keeps the value modulo 2^k. */
  lemma {:induction false} AndMask(x: nat, k: nat)
    ensures BitAnd(x, Pow2(k) - 1) == x % Pow2(k)
  {
    if k == 0 || x == 0 {
    } else {
      var m := Pow2(k) - 1;
      assert m / 2 == Pow2(k - 1) - 1 && m % 2 == 1;
      AndMask(x / 2, k - 1);
      HalfMod(x, Pow2(k - 1));
    }
  }

  /** `((rx[1] << 5) | (rx[2] >> 3)) & 0xFFF`: the low 7 bits of the second
      byte are the top of the sample and the top 5 bits of the third byte its
      bottom; the top bit of the second byte is masked away. */
  function Decode(rx1: byte, rx2: byte): (v: int)
    ensures 0 <= v <= 4095
    ensures v == (rx1 as int % 128) * 32 + rx2 as int / 8
  {
    DecodeValue(rx1 as nat, rx2 as nat);
    BitAnd(BitOr(Shl(rx1 as nat, 5), Shr(rx2 as nat, 3)), 0xFFF)
  }

  lemma ShrThree(x: nat)
    ensures Shr(x, 3) == x / 8
  {
    assert Shr(x, 3) == Shr(x / 2, 2) == Shr(x / 2 / 2, 1) == x / 2 / 2 / 2;
  }

  lemma ShlFive(x: nat)
    ensures Shl(x, 5) == 32 * x
  {
    assert Shl(x, 5) == 2 * Shl(x, 4) == 4 * Shl(x, 3) == 8 * Shl(x, 2) == 16 * Shl(x, 1);
  }

  lemma DecodeValue(a: nat, b: nat)
    requires a < 256 && b < 256
    ensures BitAnd(BitOr(Shl(a, 5), Shr(b, 3)), 0xFFF) == (a % 128) * 32 + b / 8
  {
    assert Pow2(5) == 32 && Pow2(3) == 8 && Pow2(12) == 4096;
    ShrThree(b);
    ShlFive(a);
    OrDisjoint(a, 5, b / 8);
    var word := 32 * a + b / 8;
    assert BitOr(Shl(a, 5), Shr(b, 3)) == word;
    AndMask(word, 12);
    var h := a / 128;
    var l := a % 128;
    assert word == 4096 * h + (32 * l + b / 8);
    ModUnique(word, 4096, h, 32 * l + b / 8);
  }

  /** The reply a controller gives for the 12-bit value `v`: its top 7 bits in
      the second byte, its low 5 bits left-aligned in the third. */
  function Encode(v: int): (reply: (byte, byte))
    requires 0 <= v <= 4095
    ensures reply.0 < 128 && reply.1 % 8 == 0
  {
    ((v / 32) as byte, ((v % 32) * 8) as byte)
  }

  /** Every 12-bit sample survives the controller's byte layout. */
  lemma DecodeEncode(v: int)
    requires 0 <= v <= 4095
    ensures Decode(Encode(v).0, Encode(v).1) == v
  {
    ModUnique((v % 32) * 8, 8, v % 32, 0);
    ModUnique(v / 32, 128, 0, v / 32);
  }

  /** The three trailing bits of the last byte carry no information. */
  lemma DecodeIgnoresLowBits(rx1: byte, rx2: byte, rx2': byte)
    requires rx2 / 8 == rx2' / 8
    ensures Decode(rx1, rx2) == Decode(rx1, rx2')
  {
  }

  /** `read_xpt2046`: a failed transfer (`None`) is reported as -1; otherwise
      the decoded sample. The first reply byte is ignored. */
  function ReadValue(reply: Option<(byte, byte, byte)>): (v: int)
    ensures reply.None? <==> v == -1
    ensures reply.Some? ==> 0 <= v <= 4095
    ensures reply.Some? ==> v == Decode(reply.value.1, reply.value.2)
  {
    match reply
    case None => -1
    case Some(rx) => Decode(rx.1, rx.2)
  }

  /** `pressure = (z1 >= 0) ? z1 : 0`: a failed Z1 read counts as no pressure. */
  function Pressure(z1: int): (p: int)
    ensures p >= 0
    ensures z1 >= 0 ==> p == z1
    ensures z1 < 0 ==> p == 0
  {
    if z1 >= 0 then z1 else 0
  }
}
